=== FILE: README.md ===
# pythondatatools rates loaders, modelled in Dafny

This project models the core of the `pythondatatools` loaders. These loaders fetch interest and exchange rates and write them to a MySQL database.

The model covers five parts:
- **SqlQuery** (`src/sql_class_base.py`): the query description `sql_query_base` and its text builders. These are the SQL kind, the INSERT/stored-procedure construction from the settings, the `INSERT INTO t (` prefix and column list, element appending and trailing-separator cleaning. It also covers reading the current view and extracting the table name from a query string.
- **RatesInterface** (`src/base_interest_rates_interface.py`): rendering a DataFrame of rates as one wide INSERT. Rows mostly missing (`exclude_perc`, 0.295 by default) are skipped. It also covers the vertical parameterised INSERT, timestamp-to-`YYYY-MM-DD` conversion, reading a value out of a query result, and the date from which loading resumes.
- **RatesUpdate** (`src/interest_rates_interface_extended.py`): splitting a fetched frame against the most recent persisted date into new rows, which are inserted, and old rows inside the loading window. The old rows are left-merged with the persisted rows and used to fill persisted gaps by UPDATE statements. It also covers the dict form of the UPDATE writer.
- **ExchangeRates** (`bin/load_exchange_rates.py`): the REST request string (`history`, a date, or `latest`, with `symbols` and `base`) and the URL join.
- **HtmlTable** (`bin/load_html_table.py`): text clean-up of labels (replacement tables, then upper/lower case). It also covers grouping currency rows into currency → countries, keeping rows whose label cell is long text, relabelling columns and index, and choosing the table from the list `read_html` returns.

Some shared modules support these:
- `Wrappers`: Option/Result and Python's exceptions as an `Error` value.
- `Text`: the Python `str` operations used.
- `OrderedDict`: an insertion-ordered dict as a sequence of pairs.
- `Lists`: filter/filter-map.
- `Dates`: calendar dates, `strftime`/`strptime` for `%Y<sep>%m<sep>%d`.
- `DbRows`: rows of a query result.
- `Frames`: a DataFrame as columns plus rows of optional cells, where a NaN cell is `None`.

A Python exception becomes an `Err` of the matching error kind. An exception the source catches becomes the outcome the handler leaves behind.

The database is not modelled as a process:
- A query result is an input.
- Whether an `update` call commits is an oracle function `ok`. It returns code 0 if the call commits and 1 if not.
- The statements a writer would submit are its output.

## Model

| member | source | states |
|---|---|---|
| SqlQuery.Renamed | src/sql_class_base.py:63-70 | for a dict of items each column is keyed by its target name (the value, or the key when the value is empty) and carries the source key, in order |
| SqlQuery.Blank | src/sql_class_base.py:71-74 | a list of items becomes columns with empty values, one per name, in order |
| SqlQuery.InsertColumnsCopied | src/sql_class_base.py:57-61 | a single `columns` setting is copied as a dict: its keys deduplicated in first-occurrence order, each mapped to its last value, and unchanged when keys are distinct |
| SqlQuery.InsertColumnsRenamed | src/sql_class_base.py:63-70 | dict items give distinct column keys; a key is present iff some item targets it, and it maps to the source of the last item that targets it |
| SqlQuery.InsertColumnsListed | src/sql_class_base.py:71-74 | list items give the deduplicated names as keys, each mapped to the empty string |
| SqlQuery.WithProcedure | src/sql_class_base.py:76-94 | installing a procedure sets the text and the kind (stored procedure without result when none is given, with `return_result` false) and keeps table, index and columns |
| SqlQuery.ConstructSp | src/sql_class_base.py:76-94 | a `CALL` query or, without a query, a named procedure replaces the text; any other query leaves the description unchanged; a changed text always carries the configured or default kind |
| SqlQuery.NewQuery | src/sql_class_base.py:19-49 | construction fails with ValueError exactly when the settings, the index name or both table sources are missing; the table argument wins over the setting; INSERT texts build columns, SELECT texts read the kind and nothing else builds columns |
| SqlQuery.ConstructInsertStart | src/sql_class_base.py:108-131 | AttributeError without text, ValueError for a non-string non-list index, TypeError without a table, otherwise `INSERT INTO <table> (` followed by the index columns when they are included |
| SqlQuery.KeptMembers | src/sql_class_base.py:133-156 | a column name survives exactly when it is a column and not excluded by the index name |
| SqlQuery.KeptOfConcat | src/sql_class_base.py:141-150 | the exclusion filter works column by column and keeps every column when nothing is excluded |
| SqlQuery.AppendNames | src/sql_class_base.py:133-156 | fails exactly when the columns are missing or empty, there is no text, the text is not an INSERT or the exclusions are of a refused kind (AttributeError only for a missing text, ValueError otherwise); otherwise the text, the separator, the kept names joined by `, ` and `) VALUES ` |
| SqlQuery.InsertStartThenNames | src/sql_class_base.py:108-156 | the prefix built by construct_insert_start always admits the column list when columns exist |
| SqlQuery.AppendQueryElement | src/sql_class_base.py:158-160 | the result is the text, the separator and the value, with lengths adding up |
| SqlQuery.AppendBuildsJoin | src/sql_class_base.py:158-160 | appending to a join is the join of the extended list |
| SqlQuery.CleanQueryElement | src/sql_class_base.py:162-166 | a text ending in the search string (longer than one character) has that ending replaced; any other text is unchanged |
| SqlQuery.CleanDefaultIdempotent | src/sql_class_base.py:162-166 | with the default `), \n` → `);` the clean-up is idempotent and leaves texts not ending in a newline alone |
| SqlQuery.FirstKeyword | src/sql_class_base.py:236-247 | the position of the first word equal (case-insensitively) to the keyword, or -1 when none is |
| SqlQuery.LastQualifying | src/sql_class_base.py:236-247 | a word found qualifies and no later word does (the assignment in the loop keeps the latest); None exactly when no word qualifies |
| SqlQuery.TableAfter | src/sql_class_base.py:230-249 | a name found stands after the first keyword, qualifies, and no later word qualifies; None exactly when there is no keyword or no qualifying word after the first one |
| SqlQuery.CalcTableName | src/sql_class_base.py:230-249 | only SELECT (after `FROM`) and stored procedures with a result (after `CALL`, never `*`) yield a name, and it is the last qualifying word after the first keyword; none when the keyword is absent |
| SqlQuery.ScanTableName | src/sql_class_base.py:230-249 | the word loop computes the declarative table name |
| SqlQuery.ScanWords | src/sql_class_base.py:236-247 | the loop over words, with its keyword flag, equals the last qualifying word after the first keyword |
| SqlQuery.FirstKeywordAt | src/sql_class_base.py:236-247 | a keyword at position i with none before it is the first keyword |
| SqlQuery.CalculateCurrentView | src/sql_class_base.py:174-227 | ValueError exactly for a view of another kind or a dict view with neither a SELECT spec nor a procedure; the result keeps the index name, is consistent and typed; SELECT strings, plain names and specs become the documented query; only procedures with a result report rows |
| RatesInterface.ExcludePerc | src/base_interest_rates_interface.py:55-56 | the configured threshold, or 0.295 |
| RatesInterface.StrpTime | src/base_interest_rates_interface.py:274-294 | parsing succeeds exactly for texts the `%Y<sep>%m<sep>%d` reading accepts, else ValueError |
| RatesInterface.ConvertTimestamp | src/base_interest_rates_interface.py:274-294 | a timestamp is formatted with the separator; a string whose first separator is at 4 is parsed with it, else one whose first `/` is at 4 is parsed with `/`, and the parsed date is re-emitted padded with the separator; an unparsable string or other value is a ValueError |
| RatesInterface.IsoCalendarDate | src/base_interest_rates_interface.py:274-294 | the `-` format of a date is the ten-character `YYYY-MM-DD` text |
| RatesInterface.FindSeparatorAfterYear | src/base_interest_rates_interface.py:281-286 | in a formatted date the first separator is at position 4 |
| RatesInterface.ConvertTimestampRoundTrip | src/base_interest_rates_interface.py:274-294 | a date string in the target format converts to itself, as the timestamp does |
| RatesInterface.UnpaddedDateNormalised | src/base_interest_rates_interface.py:281-294 | the unpadded string `2020-1-5` is re-emitted as `2020-01-05` |
| RatesInterface.SlashDateReEmitted | src/base_interest_rates_interface.py:281-292 | a `/`-separated date string is re-emitted in the target format |
| RatesInterface.AbsentCountOfAll | src/base_interest_rates_interface.py:107-112 | the missing-cell count equals the width exactly when every cell is missing, and is 0 exactly when none is |
| RatesInterface.DefaultExclusion | src/base_interest_rates_interface.py:55-56 | with 0.295, a row with no missing cells is kept, an all-missing row is skipped, and a single missing cell skips the row exactly when it has at most three cells |
| RatesInterface.RowFragment | src/base_interest_rates_interface.py:114-125 | a row renders as a non-empty fragment ending in `)` |
| RatesInterface.RenderRow | src/base_interest_rates_interface.py:114-125 | the per-cell loop renders the fragment |
| RatesInterface.DashDate | src/base_interest_rates_interface.py:114-118 | the row date is the timestamp's `YYYY-MM-DD`; failures are ValueError |
| RatesInterface.Survivors | src/base_interest_rates_interface.py:107-112 | a row survives exactly when it is a row of the frame and is not excluded by the threshold |
| RatesInterface.SurvivorsInOrder | src/base_interest_rates_interface.py:107-112 | the survivors keep the frame order: those of a concatenation are those of each part, in turn |
| RatesInterface.FragmentsOfSurvivors | src/base_interest_rates_interface.py:107-125 | rendering the frame is rendering exactly the surviving rows, in order |
| RatesInterface.InsertTextSnoc | src/base_interest_rates_interface.py:127-135 | appending a fragment with `\n` first and `, \n` afterwards extends the statement |
| RatesInterface.RowsText | src/base_interest_rates_interface.py:106-135 | the statement starts with the column-named prefix |
| RatesInterface.BuildInsert | src/base_interest_rates_interface.py:93-141 | the status is -1 exactly for an empty frame (query unchanged) and 0 otherwise (text set) |
| RatesInterface.InsertTextShape | src/base_interest_rates_interface.py:127-141 | the built statement starts with the prefix and the clean-up of its ending is a no-op |
| RatesInterface.BuildInsertStatement | src/base_interest_rates_interface.py:93-141 | for a non-empty frame the text is the INSERT prefix, the column names and the surviving row fragments |
| RatesInterface.AppendRows | src/base_interest_rates_interface.py:106-135 | the row loop computes the declarative statement text |
| RatesInterface.DataFrameInsert | src/base_interest_rates_interface.py:93-141 | the method equals the declarative build |
| RatesInterface.ConstructDbInsert | src/base_interest_rates_interface.py:68-91 | dicts fail at `df.empty`; a submitted statement is the built text; a non-empty frame with a connection submits; a frame with no rows submits nothing; caught ValueErrors never escape |
| RatesInterface.PlaceholderStep | src/base_interest_rates_interface.py:184-192 | one more `%s, ` step extends the placeholder list |
| RatesInterface.PlaceholderLoop | src/base_interest_rates_interface.py:184-192 | the loop builds `%s, …, %s);` with n placeholders |
| RatesInterface.IndexText | src/base_interest_rates_interface.py:196-203 | a string index is kept and any other index is converted to `YYYY-MM-DD` |
| RatesInterface.VerticalRows | src/base_interest_rates_interface.py:196-203 | every parameter row carries the mapped column and its source name |
| RatesInterface.PresentFirst | src/base_interest_rates_interface.py:196-203 | exactly the rows whose first cell is present remain |
| RatesInterface.VerticalRowsOfPresent | src/base_interest_rates_interface.py:196-203 | exactly one parameter row per row whose first cell is present, holding that row's rendered value and index text, in order |
| RatesInterface.VerticalInsert | src/base_interest_rates_interface.py:174-211 | an empty frame yields nothing; a statement produced is the INSERT opening with index columns, the non-index column names, `) VALUES ` and one placeholder per mapped column, and the parameter rows are those of VerticalRows on the frame |
| RatesInterface.ExtractDbResultValue | src/base_interest_rates_interface.py:261-272 | a status is a TypeError and no rows an IndexError; the first row is read at the position, else at a dict view's location, else at the index column |
| RatesInterface.ExtractAgreesElsewhere | src/base_interest_rates_interface.py:265-270 | the source's reading and the corrected one agree unless a plain view name contains `location` |
| RatesInterface.LocationSubstringCounterexample | src/base_interest_rates_interface.py:267-268 | for a view named `location_rates` the source's reading fails and the corrected one reads the date |
| RatesInterface.CalcMostRecentDate | src/base_interest_rates_interface.py:231-259 | without a view, for a view that returns no rows, or for an empty result, the given maximum; no connection or an untyped view is an AttributeError; without a maximum, the persisted date formatted; with one (a ValueError unless it parses), the maximum when the persisted date is earlier, else the persisted date advanced by one increment, formatted; a read or increment failure is passed on |
| RatesInterface.IncrementOf | src/base_interest_rates_interface.py:244-251 | one day after a SELECT view; after a stored procedure, a reporting period, and a failure when the persisted value is not a date |
| RatesInterface.ResumeAfterSelect | src/base_interest_rates_interface.py:238-253 | after a SELECT view, a persisted date on or after the maximum resumes loading at the next calendar day: later than it, with no valid date between |
| RatesInterface.ResumeMovesForward | src/base_interest_rates_interface.py:238-257 | with a maximum, loading resumes at it or strictly after it |
| RatesUpdate.MasksAreCalendarOrder | src/interest_rates_interface_extended.py:48-67 | the year/month/day masks are "after the maximum" and "on or before it" |
| RatesUpdate.PartitionOfRows | src/interest_rates_interface_extended.py:48-72 | new rows are the rows after the maximum; old rows are the ones on or before it and after the start date; the two are disjoint; new and not-new rows account for every row |
| RatesUpdate.Suffixed | src/interest_rates_interface_extended.py:73-74 | overlapping column names get the merge suffix, others keep their name |
| RatesUpdate.MergeRow | src/interest_rates_interface_extended.py:73-74 | a left row yields at least one merged row with its date and its cells first |
| RatesUpdate.MergedRowsShape | src/interest_rates_interface_extended.py:73-74 | every merged row has both widths of cells and a date of some left row |
| RatesUpdate.MergeLeftWellShaped | src/interest_rates_interface_extended.py:73-74 | the left merge is well shaped and keeps at least every left row |
| RatesUpdate.UnmatchedRowGetsMissingCells | src/interest_rates_interface_extended.py:73-74 | a left row without a matching date gets missing right cells |
| RatesUpdate.Failures | src/interest_rates_interface_extended.py:122-123 | the summed return codes never exceed the number of calls |
| RatesUpdate.RowCallsAreGaps | src/interest_rates_interface_extended.py:107-123 | within a row, every gap is filled and every call fills a gap |
| RatesUpdate.FrameCallsAreGaps | src/interest_rates_interface_extended.py:106-123 | over the frame, exactly the gaps are filled, so a present target cell is never written |
| RatesUpdate.DataFrameUpdateSpec | src/interest_rates_interface_extended.py:98-135 | -1 for an empty frame; KeyError without a mapping, AttributeError for a non-dict mapping; otherwise the calls are exactly the gap calls of the frame, in row and mapping order, the status is their failure count, and an AttributeError arises exactly when there is a gap and no UPDATE template or no connection |
| RatesUpdate.UpdateRow | src/interest_rates_interface_extended.py:107-130 | the inner loop issues the row's gap calls and counts their failures; with no template or no connection the first gap is an AttributeError |
| RatesUpdate.FailuresOfConcat | src/interest_rates_interface_extended.py:122-123 | failure counts add over concatenated call lists |
| RatesUpdate.DataFrameUpdate | src/interest_rates_interface_extended.py:98-135 | the nested loops equal the declarative update, including the AttributeError at the first gap without a template or a connection |
| RatesUpdate.Stamped | src/interest_rates_interface_extended.py:84 | the new rows handed to the INSERT writer keep columns, row count and shape |
| RatesUpdate.ViewQuery | src/interest_rates_interface_extended.py:32 | the `query` of the `current_view` setting, exactly when the setting is a dict holding one; KeyError without the setting or the key, TypeError for a string or other value |
| RatesUpdate.ConstructDbInsertUpdate | src/interest_rates_interface_extended.py:27-96 | no connection is an AttributeError; then, before the input is looked at, no `current_view` setting or a dict without `query` is a KeyError and a string or other setting a TypeError; with a query, anything but a frame with rows does nothing; a frame with rows against an empty persisted view is an AttributeError, since the view's empty list has no `iloc`; the returned frame is the new rows; the events are the gap calls on the old rows merged with the persisted ones, then the INSERT the wide writer builds for the stamped new rows, if any; caught ValueErrors never escape |
| RatesUpdate.Events | src/interest_rates_interface_extended.py:81-84 | the updates come first, in order, then at most one INSERT, with nothing after it |
| RatesUpdate.MergedOldInWindow | src/interest_rates_interface_extended.py:59-74 | every row of the merged old part is dated on or before the maximum and after the start date |
| RatesUpdate.OldCallsInWindow | src/interest_rates_interface_extended.py:59-81 | every update on the merged old rows is dated on or before the maximum and after the start date |
| RatesUpdate.CallDatesInWindow | src/interest_rates_interface_extended.py:112-125 | each call carries its row's date, so calls on rows inside the window are dated inside it |
| RatesUpdate.UpdatesOnlyOldDates | src/interest_rates_interface_extended.py:27-96 | every UPDATE the operation issues is dated inside the old window |
| RatesUpdate.DictUpdate | src/interest_rates_interface_extended.py:137-172 | a DataFrame or Series is a ValueError from its ambiguous truth value; -1 for an empty dict or another value; an AttributeError without a template or without a connection; otherwise one call per entry with the entry's fields plus its `index` (a datetime formatted `YYYY-MM-DD`) and the failure count as status |
| ExchangeRates.BuildReqStrAsWritten | bin/load_exchange_rates.py:30-64 | the request as written starts with its path and is `latest` without url control |
| ExchangeRates.PathPriority | bin/load_exchange_rates.py:34-47 | a range wins over a date, and the date over `latest` |
| ExchangeRates.AsWrittenSuffixes | bin/load_exchange_rates.py:49-57 | as written, symbols are appended with `&symbols=` and a base with `?base?`; an `EUR` base is omitted |
| ExchangeRates.SplitJoin | bin/load_exchange_rates.py:36-38 | splitting a join on a character absent from the parts recovers them |
| ExchangeRates.ParseRender | bin/load_exchange_rates.py:30-64 | a rendered request parses back to its path and parameters |
| ExchangeRates.BuildReqStr | bin/load_exchange_rates.py:30-64 | the corrected request starts with its path and is `latest` without url control |
| ExchangeRates.BuildIsRendered | bin/load_exchange_rates.py:30-64 | the corrected builder renders the route with the parameters it selects |
| ExchangeRates.RequestRoundTrip | bin/load_exchange_rates.py:30-64 | the corrected request parses back to its route and its parameters |
| ExchangeRates.BaseSeparatorCounterexample | bin/load_exchange_rates.py:54-57 | with only a base `usd` the request as written parses to a bare parameter `base?USD`, while the corrected one parses to `base=USD` |
| ExchangeRates.RequestUrl | bin/load_exchange_rates.py:12-13 | the request URL is the base URL, `/` and the request string |
| HtmlTable.ApplyPairsConcat | bin/load_html_table.py:147-159 | applying two replacement tables in turn is applying their concatenation |
| HtmlTable.ApplyAbsentKeys | bin/load_html_table.py:147-159 | replacements whose keys do not occur leave the text unchanged |
| HtmlTable.Recase | bin/load_html_table.py:165-170 | a positive flag upper-cases, zero lower-cases, anything else keeps the text; the length is kept |
| HtmlTable.ParseText | bin/load_html_table.py:142-172 | no control keeps the text; the case flag decides the case of the result |
| HtmlTable.ParseTextOrder | bin/load_html_table.py:142-172 | the clean table is applied, then the additional table, then the case change |
| HtmlTable.ParseTextUnchanged | bin/load_html_table.py:142-172 | without a case change and with no key occurring, the text is unchanged |
| HtmlTable.ParseTextFoldIdempotent | bin/load_html_table.py:142-172 | with a case change and no replacements, cleaning twice is cleaning once |
| HtmlTable.ParseBs4Currency | bin/load_html_table.py:54-77 | the element loop computes the declarative grouping |
| HtmlTable.GroupSucceeds | bin/load_html_table.py:59-74 | the grouping succeeds exactly when every row with more than one cell has both positions; otherwise it is an IndexError |
| HtmlTable.GroupCounts | bin/load_html_table.py:59-74 | keys are distinct, each count is the number of countries (at least one), and the counts add up to the qualifying rows |
| HtmlTable.GroupCountries | bin/load_html_table.py:59-74 | the countries listed for a currency are exactly those of its qualifying rows, in order |
| HtmlTable.ColumnPosition | bin/load_html_table.py:104-109 | a column position is valid exactly within the width either way, negative positions count from the end, and others are IndexError |
| HtmlTable.CleanseDf | bin/load_html_table.py:101-111 | without a position it is a KeyError, and a bad position is an IndexError; the result keeps the columns and shape and never adds rows |
| HtmlTable.CleanseKeepsExactly | bin/load_html_table.py:104-109 | a row is kept exactly when its label cell is text longer than one character |
| HtmlTable.CleanseKeepsOrder | bin/load_html_table.py:104-109 | the row filter works row by row, keeping order |
| HtmlTable.CleanseIdempotent | bin/load_html_table.py:101-111 | cleansing twice is cleansing once |
| HtmlTable.ParseCell | bin/load_html_table.py:126-138 | a text cell is cleaned; a missing cell fails exactly when the clean-up touches text |
| HtmlTable.RelabelRows | bin/load_html_table.py:126-138 | relabelling keeps every row's cells and succeeds exactly when every row relabels, each to its own label |
| HtmlTable.ParseHeaderDf | bin/load_html_table.py:112-140 | the frame keeps its shape and cells; column names are cleaned when selected, else unchanged; rows are untouched unless the index is cleaned |
| HtmlTable.ParseHeaderIndex | bin/load_html_table.py:126-138 | relabelling the index succeeds exactly when each row's label cell can be cleaned, and each row gets that label |
| HtmlTable.ParsePandasDf | bin/load_html_table.py:79-99 | ValueError exactly when there is no table or the chosen position is past the end |
| HtmlTable.ParsePandasSelects | bin/load_html_table.py:83-90 | without header cleaning the chosen table is returned, counting negative positions from the end |
| HtmlTable.CleanseNeedsHeader | bin/load_html_table.py:92-97 | the cleanse setting has no effect unless the header is cleaned |
| Dates.ParseFormatRoundTrip | src/base_interest_rates_interface.py:274-294 | a formatted date parses back to itself |

## Left out

- Database I/O, connections and the driver: query results are inputs, and the success of `update` is the oracle `ok`. Errors of the MySQL driver are not modelled. Driver calls that the source guards with `try` are counted through `ok` alone.
- HTTP (`requests.get`), JSON decoding, file saving, BeautifulSoup parsing and `pandas.read_html`: each bin script's fetch is left out. `parse_bs4_currency` takes its input as the text cells of each table row. `parse_pandas_df` takes the list of parsed tables as input.
- The `parse_table` dispatch and the `main`/option-file plumbing of the bin scripts are left out. They are I/O.
- The fred scripts, `sql_alchemy_class.py` and `mysql_db_class.py` are not part of this model.
- Debug printing (`print_dbg`, `dbg`) is left out, and the model follows the path with it switched off. With `print_dbg` set, `db_dict_update` formats `write_dict['CAD']` to `['CNY']` with `%f` (src/interest_rates_interface_extended.py:154-157), which raises KeyError or TypeError for an entry without those numeric fields, and `db_dataframe_update` formats the two cells with `%f` (src/interest_rates_interface_extended.py:118-120). Those failures are not modelled.
- `db_dict_insert` is left out. Its first statement reads `df.empty` on a dict, which raises AttributeError (src/base_interest_rates_interface.py:146). `ConstructDbInsert` models that failure for dict input.
- RatesInterface.ExcludePerc: the threshold is an exact fraction, so float rounding of `absent/width > exclude_perc` is not modelled.
- RatesUpdate.ConstructDbInsertUpdate: the fetch of the current view, and the `max_date` read from its first row when there is one, are inputs. The fallback `max(current_df.index_date)` when `max_date` is None is therefore not modelled. The KeyError when the fetched rows lack the `index_name` column (src/interest_rates_interface_extended.py:35), and the KeyError when the `current_view` dict has no `max_date` key (line 38), are not modelled either: the fetched rows and the `max_date` value are given, and the view setting records no `max_date` key.
- RatesUpdate.MergeLeftWellShaped: the left merge matches rows on calendar date only. Time-of-day differences between a timestamp index and a date index are not modelled.
- RatesInterface.CalcMostRecentDate: `calc_single_period_advance` comes from another module. It enters as the `period` and `shift` parameters.
- Duplicate column names: a label lookup uses the first matching column.
- A list index name (`IndexLookup`) reads as a TypeError. Column tuples are not modelled.
- ExchangeRates.BuildReqStr: `date`, `symbols` and `base` are strings (symbols a list of strings). Other value types handed to `str()` are not modelled.
- HtmlTable.ParsePandasDf: the `int()` conversions of option values are taken as already done, and option values are integers.
- HtmlTable.ParseHeaderDf: column labels are strings. `read_html` integer labels, which would make `row[1][loc]` a label lookup, are not modelled.
- Upper and lower case cover ASCII letters only. Python's full Unicode case mapping is not modelled.
- Dates.ParseDate: strptime's `\d` also accepts non-ASCII decimal digits. The model accepts ASCII digits only.
- HtmlTable.CleanseDf: `read_html` cells are text or NaN. A numeric column, on which `.str` (bin/load_html_table.py:104) and `parse_text` raise AttributeError, is not modelled.
- RatesInterface.CalcMostRecentDate: the persisted date is read with the corrected ExtractDbResultValue (see Findings). On a plain-string view containing `location` the source raises TypeError there, and the model reads the index column instead.
- RatesInterface.CalcMostRecentDate: a persisted date cell stands for a `datetime`. A `datetime.date` (as a MySQL DATE column returns) makes `datetime.strftime` and the comparison with `current_max` raise TypeError in the source (src/base_interest_rates_interface.py:237-249). That failure is not modelled.
- ExchangeRates.RequestUrl: the request string is the corrected BuildReqStr (see Findings). For a `base` setting the source requests `url/latest?base?USD`, and BuildReqStrAsWritten models that text.

## Findings

| source | as written | input that shows it | evidently intended | confidence | as-written member | corrected member |
|---|---|---|---|---|---|---|
| bin/load_exchange_rates.py:54-57 | `'?'.join([req_str, 'base', B])` joins the base with `?` on both sides; symbols are appended with `&` even when no `?` precedes them | url control with only `base: "usd"` gives `latest?base?USD`, a single bare parameter `base?USD` | `latest?base=USD`, with `&` between later parameters | not executed | ExchangeRates.BaseSeparatorCounterexample | ExchangeRates.BuildReqStr |
| src/base_interest_rates_interface.py:267-268 | `"location" in self.options["current_view"]` is a substring test when the view is a plain string, and the string is then indexed with `'location'` | a current view `"location_rates"` with a result row `{"date": d}` raises TypeError | read a `location` only from a dict view, otherwise use the index column | not executed | RatesInterface.LocationSubstringCounterexample | RatesInterface.ExtractDbResultValue |

=== FILE: dates.dfy ===
/** Calendar dates as (year, month, day) triples, with the Gregorian rules
    Python's `datetime.date` enforces (years 1 to 9999), the one-day step of
    `timedelta(days=1)`, the `%Y-%m-%d` rendering used throughout the loaders
    and the parser behind `datetime.strptime(s, "%Y<sep>%m<sep>%d")`. */
module Dates {
  import opened Wrappers
  import opened Text

  datatype Date = Date(year: int, month: int, day: int)

  predicate IsLeap(y: int) {
    y % 4 == 0 && (y % 100 != 0 || y % 400 == 0)
  }

  function DaysInMonth(y: int, m: int): int
    requires 1 <= m <= 12
  {
    if m == 2 then (if IsLeap(y) then 29 else 28)
    else if m == 4 || m == 6 || m == 9 || m == 11 then 30
    else 31
  }

  /** A date `datetime.date` accepts. */
  predicate Valid(d: Date) {
    && 1 <= d.year <= 9999
    && 1 <= d.month <= 12
    && 1 <= d.day <= DaysInMonth(d.year, d.month)
  }

  /** A numbering of calendar days that leaves gaps for the days a month lacks:
      31 slots per month, 12 months per year. */
  function Ordinal(d: Date): int {
    372 * d.year + 31 * (d.month - 1) + (d.day - 1)
  }

  /** `a` is strictly earlier than `b`. */
  predicate Before(a: Date, b: Date) {
    Ordinal(a) < Ordinal(b)
  }

  /** A date `datetime.date` can hold. */
  type CalendarDate = d: Date | Valid(d) witness Date(1, 1, 1)

  /** On valid dates the chronological order is the lexicographic order of the
      (year, month, day) components. */
  lemma BeforeIsLexicographic(a: Date, b: Date)
    requires Valid(a) && Valid(b)
    ensures Before(a, b) <==>
      (a.year < b.year || (a.year == b.year && (a.month < b.month || (a.month == b.month && a.day < b.day))))
    ensures !Before(a, b) && !Before(b, a) ==> a == b
  {
  }

  /** Python `d + timedelta(days=1)`; stepping past 9999-12-31 raises OverflowError. */
  function NextDay(d: Date): Result<Date>
    requires Valid(d)
  {
    if d.day < DaysInMonth(d.year, d.month) then Ok(Date(d.year, d.month, d.day + 1))
    else if d.month < 12 then Ok(Date(d.year, d.month + 1, 1))
    else if d.year < 9999 then Ok(Date(d.year + 1, 1, 1))
    else Err(OverflowError)
  }

  /** The next day is the valid date immediately after `d`: later than `d`, and
      no valid date lies strictly between the two. Only the last representable
      day has no successor. */
  lemma NextDayIsSuccessor(d: Date, e: Date)
    requires Valid(d) && Valid(e)
    ensures NextDay(d).Err? <==> d == Date(9999, 12, 31)
    ensures NextDay(d).Ok? ==> Valid(NextDay(d).value) && Before(d, NextDay(d).value)
    ensures NextDay(d).Ok? ==> !(Before(d, e) && Before(e, NextDay(d).value))
  {
    if Before(d, e) && NextDay(d).Ok? {
      BeforeIsLexicographic(d, e);
      var n := NextDay(d).value;
      if d.day < DaysInMonth(d.year, d.month) {
        assert Ordinal(n) == Ordinal(d) + 1;
      } else if d.month < 12 {
        assert e.year > d.year || (e.year == d.year && e.month > d.month);
      } else {
        assert e.year > d.year;
      }
    }
  }

  // ---------------------------------------------------------------- rendering

  /** Python `str(n)`. */
  function IntString(n: int): string {
    if n < 0 then "-" + DecimalString(-n) else DecimalString(n)
  }

  /** `str(n) if n > 9 else "0" + str(n)`, as convert_timestamp pads months and days. */
  function TwoDigits(n: int): string {
    if n > 9 then IntString(n) else "0" + IntString(n)
  }

  /** Year, month and day joined by `sep`; months and days padded to two
      digits. With `sep == "-"` this is also `strftime("%Y-%m-%d")`. */
  function FormatDate(d: Date, sep: string): string {
    IntString(d.year) + sep + TwoDigits(d.month) + sep + TwoDigits(d.day)
  }

  // ---------------------------------------------------------------- parsing

  function Digit(c: char): int
    requires IsDigit(c)
  {
    DigitValue(c)
  }

  /** The alternatives of strptime's `%m` pattern `1[0-2]|0[1-9]|[1-9]` that
      match at the start of `t`, in the order the regex engine tries them,
      as (month, characters consumed). */
  function MonthCandidates(t: string): seq<(int, nat)> {
    var a := if |t| >= 2 && t[0] == '1' && '0' <= t[1] <= '2' then [(10 + Digit(t[1]), 2)] else [];
    var b := if |t| >= 2 && t[0] == '0' && '1' <= t[1] <= '9' then [(Digit(t[1]), 2)] else [];
    var c := if |t| >= 1 && '1' <= t[0] <= '9' then [(Digit(t[0]), 1)] else [];
    a + b + c
  }

  /** The first alternative of strptime's `%d` pattern
      `3[01]|[12]\d|0[1-9]|[1-9]| [1-9]` that matches at the start of `t`. */
  function DayMatch(t: string): Option<(int, nat)> {
    if |t| >= 2 && t[0] == '3' && '0' <= t[1] <= '1' then Some((30 + Digit(t[1]), 2))
    else if |t| >= 2 && '1' <= t[0] <= '2' && IsDigit(t[1]) then Some((10 * Digit(t[0]) + Digit(t[1]), 2))
    else if |t| >= 2 && t[0] == '0' && '1' <= t[1] <= '9' then Some((Digit(t[1]), 2))
    else if |t| >= 1 && '1' <= t[0] <= '9' then Some((Digit(t[0]), 1))
    else if |t| >= 2 && t[0] == ' ' && '1' <= t[1] <= '9' then Some((Digit(t[1]), 2))
    else None
  }

  /** Month, separator and day, backtracking over the month alternatives as
      the regex engine does; yields (month, day, characters consumed). */
  function MatchMonthDay(t: string, sep: string, cands: seq<(int, nat)>): Option<(int, int, nat)>
    requires forall i :: 0 <= i < |cands| ==> cands[i].1 <= |t|
    decreases |cands|
  {
    if |cands| == 0 then None
    else
      var m := cands[0].0;
      var n := cands[0].1;
      if StartsWith(t[n..], sep) then
        match DayMatch(t[n + |sep|..])
        case Some(dk) => Some((m, dk.0, n + |sep| + dk.1))
        case None => MatchMonthDay(t, sep, cands[1..])
      else MatchMonthDay(t, sep, cands[1..])
  }

  predicate FourDigitPrefix(s: string) {
    |s| >= 4 && IsDigit(s[0]) && IsDigit(s[1]) && IsDigit(s[2]) && IsDigit(s[3])
  }

  function YearValue(s: string): int
    requires FourDigitPrefix(s)
  {
    1000 * Digit(s[0]) + 100 * Digit(s[1]) + 10 * Digit(s[2]) + Digit(s[3])
  }

  /** What follows the year and the first separator: month, separator, day,
      nothing left over, and a valid date. */
  function ParseMonthDay(y: int, t: string, sep: string): (r: Option<Date>)
    ensures r.Some? ==> Valid(r.value)
  {
    match MatchMonthDay(t, sep, MonthCandidates(t))
    case None => None
    case Some(mdn) =>
      if mdn.2 != |t| then None
      else if Valid(Date(y, mdn.0, mdn.1)) then Some(Date(y, mdn.0, mdn.1))
      else None
  }

  /** `datetime.strptime(s, "%Y" + sep + "%m" + sep + "%d")`: a four-digit year,
      the separator, a month, the separator and a day, with nothing left over,
      forming a valid date; `None` stands for the ValueError strptime raises. */
  function ParseDate(s: string, sep: string): (r: Option<Date>)
    ensures r.Some? ==> Valid(r.value)
  {
    if !FourDigitPrefix(s) then None
    else if !StartsWith(s[4..], sep) then None
    else ParseMonthDay(YearValue(s), s[4..][|sep|..], sep)
  }

  lemma FourDigits(y: int)
    requires 1000 <= y <= 9999
    ensures IntString(y) == [DigitChar(y / 1000), DigitChar(y / 100 % 10), DigitChar(y / 10 % 10), DigitChar(y % 10)]
  {
    assert DecimalString(y / 1000) == [DigitChar(y / 1000)];
    assert DecimalString(y / 100) == DecimalString(y / 1000) + [DigitChar(y / 100 % 10)];
    assert DecimalString(y / 10) == DecimalString(y / 100) + [DigitChar(y / 10 % 10)];
  }

  lemma TwoDigitsOfDay(n: int)
    requires 1 <= n <= 31
    ensures n <= 9 ==> TwoDigits(n) == ['0', DigitChar(n)]
    ensures n >= 10 ==> TwoDigits(n) == [DigitChar(n / 10), DigitChar(n % 10)]
  {
    if n >= 10 {
      assert DecimalString(n) == DecimalString(n / 10) + [DigitChar(n % 10)];
    }
  }

  lemma YearDigitsValue(y: int)
    requires 1000 <= y <= 9999
    ensures 1000 * (y / 1000) + 100 * (y / 100 % 10) + 10 * (y / 10 % 10) + y % 10 == y
  {
    assert y / 100 == 10 * (y / 1000) + y / 100 % 10;
    assert y / 10 == 10 * (y / 100) + y / 10 % 10;
    assert y == 10 * (y / 10) + y % 10;
  }

  lemma FormatShape(d: Date, sep: string)
    requires Valid(d) && d.year >= 1000
    ensures FourDigitPrefix(FormatDate(d, sep))
    ensures YearValue(FormatDate(d, sep)) == d.year
    ensures FormatDate(d, sep)[4..] == sep + TwoDigits(d.month) + sep + TwoDigits(d.day)
  {
    var y := d.year;
    FourDigits(y);
    YearDigitsValue(y);
    var ys := IntString(y);
    var rest := sep + TwoDigits(d.month) + sep + TwoDigits(d.day);
    var s := FormatDate(d, sep);
    assert s == ys + rest;
    assert s[..4] == ys && s[4..] == rest;
    assert s[0] == DigitChar(y / 1000) && s[1] == DigitChar(y / 100 % 10);
    assert s[2] == DigitChar(y / 10 % 10) && s[3] == DigitChar(y % 10);
  }

  lemma MonthDayRoundTrip(d: Date, sep: string)
    requires Valid(d)
    ensures ParseMonthDay(d.year, TwoDigits(d.month) + sep + TwoDigits(d.day), sep) == Some(d)
  {
    TwoDigitsOfDay(d.month);
    TwoDigitsOfDay(d.day);
    var mm := TwoDigits(d.month);
    var dd := TwoDigits(d.day);
    var t := mm + sep + dd;
    var cands := MonthCandidates(t);
    assert cands[0] == (d.month, 2);
    assert t[2..] == sep + dd;
    assert StartsWith(t[2..], sep);
    assert t[2 + |sep|..] == dd;
    assert DayMatch(dd) == Some((d.day, 2));
    assert MatchMonthDay(t, sep, cands) == Some((d.month, d.day, |t|));
  }

  /** Parsing the rendering of a date with four-digit year gives the date back,
      whatever the separator. */
  lemma ParseFormatRoundTrip(d: Date, sep: string)
    requires Valid(d) && d.year >= 1000
    ensures ParseDate(FormatDate(d, sep), sep) == Some(d)
  {
    var s := FormatDate(d, sep);
    FormatShape(d, sep);
    assert StartsWith(s[4..], sep);
    assert s[4..][|sep|..] == TwoDigits(d.month) + sep + TwoDigits(d.day);
    MonthDayRoundTrip(d, sep);
  }
}

=== FILE: db_rows.dfy ===
/** Rows returned by the database driver. A row is either a tuple (positional
    access) or a mapping from column name to value (the driver's dictionary
    cursor); a result is the list of rows, or the integer status the driver
    wrapper returns when the call failed. */
module DbRows {
  import opened Wrappers
  import opened OrderedDict
  import opened Dates

  /** What `row[key]` is given: a column name or a position. */
  datatype Key = Name(name: string) | Pos(pos: int)

  /** A value held by a result row. */
  datatype Cell = DateCell(date: CalendarDate) | TextCell(text: string) | NumCell(num: int) | NullCell

  datatype DbRow = TupleRow(cells: seq<Cell>) | MappingRow(entries: seq<(string, Cell)>)

  datatype DbResult = Rows(rows: seq<DbRow>) | Status(code: int)

  /** Python `len(row)`. */
  function RowLength(row: DbRow): nat {
    match row
    case TupleRow(cells) => |cells|
    case MappingRow(entries) => |entries|
  }

  /** Python `row[key]`: a tuple takes positions only (TypeError for a name,
      IndexError out of range); a mapping takes its column names only
      (KeyError otherwise). */
  function Lookup(row: DbRow, key: Key): (r: Result<Cell>)
    ensures row.TupleRow? && key.Name? ==> r == Err(TypeError)
    ensures row.MappingRow? && key.Pos? ==> r == Err(KeyError)
    ensures row.MappingRow? && key.Name? ==> (r.Ok? <==> key.name in Keys(row.entries))
  {
    match row
    case TupleRow(cells) =>
      (match key
       case Pos(i) => PyIndex(cells, i)
       case Name(_) => Err(TypeError))
    case MappingRow(entries) =>
      (match key
       case Name(n) => (match Get(entries, n) case Some(c) => Ok(c) case None => Err(KeyError))
       case Pos(_) => Err(KeyError))
  }

  /** Python truthiness of what the driver returned: a non-empty list or a
      non-zero status. */
  predicate Truthy(result: DbResult) {
    match result
    case Rows(rows) => |rows| > 0
    case Status(code) => code != 0
  }
}

=== FILE: exchange_rates.dfy ===
/** The request of the exchange-rate loader: the REST path with its query
    parameters, built from the `url_control` settings, joined to the service
    URL with `/`.

    The source appends the base currency with `'?'.join([req, 'base', B])`,
    which yields `?base?B`, and appends the symbols with `&` even when no `?`
    precedes them. `BuildReqStrAsWritten` keeps that text;
    `BuildReqStr` builds the query string the service reads, and the request
    URL uses it. */
module ExchangeRates {
  import opened Wrappers
  import opened Text
  import opened Lists

  /** `symbols` in the settings: a list of currency codes, or anything else
      (which is ignored). */
  datatype Symbols = SymbolList(names: seq<string>) | SymbolOther

  /** The `url_control` settings; a missing key is `None`. */
  datatype UrlControl = UrlControl(
    startDate: Option<string>,
    endDate: Option<string>,
    date: Option<string>,
    symbols: Option<Symbols>,
    base: Option<string>)

  /** Both ends of a date range are given. */
  predicate HasRange(uc: UrlControl) {
    uc.startDate.Some? && uc.endDate.Some?
  }

  /** The symbols are used: a non-empty list. */
  predicate SymbolsApply(uc: UrlControl) {
    uc.symbols.Some? && uc.symbols.value.SymbolList? && |uc.symbols.value.names| > 0
  }

  /** The base is used: non-empty and, upper-cased, not `EUR` (the service's
      default). */
  predicate BaseApplies(uc: UrlControl) {
    uc.base.Some? && |uc.base.value| > 0 && Upper(uc.base.value) != "EUR"
  }

  function SymbolsValue(uc: UrlControl): string
    requires SymbolsApply(uc)
  {
    Upper(Join(",", uc.symbols.value.names))
  }

  /** The path: a history range, a single date, or `latest`. */
  function PathOf(uc: UrlControl): string {
    if HasRange(uc) then "history?start_at=" + uc.startDate.value + "&end_at=" + uc.endDate.value
    else if uc.date.Some? then uc.date.value
    else "latest"
  }

  /** `build_req_str` as the source has it. */
  function BuildReqStrAsWritten(control: Option<UrlControl>): (r: string)
    ensures control.None? ==> r == "latest"
    ensures control.Some? ==> StartsWith(r, PathOf(control.value))
  {
    match control
    case None => "latest"
    case Some(uc) =>
      var path := PathOf(uc);
      var withSymbols := if SymbolsApply(uc) then path + "&symbols=" + SymbolsValue(uc) else path;
      if BaseApplies(uc) then withSymbols + "?base?" + Upper(uc.base.value) else withSymbols
  }

  /** The path ignores a single date when a range is given, and is `latest`
      when neither is. */
  lemma PathPriority(uc: UrlControl)
    ensures HasRange(uc) ==> PathOf(uc) == PathOf(uc.(date := None))
    ensures !HasRange(uc) && uc.date.None? ==> PathOf(uc) == "latest"
    ensures !HasRange(uc) && uc.date.Some? ==> PathOf(uc) == uc.date.value
  {
  }

  /** The symbols come before the base, and a base of `EUR` in any case adds
      nothing. */
  lemma AsWrittenSuffixes(uc: UrlControl)
    ensures SymbolsApply(uc) && BaseApplies(uc) ==>
      BuildReqStrAsWritten(Some(uc)) == PathOf(uc) + "&symbols=" + SymbolsValue(uc) + "?base?" + Upper(uc.base.value)
    ensures uc.base.Some? && Upper(uc.base.value) == "EUR" ==>
      BuildReqStrAsWritten(Some(uc)) == BuildReqStrAsWritten(Some(uc.(base := None)))
  {
  }

  // ---------------------------------------------------------------- query strings

  /** Python `s.split(c)` for one character. */
  function Split(s: string, c: char): (r: seq<string>)
    ensures |r| > 0
    decreases |s|
  {
    var i := FirstIndex(s, c);
    if i < 0 then [s] else [s[..i]] + Split(s[i + 1..], c)
  }

  /** Python `s.partition(c)` without the separator: what comes before the
      first `c` and what comes after it. */
  function Partition(s: string, c: char): (string, string) {
    var i := FirstIndex(s, c);
    if i < 0 then (s, "") else (s[..i], s[i + 1..])
  }

  /** The path and the `key=value` parameters of a request string. */
  function ParseQuery(req: string): (string, seq<(string, string)>) {
    var i := FirstIndex(req, '?');
    if i < 0 then (req, [])
    else
      var kvs := Split(req[i + 1..], '&');
      (req[..i], seq(|kvs|, j requires 0 <= j < |kvs| => Partition(kvs[j], '=')))
  }

  /** Text that can stand in a path or a parameter without being read as
      query syntax. */
  predicate Plain(s: string) {
    forall i :: 0 <= i < |s| ==> s[i] != '?' && s[i] != '&' && s[i] != '='
  }

  function Pairs(params: seq<(string, string)>): (kvs: seq<string>)
    ensures |kvs| == |params|
  {
    seq(|params|, j requires 0 <= j < |params| => params[j].0 + "=" + params[j].1)
  }

  /** A request string: the path, then `?` and the parameters joined by `&`. */
  function Render(path: string, params: seq<(string, string)>): string {
    if |params| == 0 then path else path + "?" + Join("&", Pairs(params))
  }

  /** In `p + [c] + rest` with no `c` in `p`, the first `c` is the one after
      `p`. */
  lemma FirstAfter(p: string, c: char, rest: string)
    requires forall k :: 0 <= k < |p| ==> p[k] != c
    ensures var s := p + [c] + rest;
      FirstIndex(s, c) == |p| && s[..|p|] == p && s[|p| + 1..] == rest
  {
    var s := p + [c] + rest;
    assert s[|p|] == c;
    assert forall k :: 0 <= k < |p| ==> s[k] == p[k];
    assert s[..|p|] == p;
    assert s[|p| + 1..] == rest;
  }

  lemma {:induction false} SplitJoin(parts: seq<string>, c: char)
    requires |parts| > 0
    requires forall j, k :: 0 <= j < |parts| && 0 <= k < |parts[j]| ==> parts[j][k] != c
    ensures Split(Join([c], parts), c) == parts
    decreases |parts|
  {
    var p := parts[0];
    if |parts| == 1 {
      assert FirstIndex(p, c) == -1;
    } else {
      var rest := Join([c], parts[1..]);
      assert Join([c], parts) == p + [c] + rest;
      FirstAfter(p, c, rest);
      SplitJoin(parts[1..], c);
    }
  }

  lemma PartitionPair(key: string, value: string)
    requires Plain(key)
    ensures Partition(key + "=" + value, '=') == (key, value)
  {
    assert key + "=" + value == key + ['='] + value;
    FirstAfter(key, '=', value);
  }

  lemma PairsHaveNoAmpersand(params: seq<(string, string)>)
    requires forall j :: 0 <= j < |params| ==> Plain(params[j].0) && Plain(params[j].1)
    ensures var kvs := Pairs(params);
      forall j, k :: 0 <= j < |kvs| && 0 <= k < |kvs[j]| ==> kvs[j][k] != '&'
  {
    var kvs := Pairs(params);
    forall j, k | 0 <= j < |kvs| && 0 <= k < |kvs[j]|
      ensures kvs[j][k] != '&'
    {
      var key := params[j].0;
      if k < |key| {
        assert kvs[j][k] == key[k];
      } else if k > |key| {
        assert kvs[j][k] == params[j].1[k - |key| - 1];
      }
    }
  }

  /** Reading a rendered request gives back its path and parameters, when
      none of them contains query syntax. */
  lemma ParseRender(path: string, params: seq<(string, string)>)
    requires Plain(path)
    requires forall j :: 0 <= j < |params| ==> Plain(params[j].0) && Plain(params[j].1)
    ensures ParseQuery(Render(path, params)) == (path, params)
  {
    if |params| == 0 {
      assert FirstIndex(path, '?') == -1;
    } else {
      var kvs := Pairs(params);
      var q := Join("&", kvs);
      assert Render(path, params) == path + ['?'] + q;
      FirstAfter(path, '?', q);
      PairsHaveNoAmpersand(params);
      SplitJoin(kvs, '&');
      var read := seq(|kvs|, j requires 0 <= j < |kvs| => Partition(kvs[j], '='));
      forall j | 0 <= j < |kvs|
        ensures read[j] == params[j]
      {
        PartitionPair(params[j].0, params[j].1);
      }
      assert read == params;
    }
  }

  // ---------------------------------------------------------------- corrected builder

  /** Appending a parameter: `?` when the request has no parameter yet,
      `&` otherwise. */
  function AppendParam(req: string, key: string, value: string): string {
    req + (if FirstIndex(req, '?') >= 0 then "&" else "?") + key + "=" + value
  }

  /** The parameters the settings ask for, in the source's order: the range,
      the symbols, the base. */
  function ParamsOf(uc: UrlControl): seq<(string, string)> {
    RangeParams(uc) + SymbolParams(uc) + BaseParams(uc)
  }

  function RangeParams(uc: UrlControl): seq<(string, string)> {
    if HasRange(uc) then [("start_at", uc.startDate.value), ("end_at", uc.endDate.value)] else []
  }

  function SymbolParams(uc: UrlControl): seq<(string, string)> {
    if SymbolsApply(uc) then [("symbols", SymbolsValue(uc))] else []
  }

  function BaseParams(uc: UrlControl): seq<(string, string)> {
    if BaseApplies(uc) then [("base", Upper(uc.base.value))] else []
  }

  /** The path the service reads (`history` for a range). */
  function RoutePath(uc: UrlControl): string {
    if HasRange(uc) then "history" else PathOf(uc)
  }

  /** `build_req_str` with the parameters written as a query string. */
  function BuildReqStr(control: Option<UrlControl>): (r: string)
    ensures control.None? ==> r == "latest"
    ensures control.Some? ==> StartsWith(r, PathOf(control.value))
  {
    match control
    case None => "latest"
    case Some(uc) =>
      var path := PathOf(uc);
      var withSymbols := if SymbolsApply(uc) then AppendParam(path, "symbols", SymbolsValue(uc)) else path;
      if BaseApplies(uc) then AppendParam(withSymbols, "base", Upper(uc.base.value)) else withSymbols
  }

  /** Settings whose values contain no query syntax. */
  predicate PlainControl(uc: UrlControl) {
    && (uc.startDate.Some? ==> Plain(uc.startDate.value))
    && (uc.endDate.Some? ==> Plain(uc.endDate.value))
    && (uc.date.Some? ==> Plain(uc.date.value))
    && (SymbolsApply(uc) ==> Plain(Join(",", uc.symbols.value.names)))
    && (uc.base.Some? ==> Plain(uc.base.value))
  }

  lemma UpperPlain(s: string)
    requires Plain(s)
    ensures Plain(Upper(s))
  {
  }

  lemma PairsSnoc(params: seq<(string, string)>, key: string, value: string)
    ensures Pairs(params + [(key, value)]) == Pairs(params) + [key + "=" + value]
  {
    var ps := params + [(key, value)];
    assert forall j :: 0 <= j < |params| ==> ps[j] == params[j];
  }

  /** The first parameter opens the query with `?`. */
  lemma AppendFirst(path: string, key: string, value: string)
    requires Plain(path)
    ensures AppendParam(path, key, value) == Render(path, [(key, value)])
  {
    assert forall k :: 0 <= k < |path| ==> path[k] != '?';
    assert FirstIndex(path, '?') == -1;
    PairsSnoc([], key, value);
    assert [] + [(key, value)] == [(key, value)];
  }

  /** A later parameter is joined with `&`. */
  lemma AppendMore(path: string, params: seq<(string, string)>, key: string, value: string)
    requires |params| > 0
    ensures AppendParam(Render(path, params), key, value) == Render(path, params + [(key, value)])
  {
    var kv := key + "=" + value;
    var joined := Join("&", Pairs(params));
    var r := path + "?" + joined;
    assert r[|path|] == '?';
    assert FirstIndex(r, '?') >= 0;
    PairsSnoc(params, key, value);
    JoinSnoc("&", Pairs(params), kv);
    assert AppendParam(r, key, value) == path + "?" + (joined + "&" + kv);
  }

  lemma AppendRendered(path: string, params: seq<(string, string)>, key: string, value: string)
    requires Plain(path)
    ensures AppendParam(Render(path, params), key, value) == Render(path, params + [(key, value)])
  {
    if |params| == 0 {
      AppendFirst(path, key, value);
      assert params + [(key, value)] == [(key, value)];
    } else {
      AppendMore(path, params, key, value);
    }
  }

  /** A history range is the rendering of `history` with its two dates. */
  lemma RangeRendered(uc: UrlControl)
    requires HasRange(uc)
    ensures PathOf(uc) == Render("history", RangeParams(uc))
  {
    var kvs := Pairs(RangeParams(uc));
    assert kvs[0] == "start_at=" + uc.startDate.value && kvs[1] == "end_at=" + uc.endDate.value;
    assert kvs[1..] == [kvs[1]];
    assert Join("&", kvs) == "start_at=" + uc.startDate.value + "&" + "end_at=" + uc.endDate.value;
  }

  /** The corrected request is the rendering of its route and parameters. */
  lemma BuildIsRendered(uc: UrlControl)
    requires PlainControl(uc)
    ensures BuildReqStr(Some(uc)) == Render(RoutePath(uc), ParamsOf(uc))
  {
    var route := RoutePath(uc);
    var range := RangeParams(uc);
    var syms := SymbolParams(uc);
    RoutePlain(uc);
    assert PathOf(uc) == Render(route, range) by {
      if HasRange(uc) {
        RangeRendered(uc);
      }
    }
    var withSymbols := if SymbolsApply(uc) then AppendParam(PathOf(uc), "symbols", SymbolsValue(uc)) else PathOf(uc);
    assert withSymbols == Render(route, range + syms) by {
      if SymbolsApply(uc) {
        AppendRendered(route, range, "symbols", SymbolsValue(uc));
      } else {
        assert range + syms == range;
      }
    }
    if BaseApplies(uc) {
      AppendRendered(route, range + syms, "base", Upper(uc.base.value));
    } else {
      assert range + syms + BaseParams(uc) == range + syms;
    }
  }

  /** Parameters none of whose keys and values contain query syntax. */
  predicate PlainParams(ps: seq<(string, string)>) {
    forall j :: 0 <= j < |ps| ==> Plain(ps[j].0) && Plain(ps[j].1)
  }

  lemma PlainParamsConcat(a: seq<(string, string)>, b: seq<(string, string)>)
    requires PlainParams(a) && PlainParams(b)
    ensures PlainParams(a + b)
  {
    forall j | 0 <= j < |a + b|
      ensures Plain((a + b)[j].0) && Plain((a + b)[j].1)
    {
      if j < |a| {
        assert (a + b)[j] == a[j];
      } else {
        assert (a + b)[j] == b[j - |a|];
      }
    }
  }

  lemma ParamsPlain(uc: UrlControl)
    requires PlainControl(uc)
    ensures PlainParams(ParamsOf(uc))
  {
    var range := RangeParams(uc);
    var syms := SymbolParams(uc);
    var base := BaseParams(uc);
    assert ParamsOf(uc) == range + syms + base;
    if HasRange(uc) {
      assert Plain("start_at") && Plain("end_at");
    }
    if SymbolsApply(uc) {
      UpperPlain(Join(",", uc.symbols.value.names));
      assert Plain("symbols");
    }
    if BaseApplies(uc) {
      UpperPlain(uc.base.value);
      assert Plain("base");
    }
    PlainParamsConcat(range, syms);
    PlainParamsConcat(range + syms, base);
  }

  lemma RoutePlain(uc: UrlControl)
    requires PlainControl(uc)
    ensures Plain(RoutePath(uc))
  {
    if HasRange(uc) {
      assert Plain("history");
    } else if uc.date.None? {
      assert Plain("latest");
    }
  }

  /** The service reads back exactly the route and the parameters the
      settings ask for. */
  lemma RequestRoundTrip(uc: UrlControl)
    requires PlainControl(uc)
    ensures ParseQuery(BuildReqStr(Some(uc))) == (RoutePath(uc), ParamsOf(uc))
  {
    BuildIsRendered(uc);
    ParamsPlain(uc);
    RoutePlain(uc);
    ParseRender(RoutePath(uc), ParamsOf(uc));
  }

  lemma AsWrittenBaseOnly()
    ensures BuildReqStrAsWritten(Some(UrlControl(None, None, None, None, Some("usd")))) == "latest?base?USD"
  {
    var uc := UrlControl(None, None, None, None, Some("usd"));
    assert Upper("usd") == "USD";
    assert !HasRange(uc) && !SymbolsApply(uc) && BaseApplies(uc);
    assert PathOf(uc) == "latest";
  }

  /** A request whose query has one parameter without `&` or `=` reads as
      that one parameter with an empty value. */
  lemma ParseBareParameter(path: string, kv: string)
    requires '?' !in path && '&' !in kv && '=' !in kv
    ensures ParseQuery(path + ['?'] + kv) == (path, [(kv, "")])
  {
    assert forall k :: 0 <= k < |path| ==> path[k] in path;
    FirstAfter(path, '?', kv);
    var req := path + ['?'] + kv;
    var kvs := Split(req[|path| + 1..], '&');
    assert kvs == [kv];
    assert Partition(kv, '=') == (kv, "");
    var read := seq(|kvs|, j requires 0 <= j < |kvs| => Partition(kvs[j], '='));
    assert read == [(kv, "")];
  }

  lemma ParseBaseOnlyAsWritten()
    ensures ParseQuery("latest?base?USD") == ("latest", [("base?USD", "")])
  {
    var kv := "base?USD";
    assert '&' !in kv && '=' !in kv by {
      assert forall k :: 0 <= k < |kv| ==> kv[k] in {'b', 'a', 's', 'e', '?', 'U', 'S', 'D'};
    }
    assert '?' !in "latest" by {
      assert forall k :: 0 <= k < 6 ==> "latest"[k] in {'l', 'a', 't', 'e', 's'};
    }
    var req := "latest?base?USD";
    assert req[..6] == "latest" && req[6] == '?' && req[7..] == kv;
    assert req == req[..6] + [req[6]] + req[7..];
    ParseBareParameter("latest", kv);
  }

  lemma UpperUsd()
    ensures Upper("usd") == "USD"
  {
    var u := Upper("usd");
    assert u[0] == 'U' && u[1] == 'S' && u[2] == 'D';
  }

  lemma NoQueryInLatest()
    ensures FirstIndex("latest", '?') == -1
  {
    assert '?' !in "latest" by {
      assert forall k :: 0 <= k < 6 ==> "latest"[k] in {'l', 'a', 't', 'e', 's'};
    }
  }

  lemma CorrectedBaseOnly()
    ensures var uc := UrlControl(None, None, None, None, Some("usd"));
      BuildReqStr(Some(uc)) == "latest?base=USD" && RoutePath(uc) == "latest" && ParamsOf(uc) == [("base", "USD")]
  {
    var uc := UrlControl(None, None, None, None, Some("usd"));
    UpperUsd();
    assert !HasRange(uc) && !SymbolsApply(uc) && BaseApplies(uc);
    assert PathOf(uc) == "latest";
    assert ParamsOf(uc) == [] + [] + [("base", "USD")];
    NoQueryInLatest();
    assert BuildReqStr(Some(uc)) == AppendParam("latest", "base", "USD");
    assert AppendParam("latest", "base", "USD") == "latest" + "?" + "base" + "=" + "USD";
  }

  /** A base currency alone: the source's request is `latest?base?USD`, read
      as a parameter `base?USD` without a value; the corrected one carries
      `base=USD`. */
  lemma BaseSeparatorCounterexample()
    ensures var uc := UrlControl(None, None, None, None, Some("usd"));
      && BuildReqStrAsWritten(Some(uc)) == "latest?base?USD"
      && ParseQuery(BuildReqStrAsWritten(Some(uc))) == ("latest", [("base?USD", "")])
      && ParseQuery(BuildReqStrAsWritten(Some(uc))) != (RoutePath(uc), ParamsOf(uc))
      && BuildReqStr(Some(uc)) == "latest?base=USD"
  {
    AsWrittenBaseOnly();
    ParseBaseOnlyAsWritten();
    CorrectedBaseOnly();
    assert |"base?USD"| != |"base"|;
  }

  /** `"/".join([url, req_str])`: the service URL, a slash, then the request. */
  function RequestUrl(url: string, control: Option<UrlControl>): (r: string)
    ensures StartsWith(r, url + "/") && r[|url| + 1..] == BuildReqStr(control)
  {
    url + "/" + BuildReqStr(control)
  }
}

=== FILE: frames.dfy ===
/** The pandas DataFrames the writers consume: named columns, and rows made of
    an index value and one cell per column. A missing cell (NaN) is `None`. */
module Frames {
  import opened Wrappers
  import opened Dates

  /** The row index: a timestamp, a string, or anything else. */
  datatype IndexValue = Stamp(date: CalendarDate) | StrIndex(text: string) | OtherIndex

  datatype Row<I, V> = Row(index: I, values: seq<Option<V>>)

  datatype Frame<I, V> = Frame(columns: seq<string>, rows: seq<Row<I, V>>) {

    /** pandas `df.empty`: no rows or no columns. */
    predicate Empty() {
      |rows| == 0 || |columns| == 0
    }

    /** Every row has one cell per column, as in any DataFrame. */
    predicate WellShaped() {
      forall i :: 0 <= i < |rows| ==> |rows[i].values| == |columns|
    }
  }

  /** Python `str(v)` for a present cell, `NULL` for a missing one. */
  function RenderCell<V>(c: Option<V>, render: V -> string): string {
    match c
    case Some(v) => render(v)
    case None => "NULL"
  }

  function RenderCells<V>(cells: seq<Option<V>>, render: V -> string): (r: seq<string>)
    ensures |r| == |cells|
    ensures forall i :: 0 <= i < |cells| ==> r[i] == RenderCell(cells[i], render)
  {
    seq(|cells|, i requires 0 <= i < |cells| => RenderCell(cells[i], render))
  }
}

=== FILE: html_table.dfy ===
/** The HTML-table loader: normalising a label with find/replace tables and
    case folding, grouping the rows of a currency table by currency, and
    shaping a table read from a page (choosing it, cleaning its header and
    index, dropping rows with a short label).

    Fetching the page and finding its elements are left to the caller: a
    table arrives as a frame of text cells, and the selected elements of a
    page as the texts of their columns. A cell that is missing or holds no
    text is `None`. */
module HtmlTable {
  import opened Wrappers
  import opened Text
  import opened OrderedDict
  import opened Lists
  import opened Frames

  // ---------------------------------------------------------------- parse_text

  /** The `control` settings. A replacement table that is missing or is not
      a dict is `None`; an empty one replaces nothing either. */
  datatype Control = Control(
    clean: Option<seq<(string, string)>>,
    additional: Option<seq<(string, string)>>,
    capitalize: Option<int>)

  function PairsOf(table: Option<seq<(string, string)>>): seq<(string, string)> {
    match table
    case Some(pairs) => pairs
    case None => []
  }

  /** `text.replace(key, value)` for every pair, in order, each on the result
      of the previous one. */
  function ApplyPairs(text: string, pairs: seq<(string, string)>): string
    decreases |pairs|
  {
    if |pairs| == 0 then text
    else ApplyPairs(ReplaceAll(text, pairs[0].0, pairs[0].1), pairs[1..])
  }

  /** Two tables applied one after the other act as their concatenation. */
  lemma {:induction false} ApplyPairsConcat(text: string, a: seq<(string, string)>, b: seq<(string, string)>)
    ensures ApplyPairs(text, a + b) == ApplyPairs(ApplyPairs(text, a), b)
    decreases |a|
  {
    if |a| == 0 {
      assert a + b == b;
    } else {
      assert (a + b)[0] == a[0];
      assert (a + b)[1..] == a[1..] + b;
      ApplyPairsConcat(ReplaceAll(text, a[0].0, a[0].1), a[1..], b);
    }
  }

  /** A table none of whose keys occurs in the text leaves it unchanged. */
  lemma {:induction false} ApplyAbsentKeys(text: string, pairs: seq<(string, string)>)
    requires forall i :: 0 <= i < |pairs| ==> |pairs[i].0| > 0 && !Contains(text, pairs[i].0)
    ensures ApplyPairs(text, pairs) == text
    decreases |pairs|
  {
    if |pairs| > 0 {
      ReplaceAbsentKey(text, pairs[0].0, pairs[0].1);
      ApplyAbsentKeys(text, pairs[1..]);
    }
  }

  /** The case folding `capitalize` asks for: upper above 0, lower at 0,
      none when negative or absent. */
  function Recase(capitalize: Option<int>, text: string): (r: string)
    ensures |r| == |text|
    ensures capitalize.Some? && capitalize.value > 0 ==> NoLowerCase(r)
    ensures capitalize.Some? && capitalize.value == 0 ==> NoUpperCase(r)
    ensures capitalize.None? || capitalize.value < 0 ==> r == text
  {
    match capitalize
    case Some(n) =>
      if n > 0 then UpperHasNoLowerCase(text); Upper(text)
      else if n == 0 then LowerHasNoUpperCase(text); Lower(text)
      else text
    case None => text
  }

  /** `parse_text`: without `control` the text is returned as given;
      otherwise the `clean` pairs, then the `additional` pairs, then the case
      folding. */
  function ParseText(text: string, control: Option<Control>): (r: string)
    ensures control.None? ==> r == text
    ensures control.Some? && control.value.capitalize.Some? && control.value.capitalize.value > 0 ==> NoLowerCase(r)
    ensures control.Some? && control.value.capitalize.Some? && control.value.capitalize.value == 0 ==> NoUpperCase(r)
  {
    match control
    case None => text
    case Some(c) =>
      var cleaned := ApplyPairs(text, PairsOf(c.clean));
      var extended := ApplyPairs(cleaned, PairsOf(c.additional));
      Recase(c.capitalize, extended)
  }

  /** The replacements form one ordered table, `clean` before `additional`,
      and the case folding comes after all of them. */
  lemma ParseTextOrder(text: string, c: Control)
    ensures ParseText(text, Some(c)) == Recase(c.capitalize, ApplyPairs(text, PairsOf(c.clean) + PairsOf(c.additional)))
  {
    ApplyPairsConcat(text, PairsOf(c.clean), PairsOf(c.additional));
  }

  /** A text none of whose keys occurs, with no case folding asked for, comes
      back unchanged. */
  lemma ParseTextUnchanged(text: string, c: Control)
    requires c.capitalize.None? || c.capitalize.value < 0
    requires var pairs := PairsOf(c.clean) + PairsOf(c.additional);
      forall i :: 0 <= i < |pairs| ==> |pairs[i].0| > 0 && !Contains(text, pairs[i].0)
    ensures ParseText(text, Some(c)) == text
  {
    ParseTextOrder(text, c);
    ApplyAbsentKeys(text, PairsOf(c.clean) + PairsOf(c.additional));
  }

  /** Settings that only fold case give the same text when applied twice. */
  lemma ParseTextFoldIdempotent(text: string, c: Control)
    requires PairsOf(c.clean) == [] && PairsOf(c.additional) == []
    ensures ParseText(ParseText(text, Some(c)), Some(c)) == ParseText(text, Some(c))
  {
    UpperHasNoLowerCase(text);
    LowerHasNoUpperCase(text);
  }

  // ---------------------------------------------------------------- parse_bs4_currency

  /** A currency's entry: the countries using it, and how many. */
  datatype Grouping = Grouping(countries: seq<string>, count: int)

  /** An element with more than one column takes part; others are skipped. */
  predicate Qualifies(cols: seq<string>) {
    |cols| > 1
  }

  /** One element of the loop: a qualifying element's currency gets its
      country appended and its count raised, or is added with that one
      country. */
  function AddElement(groups: seq<(string, Grouping)>, cols: seq<string>, keyPos: int, countryPos: int): Result<seq<(string, Grouping)>> {
    if !Qualifies(cols) then Ok(groups)
    else
      var currency :- PyIndex(cols, keyPos);
      var country :- PyIndex(cols, countryPos);
      Ok(Put(groups, currency, Recorded(Get(groups, currency), country)))
  }

  /** A currency's entry after one more country: appended and counted, or a
      new entry holding that country. */
  function Recorded(entry: Option<Grouping>, country: string): Grouping {
    match entry
    case Some(g) => Grouping(g.countries + [country], g.count + 1)
    case None => Grouping([country], 1)
  }

  /** The dictionary after all elements; the first element whose currency or
      country column does not exist raises IndexError. */
  function GroupCurrencies(elems: seq<seq<string>>, keyPos: int, countryPos: int): Result<seq<(string, Grouping)>>
    decreases |elems|
  {
    if |elems| == 0 then Ok([])
    else
      var groups :- GroupCurrencies(elems[..|elems| - 1], keyPos, countryPos);
      AddElement(groups, elems[|elems| - 1], keyPos, countryPos)
  }

  lemma {:induction false} GroupPrefixErr(elems: seq<seq<string>>, k: nat, keyPos: int, countryPos: int)
    requires k <= |elems| && GroupCurrencies(elems[..k], keyPos, countryPos).Err?
    ensures GroupCurrencies(elems, keyPos, countryPos) == GroupCurrencies(elems[..k], keyPos, countryPos)
    decreases |elems| - k
  {
    if k < |elems| {
      var init := elems[..|elems| - 1];
      assert init[..k] == elems[..k];
      GroupPrefixErr(init, k, keyPos, countryPos);
    } else {
      assert elems[..k] == elems;
    }
  }

  /** The body of the element loop: skip an element with one column, else
      read its currency and country and record the country. */
  method AddCountry(groups: seq<(string, Grouping)>, cols: seq<string>, keyPos: int, countryPos: int)
    returns (r: Result<seq<(string, Grouping)>>)
    ensures r == AddElement(groups, cols, keyPos, countryPos)
  {
    if |cols| <= 1 {
      return Ok(groups);
    }
    var currency := PyIndex(cols, keyPos);
    var country := PyIndex(cols, countryPos);
    if currency.Err? || country.Err? {
      return Err(IndexError);
    }
    var entry := Get(groups, currency.value);
    r := Ok(Put(groups, currency.value, Recorded(entry, country.value)));
  }

  /** `parse_bs4_currency` over the column texts of the selected elements. */
  method ParseBs4Currency(elems: seq<seq<string>>, keyPos: int, countryPos: int) returns (r: Result<seq<(string, Grouping)>>)
    ensures r == GroupCurrencies(elems, keyPos, countryPos)
  {
    var groups: seq<(string, Grouping)> := [];
    for i := 0 to |elems|
      invariant GroupCurrencies(elems[..i], keyPos, countryPos) == Ok(groups)
    {
      assert elems[..i + 1][..i] == elems[..i];
      assert elems[..i + 1][i] == elems[i];
      var next := AddCountry(groups, elems[i], keyPos, countryPos);
      if next.Err? {
        GroupPrefixErr(elems, i + 1, keyPos, countryPos);
        return next;
      }
      groups := next.value;
    }
    assert elems[..|elems|] == elems;
    return Ok(groups);
  }

  /** The grouping succeeds exactly when every qualifying element has both
      the currency and the country column. */
  lemma {:induction false} GroupSucceeds(elems: seq<seq<string>>, keyPos: int, countryPos: int)
    ensures GroupCurrencies(elems, keyPos, countryPos).Ok? <==>
      forall i :: 0 <= i < |elems| && Qualifies(elems[i]) ==>
        PyIndex(elems[i], keyPos).Ok? && PyIndex(elems[i], countryPos).Ok?
    ensures GroupCurrencies(elems, keyPos, countryPos).Err? ==>
      GroupCurrencies(elems, keyPos, countryPos).error == IndexError
    decreases |elems|
  {
    if |elems| > 0 {
      var init := elems[..|elems| - 1];
      GroupSucceeds(init, keyPos, countryPos);
      assert forall i :: 0 <= i < |init| ==> elems[i] == init[i];
    }
  }

  /** Every entry counts its countries, and has at least one. */
  predicate Counted(groups: seq<(string, Grouping)>) {
    && DistinctKeys(groups)
    && forall i :: 0 <= i < |groups| ==> groups[i].1.count == |groups[i].1.countries| >= 1
  }

  lemma AddElementCounted(groups: seq<(string, Grouping)>, cols: seq<string>, keyPos: int, countryPos: int)
    requires Counted(groups)
    requires AddElement(groups, cols, keyPos, countryPos).Ok?
    ensures Counted(AddElement(groups, cols, keyPos, countryPos).value)
  {
    if Qualifies(cols) {
      var currency := PyIndex(cols, keyPos).value;
      var country := PyIndex(cols, countryPos).value;
      var i := IndexOf(groups, currency);
      if i >= 0 {
        var g := groups[i].1;
        assert Get(groups, currency) == Some(g);
        assert Put(groups, currency, Grouping(g.countries + [country], g.count + 1)) ==
          groups[i := (currency, Grouping(g.countries + [country], g.count + 1))];
      } else {
        assert Put(groups, currency, Grouping([country], 1)) == groups + [(currency, Grouping([country], 1))];
      }
    }
  }

  /** The sum of the counts. */
  function TotalCount(groups: seq<(string, Grouping)>): int
    decreases |groups|
  {
    if |groups| == 0 then 0 else TotalCount(groups[..|groups| - 1]) + groups[|groups| - 1].1.count
  }

  lemma {:induction false} TotalCountUpdate(groups: seq<(string, Grouping)>, i: nat, p: (string, Grouping))
    requires i < |groups|
    ensures TotalCount(groups[i := p]) == TotalCount(groups) - groups[i].1.count + p.1.count
    decreases |groups|
  {
    var last := |groups| - 1;
    if i < last {
      assert groups[i := p][..last] == groups[..last][i := p];
      TotalCountUpdate(groups[..last], i, p);
    } else {
      assert groups[i := p][..last] == groups[..last];
    }
  }

  lemma AddElementTotal(groups: seq<(string, Grouping)>, cols: seq<string>, keyPos: int, countryPos: int)
    requires AddElement(groups, cols, keyPos, countryPos).Ok?
    ensures TotalCount(AddElement(groups, cols, keyPos, countryPos).value) ==
      TotalCount(groups) + (if Qualifies(cols) then 1 else 0)
  {
    if Qualifies(cols) {
      var currency := PyIndex(cols, keyPos).value;
      var country := PyIndex(cols, countryPos).value;
      var i := IndexOf(groups, currency);
      if i >= 0 {
        var g := groups[i].1;
        var p := (currency, Grouping(g.countries + [country], g.count + 1));
        assert Get(groups, currency) == Some(g);
        assert Put(groups, currency, p.1) == groups[i := p];
        TotalCountUpdate(groups, i, p);
      } else {
        var p := (currency, Grouping([country], 1));
        assert Put(groups, currency, p.1) == groups + [p];
        assert (groups + [p])[..|groups|] == groups;
      }
    }
  }

  /** Every entry has `count == len(countries)`, and the counts add up to the
      number of qualifying elements. */
  lemma {:induction false} GroupCounts(elems: seq<seq<string>>, keyPos: int, countryPos: int)
    requires GroupCurrencies(elems, keyPos, countryPos).Ok?
    ensures Counted(GroupCurrencies(elems, keyPos, countryPos).value)
    ensures TotalCount(GroupCurrencies(elems, keyPos, countryPos).value) == |Filter(elems, Qualifies)|
    decreases |elems|
  {
    if |elems| > 0 {
      var init := elems[..|elems| - 1];
      GroupCounts(init, keyPos, countryPos);
      var groups := GroupCurrencies(init, keyPos, countryPos).value;
      AddElementCounted(groups, elems[|elems| - 1], keyPos, countryPos);
      AddElementTotal(groups, elems[|elems| - 1], keyPos, countryPos);
    }
  }

  /** Independent reference for one currency: the country column of every
      qualifying element with that currency, in element order. */
  function CountriesFor(elems: seq<seq<string>>, currency: string, keyPos: int, countryPos: int): Result<seq<string>> {
    FilterMap(elems, (cols: seq<string>) => Qualifies(cols) && PyIndex(cols, keyPos) == Ok(currency),
              (cols: seq<string>) => PyIndex(cols, countryPos))
  }

  /** The countries the dictionary holds for a currency, none when absent. */
  function CountriesIn(groups: seq<(string, Grouping)>, currency: string): seq<string> {
    match Get(groups, currency)
    case Some(g) => g.countries
    case None => []
  }

  lemma AddElementCountries(groups: seq<(string, Grouping)>, cols: seq<string>, keyPos: int, countryPos: int, k: string)
    requires AddElement(groups, cols, keyPos, countryPos).Ok?
    ensures var next := AddElement(groups, cols, keyPos, countryPos).value;
      CountriesIn(next, k) ==
        if Qualifies(cols) && PyIndex(cols, keyPos) == Ok(k)
        then CountriesIn(groups, k) + [PyIndex(cols, countryPos).value]
        else CountriesIn(groups, k)
  {
    if Qualifies(cols) {
      var currency := PyIndex(cols, keyPos).value;
      var country := PyIndex(cols, countryPos).value;
      var next := Put(groups, currency, Recorded(Get(groups, currency), country));
      assert AddElement(groups, cols, keyPos, countryPos).value == next;
      if currency == k {
        assert Get(next, k) == Some(Recorded(Get(groups, k), country));
      } else {
        assert Get(next, k) == Get(groups, k);
      }
    }
  }

  /** The dictionary holds, for every currency, exactly the countries of the
      qualifying elements naming it, in order; a currency no element names
      is not a key. */
  lemma {:induction false} GroupCountries(elems: seq<seq<string>>, keyPos: int, countryPos: int, k: string)
    requires GroupCurrencies(elems, keyPos, countryPos).Ok?
    ensures CountriesFor(elems, k, keyPos, countryPos) == Ok(CountriesIn(GroupCurrencies(elems, keyPos, countryPos).value, k))
    decreases |elems|
  {
    if |elems| > 0 {
      var init := elems[..|elems| - 1];
      var cols := elems[|elems| - 1];
      GroupCountries(init, keyPos, countryPos, k);
      var groups := GroupCurrencies(init, keyPos, countryPos).value;
      AddElementCountries(groups, cols, keyPos, countryPos, k);
    }
  }

  // ---------------------------------------------------------------- tables

  /** The index of a table read from a page: row numbers, or labels taken
      from a column by `parse_header_df`. */
  datatype Label = Position(n: int) | Cleaned(name: Option<string>)

  type Table = Frame<Label, string>

  /** `iloc` column position: negative counts from the end; outside the
      columns raises IndexError. */
  function ColumnPosition(width: nat, loc: int): (r: Result<nat>)
    ensures r.Ok? <==> -(width as int) <= loc < width
    ensures r.Ok? ==> r.value < width && (r.value == loc || r.value == width + loc)
    ensures r.Err? ==> r.error == IndexError
  {
    if 0 <= loc < width then Ok(loc)
    else if -(width as int) <= loc < 0 then Ok(width + loc)
    else Err(IndexError)
  }

  /** `cell.str.len() > 1`: a text of at least two characters; a missing
      cell compares false. */
  predicate LongText(c: Option<string>) {
    c.Some? && |c.value| > 1
  }

  function LongAt(pos: nat): Row<Label, string> -> bool {
    (row: Row<Label, string>) => pos < |row.values| && LongText(row.values[pos])
  }

  /** The rows whose cell at `pos` is long enough, in order. */
  function KeptRows(rows: seq<Row<Label, string>>, pos: nat): seq<Row<Label, string>> {
    Filter(rows, LongAt(pos))
  }

  /** The `.str` accessor refuses a non-empty column without any text. */
  predicate NoTextIn(rows: seq<Row<Label, string>>, pos: nat)
    requires forall i :: 0 <= i < |rows| ==> pos < |rows[i].values|
  {
    |rows| > 0 && forall i :: 0 <= i < |rows| ==> rows[i].values[pos].None?
  }

  /** `cleanse_df`: the rows whose `index_loc` cell is longer than one
      character. */
  function CleanseDf(df: Table, indexLoc: Option<int>): (r: Result<Table>)
    requires df.WellShaped()
    ensures indexLoc.None? ==> r == Err(KeyError)
    ensures indexLoc.Some? && ColumnPosition(|df.columns|, indexLoc.value).Err? ==> r == Err(IndexError)
    ensures r.Ok? ==> r.value.columns == df.columns && r.value.WellShaped() && |r.value.rows| <= |df.rows|
    ensures r.Err? ==> r.error != ValueError
  {
    match indexLoc
    case None => Err(KeyError)
    case Some(loc) =>
      var pos :- ColumnPosition(|df.columns|, loc);
      if NoTextIn(df.rows, pos) then Err(AttributeError)
      else
        var kept := KeptRows(df.rows, pos);
        FilterKeeps(df.rows, LongAt(pos), (row: Row<Label, string>) => |row.values| == |df.columns|);
        Ok(Frame(df.columns, kept))
  }

  /** A row is kept exactly when its cell at the position is a text of
      length greater than one. */
  lemma CleanseKeepsExactly(df: Table, loc: int)
    requires df.WellShaped()
    requires CleanseDf(df, Some(loc)).Ok?
    ensures var pos := ColumnPosition(|df.columns|, loc).value;
      forall row :: row in CleanseDf(df, Some(loc)).value.rows <==> row in df.rows && LongText(row.values[pos])
  {
    var pos := ColumnPosition(|df.columns|, loc).value;
    var keep := LongAt(pos);
    var kept := CleanseDf(df, Some(loc)).value.rows;
    assert kept == Filter(df.rows, keep);
    forall row: Row<Label, string>
      ensures row in kept <==> row in df.rows && LongText(row.values[pos])
    {
      FilterHas(df.rows, keep, row);
      if row in df.rows {
        var i :| 0 <= i < |df.rows| && df.rows[i] == row;
      }
    }
  }

  /** The kept rows keep their order: filtering two stretches of rows
      separately gives the two results one after the other. */
  lemma CleanseKeepsOrder(a: seq<Row<Label, string>>, b: seq<Row<Label, string>>, pos: nat)
    ensures KeptRows(a + b, pos) == KeptRows(a, pos) + KeptRows(b, pos)
  {
    FilterConcat(a, b, LongAt(pos));
  }

  /** Cleansing a cleansed table changes nothing. */
  lemma CleanseIdempotent(df: Table, loc: int)
    requires df.WellShaped()
    requires CleanseDf(df, Some(loc)).Ok?
    ensures CleanseDf(CleanseDf(df, Some(loc)).value, Some(loc)) == CleanseDf(df, Some(loc))
  {
    var once := CleanseDf(df, Some(loc)).value;
    var pos := ColumnPosition(|df.columns|, loc).value;
    FilterTwice(df.rows, LongAt(pos));
    if |once.rows| > 0 {
      assert LongAt(pos)(once.rows[0]);
    }
  }

  // ---------------------------------------------------------------- parse_header_df

  /** The `select` settings. */
  datatype Select = Select(tableLoc: Option<int>, cleanColumns: Option<int>, cleanIndex: Option<int>, indexLoc: Option<int>)

  /** `parse_text` reaches a string method of its argument: some replacement
      is to be made or case folding is asked for. */
  predicate TouchesText(control: Option<Control>) {
    && control.Some?
    && (|PairsOf(control.value.clean)| > 0 || |PairsOf(control.value.additional)| > 0
        || (control.value.capitalize.Some? && control.value.capitalize.value >= 0))
  }

  /** `parse_text` of a cell: a text is normalised; a missing cell comes back
      as it is unless a string method is called on it (AttributeError). */
  function ParseCell(c: Option<string>, control: Option<Control>): (r: Result<Option<string>>)
    ensures c.Some? ==> r == Ok(Some(ParseText(c.value, control)))
    ensures c.None? ==> (r.Ok? <==> !TouchesText(control)) && (r.Ok? ==> r.value.None?)
  {
    match c
    case Some(t) => Ok(Some(ParseText(t, control)))
    case None => if TouchesText(control) then Err(AttributeError) else Ok(None)
  }

  /** One row relabelled with its cell at `loc` (`row[1][loc]`). */
  function Relabel(loc: int, control: Option<Control>): Row<Label, string> -> Result<Row<Label, string>> {
    (row: Row<Label, string>) =>
      match PyIndex(row.values, loc)
      case Err(e) => Err(e)
      case Ok(cell) =>
        match ParseCell(cell, control)
        case Err(e) => Err(e)
        case Ok(name) => Ok(Row(Cleaned(name), row.values))
  }

  function AnyRow(row: Row<Label, string>): bool {
    true
  }

  predicate CleansColumns(sel: Select) {
    sel.cleanColumns.Some? && sel.cleanColumns.value > 0
  }

  predicate CleansIndex(sel: Select) {
    sel.cleanIndex.Some? && sel.cleanIndex.value > 0 && sel.indexLoc.Some?
  }

  /** Every row relabelled, in order; the first row that cannot be fails
      the whole. */
  function RelabelRows(rows: seq<Row<Label, string>>, loc: int, control: Option<Control>): (r: Result<seq<Row<Label, string>>>)
    ensures r.Ok? ==> |r.value| == |rows|
    ensures r.Ok? ==> forall i :: 0 <= i < |rows| ==> r.value[i].values == rows[i].values
    ensures r.Ok? <==> forall i :: 0 <= i < |rows| ==> Relabel(loc, control)(rows[i]).Ok?
    ensures r.Ok? ==> forall i :: 0 <= i < |rows| ==> Relabel(loc, control)(rows[i]) == Ok(r.value[i])
    ensures r.Err? ==> r.error != ValueError
  {
    var relabel := Relabel(loc, control);
    FilterAll(rows, AnyRow);
    FilterMapOfFilter(rows, AnyRow, relabel);
    var r := FilterMap(rows, AnyRow, relabel);
    assert r.Err? ==> r.error != ValueError by {
      if r.Err? {
        FilterMapErr(rows, AnyRow, relabel);
      }
    }
    r
  }

  /** `parse_header_df`: the column names and the index labels replaced by
      their `parse_text` images, each when asked for. */
  function ParseHeaderDf(df: Table, sel: Select, control: Option<Control>): (r: Result<Table>)
    requires df.WellShaped()
    ensures r.Ok? ==> r.value.WellShaped() && |r.value.columns| == |df.columns| && |r.value.rows| == |df.rows|
    ensures r.Ok? ==> forall i :: 0 <= i < |df.rows| ==> r.value.rows[i].values == df.rows[i].values
    ensures r.Ok? && CleansColumns(sel) ==>
      forall i :: 0 <= i < |df.columns| ==> r.value.columns[i] == ParseText(df.columns[i], control)
    ensures !CleansColumns(sel) ==> r.Ok? ==> r.value.columns == df.columns
    ensures !CleansIndex(sel) ==> r.Ok? && r.value.rows == df.rows
    ensures r.Err? ==> r.error != ValueError
  {
    var columns := if CleansColumns(sel)
      then seq(|df.columns|, i requires 0 <= i < |df.columns| => ParseText(df.columns[i], control))
      else df.columns;
    if CleansIndex(sel) then
      var rows :- RelabelRows(df.rows, sel.indexLoc.value, control);
      Ok(Frame(columns, rows))
    else Ok(Frame(columns, df.rows))
  }

  /** With the index cleaned, every row's label is the `parse_text` image of
      its `index_loc` cell; the table is refused exactly when some row lacks
      that cell (IndexError) or has a missing cell a string method is called
      on (AttributeError). */
  lemma ParseHeaderIndex(df: Table, sel: Select, control: Option<Control>)
    requires df.WellShaped() && CleansIndex(sel)
    ensures var r := ParseHeaderDf(df, sel, control);
      r.Ok? <==> forall i :: 0 <= i < |df.rows| ==>
        PyIndex(df.rows[i].values, sel.indexLoc.value).Ok? &&
        ParseCell(PyIndex(df.rows[i].values, sel.indexLoc.value).value, control).Ok?
    ensures var r := ParseHeaderDf(df, sel, control);
      r.Ok? ==> forall i :: 0 <= i < |df.rows| ==>
        r.value.rows[i].index == Cleaned(ParseCell(PyIndex(df.rows[i].values, sel.indexLoc.value).value, control).value)
  {
  }

  // ---------------------------------------------------------------- parse_pandas_df

  /** The loader's options that shape a table. */
  datatype HtmlOptions = HtmlOptions(select: Option<Select>, cleanse: Option<int>, control: Option<Control>)

  /** `table_loc`, 0 when not given. */
  function TablePosition(opts: HtmlOptions): int {
    if opts.select.Some? && opts.select.value.tableLoc.Some? then opts.select.value.tableLoc.value else 0
  }

  /** The header is cleaned when `clean_columns` or `clean_index` is given
      at all; only then is `cleanse` looked at. */
  predicate CleansHeader(opts: HtmlOptions) {
    opts.select.Some? && (opts.select.value.cleanColumns.Some? || opts.select.value.cleanIndex.Some?)
  }

  /** `parse_pandas_df` over the tables the page holds. */
  function ParsePandasDf(tables: seq<Table>, opts: HtmlOptions): (r: Result<Table>)
    requires forall i :: 0 <= i < |tables| ==> tables[i].WellShaped()
    ensures (r.Err? && r.error == ValueError) <==> |tables| == 0 || |tables| <= TablePosition(opts)
  {
    var pos := TablePosition(opts);
    if |tables| == 0 || |tables| <= pos then Err(ValueError)
    else
      var df :- PyIndex(tables, pos);
      if CleansHeader(opts) then
        var headed :- ParseHeaderDf(df, opts.select.value, opts.control);
        if opts.cleanse.Some? && opts.cleanse.value > 0 then CleanseDf(headed, opts.select.value.indexLoc)
        else Ok(headed)
      else Ok(df)
  }

  /** Without header cleaning the result is the table at `table_loc`,
      counted from the end when negative. */
  lemma ParsePandasSelects(tables: seq<Table>, opts: HtmlOptions)
    requires forall i :: 0 <= i < |tables| ==> tables[i].WellShaped()
    requires !CleansHeader(opts)
    ensures var pos := TablePosition(opts);
      && (0 <= pos < |tables| ==> ParsePandasDf(tables, opts) == Ok(tables[pos]))
      && (-|tables| <= pos < 0 ==> ParsePandasDf(tables, opts) == Ok(tables[|tables| + pos]))
      && (pos < -|tables| && |tables| > 0 ==> ParsePandasDf(tables, opts) == Err(IndexError))
  {
  }

  /** `cleanse` is ignored unless the header is cleaned. */
  lemma CleanseNeedsHeader(tables: seq<Table>, opts: HtmlOptions, cleanse: Option<int>)
    requires forall i :: 0 <= i < |tables| ==> tables[i].WellShaped()
    requires !CleansHeader(opts)
    ensures ParsePandasDf(tables, opts.(cleanse := cleanse)) == ParsePandasDf(tables, opts)
  {
  }
}

=== FILE: lists.dfy ===
/** Filtering a list and mapping the kept elements with a step that may fail,
    as a Python loop does that skips some elements and raises on others. */
module Lists {
  import opened Wrappers

  /** The elements `keep` accepts, in order. */
  function Filter<T>(xs: seq<T>, keep: T -> bool): (s: seq<T>)
    ensures |s| <= |xs|
    ensures forall i :: 0 <= i < |s| ==> keep(s[i])
    decreases |xs|
  {
    if |xs| == 0 then []
    else
      var init := Filter(xs[..|xs| - 1], keep);
      if keep(xs[|xs| - 1]) then init + [xs[|xs| - 1]] else init
  }

  /** The kept elements mapped by `f`, in order; the first kept element on
      which `f` fails makes the whole result that failure. */
  function FilterMap<T, U>(xs: seq<T>, keep: T -> bool, f: T -> Result<U>): (r: Result<seq<U>>)
    ensures r.Ok? ==> |r.value| <= |xs|
    decreases |xs|
  {
    if |xs| == 0 then Ok([])
    else
      var init :- FilterMap(xs[..|xs| - 1], keep, f);
      var last := xs[|xs| - 1];
      if !keep(last) then Ok(init)
      else
        var y :- f(last);
        Ok(init + [y])
  }

  /** One element more: a skipped element adds nothing, a kept one adds its
      image or its failure. */
  lemma FilterMapSnoc<T, U>(xs: seq<T>, i: nat, keep: T -> bool, f: T -> Result<U>)
    requires i < |xs|
    ensures var prev := FilterMap(xs[..i], keep, f);
      var next := FilterMap(xs[..i + 1], keep, f);
      && (prev.Err? ==> next == prev)
      && (prev.Ok? && !keep(xs[i]) ==> next == prev)
      && (prev.Ok? && keep(xs[i]) ==>
            next == (match f(xs[i]) case Err(e) => Err(e) case Ok(y) => Ok(prev.value + [y])))
  {
    assert xs[..i + 1][..i] == xs[..i];
  }

  /** A failure among the elements seen so far is the failure of the whole. */
  lemma {:induction false} FilterMapPrefixErr<T, U>(xs: seq<T>, k: nat, keep: T -> bool, f: T -> Result<U>)
    requires k <= |xs| && FilterMap(xs[..k], keep, f).Err?
    ensures FilterMap(xs, keep, f) == FilterMap(xs[..k], keep, f)
    decreases |xs| - k
  {
    if k < |xs| {
      var init := xs[..|xs| - 1];
      assert init[..k] == xs[..k];
      FilterMapPrefixErr(init, k, keep, f);
    } else {
      assert xs[..k] == xs;
    }
  }

  /** The mapping succeeds exactly when `f` succeeds on every kept element,
      and then holds one image per kept element, in order. */
  lemma {:induction false} FilterMapOfFilter<T, U>(xs: seq<T>, keep: T -> bool, f: T -> Result<U>)
    ensures var s := Filter(xs, keep);
      FilterMap(xs, keep, f).Ok? <==> forall i :: 0 <= i < |s| ==> f(s[i]).Ok?
    ensures var s := Filter(xs, keep);
      var r := FilterMap(xs, keep, f);
      r.Ok? ==> |r.value| == |s| && forall i :: 0 <= i < |s| ==> f(s[i]) == Ok(r.value[i])
    decreases |xs|
  {
    if |xs| > 0 {
      var init := xs[..|xs| - 1];
      var last := xs[|xs| - 1];
      FilterMapOfFilter(init, keep, f);
      var si := Filter(init, keep);
      var ri := FilterMap(init, keep, f);
      if keep(last) {
        var s := si + [last];
        assert Filter(xs, keep) == s;
        assert forall i :: 0 <= i < |si| ==> s[i] == si[i];
        assert s[|si|] == last;
        if ri.Err? {
          var i :| 0 <= i < |si| && f(si[i]).Err?;
          assert f(s[i]).Err?;
        } else if f(last).Ok? {
          var r := ri.value + [f(last).value];
          assert FilterMap(xs, keep, f) == Ok(r);
          assert forall i :: 0 <= i < |si| ==> r[i] == ri.value[i];
        }
      }
    }
  }

  /** A failed mapping fails with the failure of one of the kept elements. */
  lemma {:induction false} FilterMapErr<T, U>(xs: seq<T>, keep: T -> bool, f: T -> Result<U>)
    requires FilterMap(xs, keep, f).Err?
    ensures exists i :: 0 <= i < |xs| && keep(xs[i]) && f(xs[i]) == Err(FilterMap(xs, keep, f).error)
    decreases |xs|
  {
    var init := xs[..|xs| - 1];
    if FilterMap(init, keep, f).Err? {
      FilterMapErr(init, keep, f);
      var i :| 0 <= i < |init| && keep(init[i]) && f(init[i]) == Err(FilterMap(init, keep, f).error);
      assert xs[i] == init[i];
    } else {
      assert f(xs[|xs| - 1]) == Err(FilterMap(xs, keep, f).error);
    }
  }

  /** An element survives filtering exactly when it is in the list and
      accepted. */
  lemma {:induction false} FilterMembers<T>(xs: seq<T>, keep: T -> bool)
    ensures forall x :: x in Filter(xs, keep) <==> x in xs && keep(x)
    decreases |xs|
  {
    if |xs| > 0 {
      var init := xs[..|xs| - 1];
      FilterMembers(init, keep);
      assert xs == init + [xs[|xs| - 1]];
    }
  }

  /** `FilterMembers` for one element. */
  lemma FilterHas<T>(xs: seq<T>, keep: T -> bool, x: T)
    ensures x in Filter(xs, keep) <==> x in xs && keep(x)
  {
    FilterMembers(xs, keep);
  }

  /** Filtering by a test and by its negation splits the list: every element
      lands in exactly one of the two parts. */
  lemma {:induction false} FilterSplits<T>(xs: seq<T>, keep: T -> bool, drop: T -> bool)
    requires forall x :: drop(x) == !keep(x)
    ensures |Filter(xs, keep)| + |Filter(xs, drop)| == |xs|
    decreases |xs|
  {
    if |xs| > 0 {
      FilterSplits(xs[..|xs| - 1], keep, drop);
    }
  }

  /** Python `xs.index(x)`: the first position holding `x`, or -1. */
  function FirstIndex<T(==)>(xs: seq<T>, x: T): (i: int)
    ensures -1 <= i < |xs|
    ensures i >= 0 ==> xs[i] == x && forall j :: 0 <= j < i ==> xs[j] != x
    ensures i == -1 <==> x !in xs
    decreases |xs|
  {
    if |xs| == 0 then -1
    else if xs[0] == x then 0
    else
      var j := FirstIndex(xs[1..], x);
      assert forall k :: 0 <= k < |xs| - 1 ==> xs[1..][k] == xs[k + 1];
      if j < 0 then -1 else j + 1
  }

  /** A property every element has, every kept element has. */
  lemma {:induction false} FilterKeeps<T>(xs: seq<T>, keep: T -> bool, good: T -> bool)
    requires forall i :: 0 <= i < |xs| ==> good(xs[i])
    ensures forall i :: 0 <= i < |Filter(xs, keep)| ==> good(Filter(xs, keep)[i])
    decreases |xs|
  {
    if |xs| > 0 {
      FilterKeeps(xs[..|xs| - 1], keep, good);
    }
  }

  /** Nothing is kept when nothing is accepted. */
  lemma {:induction false} FilterNone<T>(xs: seq<T>, keep: T -> bool)
    requires forall i :: 0 <= i < |xs| ==> !keep(xs[i])
    ensures Filter(xs, keep) == []
    decreases |xs|
  {
    if |xs| > 0 {
      FilterNone(xs[..|xs| - 1], keep);
    }
  }

  /** Nothing is dropped when everything is accepted. */
  lemma {:induction false} FilterAll<T>(xs: seq<T>, keep: T -> bool)
    requires forall i :: 0 <= i < |xs| ==> keep(xs[i])
    ensures Filter(xs, keep) == xs
    decreases |xs|
  {
    if |xs| > 0 {
      FilterAll(xs[..|xs| - 1], keep);
      assert xs[..|xs| - 1] + [xs[|xs| - 1]] == xs;
    }
  }

  /** Filtering keeps order: the kept part of a concatenation is the kept
      part of the first list followed by the kept part of the second. */
  lemma {:induction false} FilterConcat<T>(a: seq<T>, b: seq<T>, keep: T -> bool)
    ensures Filter(a + b, keep) == Filter(a, keep) + Filter(b, keep)
    decreases |b|
  {
    if |b| == 0 {
      assert a + b == a;
    } else {
      var init := b[..|b| - 1];
      var last := b[|b| - 1];
      assert (a + b)[..|a + b| - 1] == a + init;
      assert (a + b)[|a + b| - 1] == last;
      FilterConcat(a, init, keep);
    }
  }

  /** Filtering twice by the same test is filtering once. */
  lemma FilterTwice<T>(xs: seq<T>, keep: T -> bool)
    ensures Filter(Filter(xs, keep), keep) == Filter(xs, keep)
  {
    FilterAll(Filter(xs, keep), keep);
  }
}

=== FILE: ordered_dict.dfy ===
/** Python dictionaries with string keys (and `collections.OrderedDict`) as
    sequences of key/value pairs in insertion order. Assigning to an existing key replaces
    its value in place; a new key goes to the end. */
module OrderedDict {
  import opened Wrappers

  function Keys<V>(d: seq<(string, V)>): (ks: seq<string>)
    ensures |ks| == |d|
    ensures forall i :: 0 <= i < |d| ==> ks[i] == d[i].0
  {
    seq(|d|, i requires 0 <= i < |d| => d[i].0)
  }

  predicate DistinctKeys<V>(d: seq<(string, V)>) {
    forall i, j :: 0 <= i < j < |d| ==> d[i].0 != d[j].0
  }

  /** Position of `k` in `d`, or -1. */
  function IndexOf<V>(d: seq<(string, V)>, k: string): (i: int)
    ensures -1 <= i < |d|
    ensures i >= 0 ==> d[i].0 == k && forall j :: 0 <= j < i ==> d[j].0 != k
    ensures i == -1 <==> k !in Keys(d)
    decreases |d|
  {
    if |d| == 0 then -1
    else if d[0].0 == k then 0
    else
      var j := IndexOf(d[1..], k);
      assert Keys(d) == [d[0].0] + Keys(d[1..]);
      if j < 0 then -1 else j + 1
  }

  /** Python `d.get(k)`. */
  function Get<V>(d: seq<(string, V)>, k: string): Option<V> {
    var i := IndexOf(d, k);
    if i < 0 then None else Some(d[i].1)
  }

  /** Python `d[k] = v`. */
  function Put<V>(d: seq<(string, V)>, k: string, v: V): (r: seq<(string, V)>)
    ensures DistinctKeys(d) ==> DistinctKeys(r)
    ensures Get(r, k) == Some(v)
    ensures forall k' :: k' != k ==> Get(r, k') == Get(d, k')
    ensures k in Keys(d) ==> Keys(r) == Keys(d)
    ensures k !in Keys(d) ==> Keys(r) == Keys(d) + [k]
  {
    var i := IndexOf(d, k);
    if i < 0 then
      var r := d + [(k, v)];
      assert Keys(r) == Keys(d) + [k];
      assert forall k' :: k' != k ==> IndexOf(r, k') == IndexOf(d, k') by {
        forall k' | k' != k
          ensures IndexOf(r, k') == IndexOf(d, k')
        {
          IndexOfAppend(d, (k, v), k');
        }
      }
      r
    else
      var r := d[i := (k, v)];
      assert Keys(r) == Keys(d);
      assert forall k' :: k' != k ==> IndexOf(r, k') == IndexOf(d, k') by {
        forall k' | k' != k
          ensures IndexOf(r, k') == IndexOf(d, k')
        {
          IndexOfSameKeys(r, d, k');
        }
      }
      r
  }

  lemma {:induction false} IndexOfSameKeys<V>(a: seq<(string, V)>, b: seq<(string, V)>, k: string)
    requires Keys(a) == Keys(b)
    ensures IndexOf(a, k) == IndexOf(b, k)
    decreases |a|
  {
    if |a| > 0 {
      assert Keys(a[1..]) == Keys(a)[1..] && Keys(b[1..]) == Keys(b)[1..];
      IndexOfSameKeys(a[1..], b[1..], k);
    }
  }

  lemma {:induction false} IndexOfAppend<V>(d: seq<(string, V)>, p: (string, V), k: string)
    requires p.0 != k
    ensures IndexOf(d + [p], k) == IndexOf(d, k)
    decreases |d|
  {
    if |d| > 0 {
      assert (d + [p])[1..] == d[1..] + [p];
      IndexOfAppend(d[1..], p, k);
    }
  }

  /** Building a dictionary by assigning the pairs one after the other, as
      `for key, val in items: d[key] = val` does. */
  function FromPairs<V>(ps: seq<(string, V)>): seq<(string, V)>
    decreases |ps|
  {
    if |ps| == 0 then []
    else Put(FromPairs(ps[..|ps| - 1]), ps[|ps| - 1].0, ps[|ps| - 1].1)
  }

  /** The value the last pair with key `k` carries. */
  function LastValue<V>(ps: seq<(string, V)>, k: string): Option<V>
    decreases |ps|
  {
    if |ps| == 0 then None
    else if ps[|ps| - 1].0 == k then Some(ps[|ps| - 1].1)
    else LastValue(ps[..|ps| - 1], k)
  }

  /** A pair that no later pair overrides supplies its key's last value. */
  lemma {:induction false} LastValueAt<V>(ps: seq<(string, V)>, i: int)
    requires 0 <= i < |ps|
    requires forall j :: i < j < |ps| ==> ps[j].0 != ps[i].0
    ensures LastValue(ps, ps[i].0) == Some(ps[i].1)
    decreases |ps|
  {
    if i < |ps| - 1 {
      LastValueAt(ps[..|ps| - 1], i);
    }
  }

  /** The keys in order of first occurrence. */
  function Dedup(ks: seq<string>): seq<string>
    decreases |ks|
  {
    if |ks| == 0 then []
    else
      var init := Dedup(ks[..|ks| - 1]);
      if ks[|ks| - 1] in ks[..|ks| - 1] then init else init + [ks[|ks| - 1]]
  }

  lemma {:induction false} DedupSameElements(ks: seq<string>)
    ensures forall k :: k in Dedup(ks) <==> k in ks
    decreases |ks|
  {
    if |ks| > 0 {
      DedupSameElements(ks[..|ks| - 1]);
      assert ks == ks[..|ks| - 1] + [ks[|ks| - 1]];
    }
  }

  /** Assigning pairs one by one yields a dictionary without duplicate keys,
      whose keys appear in order of first assignment and whose value for each
      key is the one assigned last. */
  lemma {:induction false} FromPairsContents<V>(ps: seq<(string, V)>)
    ensures DistinctKeys(FromPairs(ps))
    ensures Keys(FromPairs(ps)) == Dedup(Keys(ps))
    ensures forall k :: Get(FromPairs(ps), k) == LastValue(ps, k)
    decreases |ps|
  {
    if |ps| > 0 {
      var init := ps[..|ps| - 1];
      var last := ps[|ps| - 1];
      FromPairsContents(init);
      DedupSameElements(Keys(init));
      assert Keys(ps)[..|ps| - 1] == Keys(init);
      assert Keys(ps)[|ps| - 1] == last.0;
    }
  }

  /** A list of pairs without repeated keys is already the dictionary it builds. */
  lemma {:induction false} FromDistinctPairs<V>(ps: seq<(string, V)>)
    requires DistinctKeys(ps)
    ensures FromPairs(ps) == ps
    decreases |ps|
  {
    if |ps| > 0 {
      var init := ps[..|ps| - 1];
      var last := ps[|ps| - 1];
      assert DistinctKeys(init);
      FromDistinctPairs(init);
      assert last.0 !in Keys(init) by {
        forall j | 0 <= j < |init|
          ensures Keys(init)[j] != last.0
        {
          assert init[j] == ps[j];
        }
      }
      assert FromPairs(ps) == Put(init, last.0, last.1);
      assert init + [last] == ps;
    }
  }
}

=== FILE: rates_interface.dfy ===
/** The rates interface of the loaders: rendering a DataFrame of rates as one
    wide INSERT statement, as a vertical (one row per value) parameterised
    INSERT, reading the most recent persisted date back from the current
    view, and turning index values into `YYYY-MM-DD` text.

    The database connection is reduced to whether it exists; what a query
    returns is an input, and what would be submitted is an output. */
module RatesInterface {
  import opened Wrappers
  import opened Text
  import opened Dates
  import opened DbRows
  import opened Frames
  import opened Lists
  import opened OrderedDict
  import opened SqlQuery

  // ---------------------------------------------------------------- settings

  /** A fraction, the `exclude_perc` threshold. */
  datatype Fraction = Fraction(num: int, den: int)
  type Ratio = f: Fraction | f.den > 0 witness Fraction(0, 1)

  /** 0.295, the threshold used when the settings give none. */
  const DefaultExcludePerc: Ratio := Fraction(295, 1000)

  /** The threshold in force: the configured one, or 0.295. */
  function ExcludePerc(setting: Option<Ratio>): (r: Ratio)
    ensures setting.Some? ==> r == setting.value
    ensures setting.None? ==> r.num * 1000 == 295 * r.den
  {
    setting.GetOr(DefaultExcludePerc)
  }

  /** The state of an interface object: the statements it built from its
      settings and the settings the operations read. */
  datatype Interface = Interface(
    insertQuery: Query,
    currentView: Option<Query>,
    viewSetting: Option<View>,
    source: Option<string>,
    startDate: Option<CalendarDate>,
    items: Option<Items>,
    updateQuery: Query,
    excludePerc: Ratio,
    connected: bool)

  // ---------------------------------------------------------------- timestamps

  /** `datetime.strptime` with the `%Y<sep>%m<sep>%d` format: a ValueError when
      the text does not parse. */
  function StrpTime(s: string, sep: string): (r: Result<CalendarDate>)
    ensures r.Ok? <==> ParseDate(s, sep).Some?
    ensures r.Ok? ==> r.value == ParseDate(s, sep).value
    ensures r.Err? ==> r.error == ValueError
  {
    match ParseDate(s, sep)
    case Some(d) => Ok(d)
    case None => Err(ValueError)
  }

  /** An index value as `<year><sep><month><sep><day>`. A timestamp is
      rendered directly; a string is parsed with `sep` when `sep` first occurs
      at position 4, else with `/` when `/` first occurs there; anything else
      is a ValueError. */
  function ConvertTimestamp(val: IndexValue, sep: string): (r: Result<string>)
    ensures val.Stamp? ==> r == Ok(FormatDate(val.date, sep))
    ensures val.OtherIndex? ==> r == Err(ValueError)
    ensures val.StrIndex? && Find(val.text, sep) == 4 ==>
      r == if ParseDate(val.text, sep).Some? then Ok(FormatDate(ParseDate(val.text, sep).value, sep)) else Err(ValueError)
    ensures val.StrIndex? && Find(val.text, sep) != 4 && Find(val.text, "/") == 4 ==>
      r == if ParseDate(val.text, "/").Some? then Ok(FormatDate(ParseDate(val.text, "/").value, sep)) else Err(ValueError)
    ensures val.StrIndex? && Find(val.text, sep) != 4 && Find(val.text, "/") != 4 ==> r == Err(ValueError)
    ensures r.Err? ==> r.error == ValueError
  {
    match val
    case Stamp(d) => Ok(FormatDate(d, sep))
    case StrIndex(s) =>
      if Find(s, sep) == 4 then
        var d :- StrpTime(s, sep);
        Ok(FormatDate(d, sep))
      else if Find(s, "/") == 4 then
        var d :- StrpTime(s, "/");
        Ok(FormatDate(d, sep))
      else Err(ValueError)
    case OtherIndex => Err(ValueError)
  }

  /** With `-` the rendering of a date with four-digit year is the ISO 8601
      extended complete calendar date `YYYY-MM-DD` (section 5.2.1.1 of
      ISO 8601:2004): ten characters, digits except for the two hyphens. */
  lemma IsoCalendarDate(d: CalendarDate)
    requires d.year >= 1000
    ensures var s := FormatDate(d, "-");
      |s| == 10 && s[4] == '-' && s[7] == '-' &&
      forall i :: 0 <= i < 10 && i != 4 && i != 7 ==> IsDigit(s[i])
  {
    FourDigits(d.year);
    TwoDigitsOfDay(d.month);
    TwoDigitsOfDay(d.day);
  }

  /** A separator that is not found inside the year: non-empty, not starting
      with a digit. */
  predicate PlainSeparator(sep: string) {
    |sep| > 0 && !IsDigit(sep[0])
  }

  lemma FindSeparatorAfterYear(d: CalendarDate, sep: string)
    requires d.year >= 1000 && PlainSeparator(sep)
    ensures Find(FormatDate(d, sep), sep) == 4
  {
    var s := FormatDate(d, sep);
    FormatShape(d, sep);
    assert OccursAt(s, sep, 4) by {
      assert s[4..][..|sep|] == sep;
    }
    forall j | 0 <= j < 4
      ensures !OccursAt(s, sep, j)
    {
      assert IsDigit(s[j]);
      if j + |sep| <= |s| {
        assert s[j..j + |sep|][0] == s[j];
      }
    }
  }

  /** Converting a rendered date again gives the same text, as converting the
      timestamp itself does. */
  lemma ConvertTimestampRoundTrip(d: CalendarDate, sep: string)
    requires d.year >= 1000 && PlainSeparator(sep)
    ensures ConvertTimestamp(StrIndex(FormatDate(d, sep)), sep) == Ok(FormatDate(d, sep))
    ensures ConvertTimestamp(StrIndex(FormatDate(d, sep)), sep) == ConvertTimestamp(Stamp(d), sep)
  {
    FindSeparatorAfterYear(d, sep);
    ParseFormatRoundTrip(d, sep);
  }

  lemma SlashDateCharacters(d: CalendarDate)
    requires d.year >= 1000
    ensures forall i :: 0 <= i < |FormatDate(d, "/")| ==> IsDigit(FormatDate(d, "/")[i]) || FormatDate(d, "/")[i] == '/'
  {
    FourDigits(d.year);
    TwoDigitsOfDay(d.month);
    TwoDigitsOfDay(d.day);
  }

  /** A `YYYY/MM/DD` string is re-emitted with the requested separator. */
  lemma SlashDateReEmitted(d: CalendarDate, sep: string)
    requires d.year >= 1000 && PlainSeparator(sep) && sep[0] != '/'
    ensures ConvertTimestamp(StrIndex(FormatDate(d, "/")), sep) == Ok(FormatDate(d, sep))
  {
    var s := FormatDate(d, "/");
    SlashDateCharacters(d);
    forall j | 0 <= j <= |s|
      ensures !OccursAt(s, sep, j)
    {
      if j + |sep| <= |s| {
        assert s[j..j + |sep|][0] == s[j];
      }
    }
    FindSeparatorAfterYear(d, "/");
    ParseFormatRoundTrip(d, "/");
  }

  /** The first `-` of `2020-1-5` follows the year. */
  lemma UnpaddedDashAtFour()
    ensures Find("2020-1-5", "-") == 4
  {
    var s := "2020-1-5";
    forall j | 0 <= j < 4
      ensures !OccursAt(s, "-", j)
    {
      assert s[j..j + 1][0] == s[j];
    }
    assert OccursAt(s, "-", 4);
  }

  /** strptime's `%m` and `%d` take the single digits of `1-5`. */
  lemma UnpaddedMonthDay()
    ensures ParseMonthDay(2020, "1-5", "-") == Some(Date(2020, 1, 5))
  {
    var t := "1-5";
    assert MonthCandidates(t) == [(1, 1)];
    assert t[1..] == "-5" && t[2..] == "5";
    assert DayMatch("5") == Some((5, 1));
    assert MatchMonthDay(t, "-", [(1, 1)]) == Some((1, 5, 3));
  }

  lemma UnpaddedParses()
    ensures ParseDate("2020-1-5", "-") == Some(Date(2020, 1, 5))
  {
    var s := "2020-1-5";
    assert FourDigitPrefix(s) && YearValue(s) == 2020;
    assert s[4..] == "-1-5" && s[4..][1..] == "1-5";
    UnpaddedMonthDay();
  }

  lemma PaddedRendering()
    ensures FormatDate(Date(2020, 1, 5), "-") == "2020-01-05"
  {
    FourDigits(2020);
    assert TwoDigits(1) == "01" && TwoDigits(5) == "05";
  }

  /** A string date without padding is read and re-emitted padded:
      `2020-1-5` becomes `2020-01-05`. */
  lemma UnpaddedDateNormalised()
    ensures ConvertTimestamp(StrIndex("2020-1-5"), "-") == Ok("2020-01-05")
  {
    UnpaddedDashAtFour();
    UnpaddedParses();
    PaddedRendering();
  }

  // ---------------------------------------------------------------- wide insert

  /** Number of missing cells. */
  function AbsentCount<V>(values: seq<Option<V>>): (n: nat)
    ensures n <= |values|
    decreases |values|
  {
    if |values| == 0 then 0
    else (if values[|values| - 1].None? then 1 else 0) + AbsentCount(values[..|values| - 1])
  }

  predicate AllAbsent<V>(values: seq<Option<V>>) {
    forall i :: 0 <= i < |values| ==> values[i].None?
  }

  /** More than `perc` of a row of `width` cells is missing. */
  predicate Sparse<V>(values: seq<Option<V>>, width: nat, perc: Ratio) {
    AbsentCount(values) * perc.den > perc.num * width
  }

  /** A row left out of the INSERT: nothing present, or too sparse. */
  predicate Excluded<V>(values: seq<Option<V>>, width: nat, perc: Ratio) {
    AllAbsent(values) || Sparse(values, width, perc)
  }

  lemma {:induction false} AbsentCountOfAll<V>(values: seq<Option<V>>)
    ensures AllAbsent(values) <==> AbsentCount(values) == |values|
    ensures AbsentCount(values) == 0 <==> forall i :: 0 <= i < |values| ==> values[i].Some?
    decreases |values|
  {
    if |values| > 0 {
      var init := values[..|values| - 1];
      AbsentCountOfAll(init);
      assert forall i :: 0 <= i < |init| ==> init[i] == values[i];
    }
  }

  /** With the default threshold a row with exactly one missing cell is left
      out precisely when it has at most three cells, a complete row is never
      left out, and an empty row always is. */
  lemma DefaultExclusion<V>(values: seq<Option<V>>)
    requires |values| > 0
    ensures AbsentCount(values) == 1 ==>
      (Excluded(values, |values|, DefaultExcludePerc) <==> |values| <= 3)
    ensures (forall i :: 0 <= i < |values| ==> values[i].Some?) ==> !Excluded(values, |values|, DefaultExcludePerc)
    ensures AllAbsent(values) ==> Excluded(values, |values|, DefaultExcludePerc)
  {
    AbsentCountOfAll(values);
    assert DefaultExcludePerc.num == 295 && DefaultExcludePerc.den == 1000;
  }

  /** A present row's text: `('<date>', v1, ..., vn)` with `NULL` for a
      missing cell. */
  function RowFragment<V>(date: string, values: seq<Option<V>>, render: V -> string): (r: string)
    ensures |r| > 0 && r[|r| - 1] == ')'
  {
    "('" + date + "', " + Join(", ", RenderCells(values, render)) + ")"
  }

  /** The original's cell loop: every cell followed by `, `, except the last,
      followed by `)`. */
  method RenderRow<V>(date: string, values: seq<Option<V>>, render: V -> string) returns (base: string)
    requires |values| > 0
    ensures base == RowFragment(date, values, render)
  {
    var head := "('" + date + "', ";
    var cells := RenderCells(values, render);
    base := head;
    var width := |values|;
    for j := 0 to width - 1
      invariant base == head + Terminated(cells[..j], ", ")
    {
      var cell := RenderCell(values[j], render);
      assert cells[j] == cell;
      assert cells[..j + 1][..j] == cells[..j];
      assert Terminated(cells[..j + 1], ", ") == Terminated(cells[..j], ", ") + cell + ", ";
      base := base + cell + ", ";
    }
    var cell := RenderCell(values[width - 1], render);
    TerminatedThenLast(cells[..width - 1], ", ", cell);
    assert cells[..width - 1] + [cell] == cells;
    assert Terminated(cells[..width - 1], ", ") + cell == Join(", ", cells);
    assert base + cell + ")" == head + (Terminated(cells[..width - 1], ", ") + cell) + ")";
    base := base + cell + ")";
  }

  /** `convert_timestamp` with `-`, as the INSERT writer calls it. */
  function DashDate(val: IndexValue): (r: Result<string>)
    ensures val.Stamp? ==> r == Ok(FormatDate(val.date, "-"))
    ensures r.Err? ==> r.error == ValueError
  {
    ConvertTimestamp(val, "-")
  }

  /** A row goes into the INSERT when it is not excluded. */
  function KeepRow<V>(width: nat, perc: Ratio): Row<IndexValue, V> -> bool {
    (row: Row<IndexValue, V>) => !Excluded(row.values, width, perc)
  }

  /** A kept row's fragment, or the error of converting its date. */
  function RowText<V>(conv: IndexValue -> Result<string>, render: V -> string): Row<IndexValue, V> -> Result<string> {
    (row: Row<IndexValue, V>) =>
      match conv(row.index)
      case Err(e) => Err(e)
      case Ok(d) => Ok(RowFragment(d, row.values, render))
  }

  /** The fragments of the rows that are kept, in order; the first kept row
      whose date cannot be converted stops the construction. */
  function Fragments<V>(rows: seq<Row<IndexValue, V>>, width: nat, perc: Ratio, conv: IndexValue -> Result<string>, render: V -> string): Result<seq<string>> {
    FilterMap(rows, KeepRow(width, perc), RowText(conv, render))
  }

  /** The rows that are kept, in order. */
  function Survivors<V>(rows: seq<Row<IndexValue, V>>, width: nat, perc: Ratio): (s: seq<Row<IndexValue, V>>)
    ensures |s| <= |rows|
    ensures forall i :: 0 <= i < |s| ==> !Excluded(s[i].values, width, perc)
    ensures forall i :: 0 <= i < |s| ==> s[i] in rows
    ensures forall i :: 0 <= i < |rows| && !Excluded(rows[i].values, width, perc) ==> rows[i] in s
  {
    FilterMembers(rows, KeepRow(width, perc));
    var s := Filter(rows, KeepRow(width, perc));
    assert forall i :: 0 <= i < |s| ==> s[i] in rows by {
      forall i | 0 <= i < |s|
        ensures s[i] in rows
      {
        FilterHas(rows, KeepRow(width, perc), s[i]);
      }
    }
    s
  }

  /** Survivors keep the rows' order: those of a concatenation are those of
      the first part followed by those of the second. */
  lemma SurvivorsInOrder<V>(a: seq<Row<IndexValue, V>>, b: seq<Row<IndexValue, V>>, width: nat, perc: Ratio)
    ensures Survivors(a + b, width, perc) == Survivors(a, width, perc) + Survivors(b, width, perc)
  {
    FilterConcat(a, b, KeepRow(width, perc));
  }

  /** The construction succeeds exactly when every kept row's date converts,
      and then holds one fragment per kept row, in order, each the rendering
      of that row. */
  lemma FragmentsOfSurvivors<V>(rows: seq<Row<IndexValue, V>>, width: nat, perc: Ratio, conv: IndexValue -> Result<string>, render: V -> string)
    ensures var s := Survivors(rows, width, perc);
      Fragments(rows, width, perc, conv, render).Ok? <==>
        forall i :: 0 <= i < |s| ==> conv(s[i].index).Ok?
    ensures var s := Survivors(rows, width, perc);
      var r := Fragments(rows, width, perc, conv, render);
      r.Ok? ==> (|r.value| == |s| &&
                 forall i :: 0 <= i < |s| ==>
                   conv(s[i].index).Ok? && r.value[i] == RowFragment(conv(s[i].index).value, s[i].values, render))
  {
    var s := Survivors(rows, width, perc);
    FilterMapOfFilter(rows, KeepRow(width, perc), RowText(conv, render));
    assert forall i :: 0 <= i < |s| ==> (RowText(conv, render)(s[i]).Ok? <==> conv(s[i].index).Ok?);
  }

  /** The statement: its opening and column list, then the fragments, the
      first preceded by a line break and the others by `, ` and a line break. */
  function InsertText(named: string, frags: seq<string>): string {
    if |frags| == 0 then named else named + "\n" + Join(", \n", frags)
  }

  /** Appending one fragment with the separator the original picks. */
  lemma InsertTextSnoc(named: string, frags: seq<string>, base: string)
    ensures AppendQueryElement(InsertText(named, frags), base, if |frags| == 0 then "\n" else ", \n")
      == InsertText(named, frags + [base])
  {
    if |frags| > 0 {
      var j := Join(", \n", frags);
      JoinSnoc(", \n", frags, base);
      assert InsertText(named, frags) == named + "\n" + j;
      assert InsertText(named, frags + [base]) == named + "\n" + (j + ", \n" + base);
    } else {
      assert frags + [base] == [base];
      assert InsertText(named, [base]) == named + "\n" + base;
    }
  }

  /** The statement after its column list: the fragments of the rows kept. */
  function RowsText<V>(named: string, rows: seq<Row<IndexValue, V>>, width: nat, perc: Ratio, conv: IndexValue -> Result<string>, render: V -> string): (r: Result<string>)
    ensures r.Ok? ==> StartsWith(r.value, named)
  {
    var frags :- Fragments(rows, width, perc, conv, render);
    Ok(InsertText(named, frags))
  }

  /** `db_dataframe_insert`: status -1 (nothing built) for an empty frame,
      otherwise status 0 and the statement text; errors of the statement
      steps and of date conversion are passed on. */
  function BuildInsert<V>(q: Query, perc: Ratio, df: Frame<IndexValue, V>, render: V -> string): (r: Result<(int, Query)>)
    requires df.WellShaped()
    ensures r.Ok? ==> (r.value.0 == -1 <==> df.Empty()) && (r.value.0 == 0 <==> !df.Empty())
    ensures r.Ok? && df.Empty() ==> r.value.1 == q
    ensures r.Ok? && !df.Empty() ==> r.value.1.text.Some?
  {
    if df.Empty() then Ok((-1, q))
    else
      var start :- ConstructInsertStart(q, true);
      var named :- AppendNames(q.(text := Some(start)), ExcludesOf(q.indexName), "");
      var text :- RowsText(named, df.rows, |df.columns|, perc, DashDate, render);
      Ok((0, q.(text := Some(CleanQueryElement(text, DefaultSearch, DefaultReplace)))))
  }

  /** The statement ends in `) VALUES ` or in a row's closing parenthesis, so
      the final clean-up leaves it unchanged. */
  lemma InsertTextShape(named: string, frags: seq<string>)
    requires EndsWith(named, ") VALUES ")
    requires forall i :: 0 <= i < |frags| ==> |frags[i]| > 0 && frags[i][|frags[i]| - 1] == ')'
    ensures CleanQueryElement(InsertText(named, frags), DefaultSearch, DefaultReplace) == InsertText(named, frags)
    ensures StartsWith(InsertText(named, frags), named)
  {
    var t := InsertText(named, frags);
    if |frags| == 0 {
      assert t[|t| - 1] == ' ';
    } else {
      var last := frags[|frags| - 1];
      if |frags| == 1 {
        assert Join(", \n", frags) == last;
      } else {
        assert frags == frags[..|frags| - 1] + [last];
        JoinSnoc(", \n", frags[..|frags| - 1], last);
      }
      assert t == (named + "\n" + Join(", \n", frags[..|frags| - 1]) + (if |frags| == 1 then "" else ", \n")) + last
        || t == named + "\n" + last;
      assert t[|t| - 1] == last[|last| - 1];
    }
    CleanDefaultIdempotent(t);
  }

  /** A built statement is the opening, the column list and the fragments
      of the kept rows, unchanged by the final clean-up. */
  lemma BuildInsertStatement<V>(q: Query, perc: Ratio, df: Frame<IndexValue, V>, render: V -> string)
    requires df.WellShaped() && !df.Empty()
    requires BuildInsert(q, perc, df, render).Ok?
    ensures var start := ConstructInsertStart(q, true).value;
      var named := AppendNames(q.(text := Some(start)), ExcludesOf(q.indexName), "").value;
      var frags := Fragments(df.rows, |df.columns|, perc, DashDate, render).value;
      && StartsWith(named, start)
      && BuildInsert(q, perc, df, render).value.1.text == Some(InsertText(named, frags))
      && StartsWith(InsertText(named, frags), "INSERT INTO " + q.table.value + " (")
  {
    var start := ConstructInsertStart(q, true).value;
    var named := AppendNames(q.(text := Some(start)), ExcludesOf(q.indexName), "").value;
    var frags := Fragments(df.rows, |df.columns|, perc, DashDate, render).value;
    FragmentsOfSurvivors(df.rows, |df.columns|, perc, DashDate, render);
    var s := Survivors(df.rows, |df.columns|, perc);
    forall i | 0 <= i < |frags|
      ensures |frags[i]| > 0 && frags[i][|frags[i]| - 1] == ')'
    {
      var f := RowFragment(DashDate(s[i].index).value, s[i].values, render);
      assert frags[i] == f;
    }
    InsertTextShape(named, frags);
    var t := InsertText(named, frags);
    var open := "INSERT INTO " + q.table.value + " (";
    assert t[..|open|] == named[..|open|] == start[..|open|] == open;
  }

  /** The original's row loop: exclusion tests, conversion of the date,
      rendering, and separators placed by whether a row was written before. */
  method AppendRows<V>(named: string, rows: seq<Row<IndexValue, V>>, width: nat, perc: Ratio, conv: IndexValue -> Result<string>, render: V -> string)
      returns (r: Result<string>)
    requires forall i :: 0 <= i < |rows| ==> |rows[i].values| > 0
    ensures r == RowsText(named, rows, width, perc, conv, render)
  {
    var text := named;
    var first := true;
    ghost var frags: seq<string> := [];
    for i := 0 to |rows|
      invariant Fragments(rows[..i], width, perc, conv, render) == Ok(frags)
      invariant text == InsertText(named, frags)
      invariant first <==> |frags| == 0
    {
      var row := rows[i];
      FilterMapSnoc(rows, i, KeepRow(width, perc), RowText(conv, render));
      if AllAbsent(row.values) {
      } else if Sparse(row.values, width, perc) {
      } else {
        var d := conv(row.index);
        if d.Err? {
          FilterMapPrefixErr(rows, i + 1, KeepRow(width, perc), RowText(conv, render));
          return Err(d.error);
        }
        var base := RenderRow(d.value, row.values, render);
        var sep := if first then "\n" else ", \n";
        InsertTextSnoc(named, frags, base);
        text := AppendQueryElement(text, base, sep);
        frags := frags + [base];
        first := false;
      }
    }
    assert rows[..|rows|] == rows;
    return Ok(text);
  }

  /** `db_dataframe_insert` step by step; it builds what `BuildInsert`
      describes. */
  method DataFrameInsert<V>(iface: Interface, df: Frame<IndexValue, V>, render: V -> string) returns (r: Result<(int, Query)>)
    requires df.WellShaped()
    ensures r == BuildInsert(iface.insertQuery, iface.excludePerc, df, render)
  {
    var q := iface.insertQuery;
    if df.Empty() {
      return Ok((-1, q));
    }
    var start := ConstructInsertStart(q, true);
    if start.Err? {
      return Err(start.error);
    }
    var named := AppendNames(q.(text := Some(start.value)), ExcludesOf(q.indexName), "");
    if named.Err? {
      return Err(named.error);
    }
    var text := AppendRows(named.value, df.rows, |df.columns|, iface.excludePerc, DashDate, render);
    if text.Err? {
      return Err(text.error);
    }
    return Ok((0, q.(text := Some(CleanQueryElement(text.value, DefaultSearch, DefaultReplace)))));
  }

  /** What `construct_db_insert` is given. */
  datatype InsertInput<V> = FrameInput(frame: Frame<IndexValue, V>) | DictInput | OtherInput

  /** `construct_db_insert`: the statement submitted, if any. A frame with rows
      is built; a statement is submitted only with a connection and status 0.
      A ValueError (a frame without rows, an unsupported input, a failing
      step) is caught and nothing is submitted; a dict reaches the dict writer,
      which fails with AttributeError. */
  function ConstructDbInsert<V>(iface: Interface, input: InsertInput<V>, render: V -> string): (r: Result<Option<string>>)
    requires input.FrameInput? ==> input.frame.WellShaped()
    ensures input.DictInput? ==> r == Err(AttributeError)
    ensures r.Ok? && r.value.Some? ==>
      iface.connected && input.FrameInput? && !input.frame.Empty() &&
      BuildInsert(iface.insertQuery, iface.excludePerc, input.frame, render) == Ok((0, iface.insertQuery.(text := r.value)))
    ensures (input.FrameInput? && iface.connected && !input.frame.Empty() &&
             BuildInsert(iface.insertQuery, iface.excludePerc, input.frame, render).Ok?) ==> r.Ok? && r.value.Some?
    ensures input.FrameInput? && |input.frame.rows| == 0 ==> r == Ok(None)
    ensures r.Err? ==> r.error != ValueError
  {
    match input
    case FrameInput(df) =>
      if |df.rows| >= 1 then
        match BuildInsert(iface.insertQuery, iface.excludePerc, df, render)
        case Err(e) => if e == ValueError then Ok(None) else Err(e)
        case Ok(built) =>
          if iface.connected && built.0 == 0 then Ok(Some(built.1.text.value)) else Ok(None)
      else Ok(None)
    case DictInput => Err(AttributeError)
    case OtherInput => Ok(None)
  }

  // ---------------------------------------------------------------- vertical insert

  function Repeat(s: string, n: nat): (r: seq<string>)
    ensures |r| == n && forall i :: 0 <= i < n ==> r[i] == s
  {
    seq(n, _ => s)
  }

  /** `(%s, ..., %s);` with `n` placeholders. */
  function Placeholders(n: nat): string {
    "(" + Join(", ", Repeat("%s", n)) + ");"
  }

  /** The text of the first `k` placeholders, each followed by `, `. */
  function PlaceholderPrefix(k: nat): string {
    "(" + Terminated(Repeat("%s", k), ", ")
  }

  lemma PlaceholderStep(k: nat)
    ensures PlaceholderPrefix(k) + "%s" + ", " == PlaceholderPrefix(k + 1)
    ensures PlaceholderPrefix(k) + "%s" + ");" == Placeholders(k + 1)
  {
    assert Repeat("%s", k + 1)[..k] == Repeat("%s", k);
    TerminatedThenLast(Repeat("%s", k), ", ", "%s");
    assert Repeat("%s", k) + ["%s"] == Repeat("%s", k + 1);
  }

  /** The original's placeholder loop. */
  method PlaceholderLoop(n: nat) returns (baseV: string)
    requires n >= 1
    ensures baseV == Placeholders(n)
  {
    var append := ", ";
    baseV := "";
    for j := 1 to n + 1
      invariant j <= n ==> append == ", "
      invariant j == 1 ==> baseV == ""
      invariant 1 < j <= n ==> baseV == PlaceholderPrefix(j - 1)
      invariant j == n + 1 ==> baseV == Placeholders(n)
    {
      if j == n {
        append := ");";
      }
      var prepend := if j == 1 then "(" else "";
      PlaceholderStep(j - 1);
      if j == 1 {
        assert PlaceholderPrefix(0) == "(";
      }
      baseV := prepend + baseV + "%s" + append;
    }
  }

  /** One parameter row of the vertical layout. */
  datatype VerticalRow = VerticalRow(date: string, column: string, value: string, source: string)

  /** A row's date text: a string index as it is, anything else converted. */
  function IndexText(val: IndexValue): (r: Result<string>)
    ensures val.StrIndex? ==> r == Ok(val.text)
    ensures !val.StrIndex? ==> r == ConvertTimestamp(val, "-")
  {
    if val.StrIndex? then Ok(val.text) else ConvertTimestamp(val, "-")
  }

  /** One parameter row per row whose first cell is present, in order; a
      missing `source` setting is a KeyError at the first such row. */
  function VerticalRows<V>(rows: seq<Row<IndexValue, V>>, column: string, source: Option<string>, render: V -> string): (r: Result<seq<VerticalRow>>)
    requires forall i :: 0 <= i < |rows| ==> |rows[i].values| > 0
    ensures r.Ok? ==> forall i :: 0 <= i < |r.value| ==>
      r.value[i].column == column && source == Some(r.value[i].source)
    decreases |rows|
  {
    if |rows| == 0 then Ok([])
    else
      var init :- VerticalRows(rows[..|rows| - 1], column, source, render);
      var last := rows[|rows| - 1];
      var d :- IndexText(last.index);
      if last.values[0].None? then Ok(init)
      else if source.None? then Err(KeyError)
      else Ok(init + [VerticalRow(d, column, render(last.values[0].value), source.value)])
  }

  /** A row whose first cell is present. */
  predicate FirstPresent<V>(row: Row<IndexValue, V>) {
    |row.values| > 0 && row.values[0].Some?
  }

  /** The rows whose first cell is present, in order. */
  function PresentFirst<V>(rows: seq<Row<IndexValue, V>>): (s: seq<Row<IndexValue, V>>)
    ensures forall i :: 0 <= i < |s| ==> |s[i].values| > 0 && s[i].values[0].Some?
    ensures forall i :: 0 <= i < |s| ==> s[i] in rows
    ensures forall i :: 0 <= i < |rows| && FirstPresent(rows[i]) ==> rows[i] in s
  {
    FilterMembers(rows, FirstPresent);
    var s := Filter(rows, FirstPresent);
    assert forall i :: 0 <= i < |s| ==> s[i] in rows by {
      forall i | 0 <= i < |s|
        ensures s[i] in rows
      {
        FilterHas(rows, FirstPresent, s[i]);
      }
    }
    s
  }

  /** Exactly one parameter row per row whose first cell is present, carrying
      that row's rendered first cell. */
  lemma {:induction false} VerticalRowsOfPresent<V>(rows: seq<Row<IndexValue, V>>, column: string, source: Option<string>, render: V -> string)
    requires forall i :: 0 <= i < |rows| ==> |rows[i].values| > 0
    ensures var r := VerticalRows(rows, column, source, render);
      var p := PresentFirst(rows);
      r.Ok? ==> (|r.value| == |p| &&
                 forall i :: 0 <= i < |p| ==>
                   (r.value[i].value == render(p[i].values[0].value) && IndexText(p[i].index) == Ok(r.value[i].date)))
    decreases |rows|
  {
    if |rows| > 0 {
      VerticalRowsOfPresent(rows[..|rows| - 1], column, source, render);
    }
  }

  /** `db_vertical_insert`: for a non-empty frame, the statement (opening,
      column list and one placeholder per mapped column) and the parameter
      rows; nothing for an empty frame. */
  function VerticalInsert<V>(iface: Interface, df: Frame<IndexValue, V>, render: V -> string): (r: Result<Option<(string, seq<VerticalRow>)>>)
    requires df.WellShaped()
    ensures df.Empty() ==> r == Ok(None)
    ensures r.Ok? && r.value.Some? ==>
      var q := iface.insertQuery;
      q.columns.Some? && |q.columns.value| > 0 &&
      StartsWith(r.value.value.0, "INSERT INTO ") && EndsWith(r.value.value.0, Placeholders(|q.columns.value|))
    ensures r.Ok? && r.value.Some? ==>
      var q := iface.insertQuery;
      && ConstructInsertStart(q, true).Ok?
      && r.value.value.0 == ConstructInsertStart(q, true).value + Join(", ", Kept(Keys(q.columns.value), ExcludesOf(q.indexName))) +
                            ") VALUES " + Placeholders(|q.columns.value|)
      && VerticalRows(df.rows, df.columns[0], iface.source, render) == Ok(r.value.value.1)
  {
    if df.Empty() then Ok(None)
    else
      var q := iface.insertQuery;
      var start :- ConstructInsertStart(q, true);
      var named :- AppendNames(q.(text := Some(start)), ExcludesOf(q.indexName), "");
      var holes := Placeholders(|q.columns.value|);
      var stmt := AppendQueryElement(named, holes, "");
      var vals :- VerticalRows(df.rows, df.columns[0], iface.source, render);
      var names := Join(", ", Kept(Keys(q.columns.value), ExcludesOf(q.indexName)));
      assert named == start + names + ") VALUES " by {
        assert start + "" == start;
      }
      assert stmt == named + holes by {
        assert named + "" == named;
      }
      assert named[..12] == start[..12];
      assert stmt[..12] == named[..12];
      Ok(Some((stmt, vals)))
  }

  // ---------------------------------------------------------------- most recent date

  /** The key `row[index_name]` uses. */
  function IndexLookup(row: DbRow, idx: IndexName): Result<Cell> {
    match idx
    case IndexStr(n) => Lookup(row, Name(n))
    case _ => Err(TypeError)
  }

  /** `extract_db_result_value` as the source has it: on a plain-string view
      `"location" in view` is a substring test, and a view naming a table such
      as `location_rates` then indexes the string with `'location'`. */
  function ExtractAsWritten(result: DbResult, position: Option<int>, view: Option<View>, idx: IndexName): Result<Cell> {
    match result
    case Status(_) => Err(TypeError)
    case Rows(rows) =>
      if |rows| == 0 then Err(IndexError)
      else if position.Some? then Lookup(rows[0], Pos(position.value))
      else
        match view
        case None => Err(KeyError)
        case Some(ViewName(s)) => if Contains(s, "location") then Err(TypeError) else IndexLookup(rows[0], idx)
        case Some(ViewSpec(_, _, _, location)) =>
          if location.Some? then Lookup(rows[0], location.value) else IndexLookup(rows[0], idx)
        case Some(ViewOther) => Err(TypeError)
  }

  /** The value read from the first row: at the given position, else at the
      view's `location` when a dict view has one, else at the index column.
      Only a dict view can carry a `location`. */
  function ExtractDbResultValue(result: DbResult, position: Option<int>, view: Option<View>, idx: IndexName): (r: Result<Cell>)
    ensures result.Status? ==> r == Err(TypeError)
    ensures result.Rows? && |result.rows| == 0 ==> r == Err(IndexError)
    ensures result.Rows? && |result.rows| > 0 && position.Some? ==> r == Lookup(result.rows[0], Pos(position.value))
    ensures result.Rows? && |result.rows| > 0 && position.None? && view.Some? && view.value.ViewName? ==>
      r == IndexLookup(result.rows[0], idx)
    ensures result.Rows? && |result.rows| > 0 && position.None? && view.Some? && view.value.ViewSpec? ==>
      r == (if view.value.location.Some? then Lookup(result.rows[0], view.value.location.value)
            else IndexLookup(result.rows[0], idx))
  {
    match result
    case Status(_) => Err(TypeError)
    case Rows(rows) =>
      if |rows| == 0 then Err(IndexError)
      else if position.Some? then Lookup(rows[0], Pos(position.value))
      else
        match view
        case None => Err(KeyError)
        case Some(ViewName(_)) => IndexLookup(rows[0], idx)
        case Some(ViewSpec(_, _, _, location)) =>
          if location.Some? then Lookup(rows[0], location.value) else IndexLookup(rows[0], idx)
        case Some(ViewOther) => Err(TypeError)
  }

  /** The two readings differ only on plain-string views that contain
      `location`. */
  lemma ExtractAgreesElsewhere(result: DbResult, position: Option<int>, view: Option<View>, idx: IndexName)
    requires !(view.Some? && view.value.ViewName? && Contains(view.value.name, "location"))
    ensures ExtractAsWritten(result, position, view, idx) == ExtractDbResultValue(result, position, view, idx)
  {
  }

  /** A result of the current view naming `location_rates`, read through the
      `date` column: the source's reading fails, the corrected one reads it. */
  lemma LocationSubstringCounterexample(d: CalendarDate)
    ensures var result := Rows([MappingRow([("date", DateCell(d))])]);
      var view := Some(ViewName("location_rates"));
      && ExtractAsWritten(result, None, view, IndexStr("date")) == Err(TypeError)
      && ExtractDbResultValue(result, None, view, IndexStr("date")) == Ok(DateCell(d))
  {
    assert OccursAt("location_rates", "location", 0);
  }

  /** The increment added to the persisted date: one day for a SELECT view, a
      reporting period for a stored procedure. */
  datatype Increment<P> = OneDay | Period(period: P)

  function Step<P>(d: CalendarDate, inc: Increment<P>, shift: (CalendarDate, P) -> Result<CalendarDate>): Result<CalendarDate> {
    match inc
    case OneDay => NextDay(d)
    case Period(p) => shift(d, p)
  }

  /** The advance and shift the stored procedure's period uses: the period for
      (month, year, frequency) and its addition to a date. */
  function PeriodIncrement<P>(date: Cell, freq: Cell, period: (int, int, Cell) -> Result<P>): Result<Increment<P>> {
    if !date.DateCell? then Err(AttributeError)
    else
      var p :- period(date.date.month, date.date.year, freq);
      Ok(Period(p))
  }

  /** What the current view's result holds for the persisted date: the cell
      `extract_db_result_value` reads without a position. */
  function Persisted(iface: Interface, fetched: DbResult): Result<Cell> {
    ExtractDbResultValue(fetched, None, iface.viewSetting, iface.insertQuery.indexName)
  }

  /** The increment for a persisted cell `c`: a day after a SELECT; after a
      stored procedure, the period for the cell's month and year and the
      frequency in the last column of the first row, which the persisted
      read has already found. */
  function IncrementOf<P>(iface: Interface, kind: SqlType, fetched: DbResult, c: Cell,
                          period: (int, int, Cell) -> Result<P>): (r: Result<Increment<P>>)
    requires fetched.Rows? && |fetched.rows| > 0
    ensures kind != StoredProcedureRes ==> r == Ok(OneDay)
    ensures r.Ok? && kind == StoredProcedureRes ==> r.value.Period?
    ensures kind == StoredProcedureRes && !c.DateCell? ==> r.Err?
  {
    if kind != StoredProcedureRes then Ok(OneDay)
    else
      var freq :- ExtractDbResultValue(fetched, Some(RowLength(fetched.rows[0]) - 1), iface.viewSetting,
                                       iface.insertQuery.indexName);
      PeriodIncrement(c, freq, period)
  }

  /** The current view is a statement that returns rows, the connection is
      open and what it returned is truthy: the persisted date is read. */
  predicate ReadsPersisted(iface: Interface, fetched: DbResult) {
    && iface.currentView.Some? && iface.currentView.value.kind.Some?
    && ReturnsRows(iface.currentView.value.kind.value)
    && iface.connected && Truthy(fetched)
  }

  /** `calc_most_recent_date`: the date from which loading resumes, as
      `YYYY-MM-DD`. Without a current view, for a view that yields no rows or
      for an empty result it is `currentMax` itself. Otherwise the persisted
      date is read from the result: without `currentMax` it is returned
      formatted; with one, a persisted date on or after it is advanced by one
      increment and returned, an earlier one leaves `currentMax`. */
  function CalcMostRecentDate<P>(iface: Interface, currentMax: Option<string>, fetched: DbResult,
                                 period: (int, int, Cell) -> Result<P>,
                                 shift: (CalendarDate, P) -> Result<CalendarDate>): (r: Result<Option<string>>)
    ensures iface.currentView.None? ==> r == Ok(currentMax)
    ensures iface.currentView.Some? && iface.currentView.value.kind.None? ==> r == Err(AttributeError)
    ensures iface.currentView.Some? && iface.currentView.value.kind.Some? && !ReturnsRows(iface.currentView.value.kind.value) ==>
      r == Ok(currentMax)
    ensures iface.currentView.Some? && iface.currentView.value.kind.Some? && ReturnsRows(iface.currentView.value.kind.value) ==>
      (!iface.connected ==> r == Err(AttributeError)) && (iface.connected && !Truthy(fetched) ==> r == Ok(currentMax))
    // without a maximum: the persisted date, formatted
    ensures ReadsPersisted(iface, fetched) && currentMax.None? ==>
      var c := Persisted(iface, fetched);
      && (c.Err? ==> r == Err(c.error))
      && (c.Ok? && c.value.DateCell? ==> r == Ok(Some(FormatDate(c.value.date, "-"))))
      && (c.Ok? && !c.value.DateCell? ==> r == Err(TypeError))
    // with a maximum: it must parse, then the persisted date is compared with it
    ensures ReadsPersisted(iface, fetched) && currentMax.Some? && ParseDate(currentMax.value, "-").None? ==>
      r == Err(ValueError)
    ensures ReadsPersisted(iface, fetched) && currentMax.Some? && ParseDate(currentMax.value, "-").Some? ==>
      var m := ParseDate(currentMax.value, "-").value;
      var c := Persisted(iface, fetched);
      && (c.Err? ==> r == Err(c.error))
      && (c.Ok? && !c.value.DateCell? ==> r.Err?)
      && (c.Ok? && c.value.DateCell? ==>
            var p := c.value.date;
            var inc := IncrementOf(iface, iface.currentView.value.kind.value, fetched, c.value, period);
            && (inc.Err? ==> r == Err(inc.error))
            && (inc.Ok? && Before(p, m) ==> r == Ok(currentMax))
            && (inc.Ok? && !Before(p, m) ==>
                  r == (match Step(p, inc.value, shift)
                        case Ok(next) => Ok(Some(FormatDate(next, "-")))
                        case Err(e) => Err(e))))
  {
    match iface.currentView
    case None => Ok(currentMax)
    case Some(cv) =>
      if cv.kind.None? then Err(AttributeError)
      else if !ReturnsRows(cv.kind.value) then Ok(currentMax)
      else if !iface.connected then Err(AttributeError)
      else if !Truthy(fetched) then Ok(currentMax)
      else
        match currentMax
        case None =>
          var c :- Persisted(iface, fetched);
          if c.DateCell? then Ok(Some(FormatDate(c.date, "-"))) else Err(TypeError)
        case Some(cm) =>
          var dte :- StrpTime(cm, "-");
          var c :- Persisted(iface, fetched);
          var inc :- IncrementOf(iface, cv.kind.value, fetched, c, period);
          if !c.DateCell? then Err(TypeError)
          else if !Before(c.date, dte) then
            var next :- Step(c.date, inc, shift);
            Ok(Some(FormatDate(next, "-")))
          else Ok(currentMax)
  }

  /** After a SELECT view, a persisted date on or after the maximum resumes
      loading at the very next calendar day: the answer reads back as a date
      after the persisted one with no valid date in between. */
  lemma ResumeAfterSelect<P>(iface: Interface, cm: string, fetched: DbResult, p: CalendarDate,
                             period: (int, int, Cell) -> Result<P>,
                             shift: (CalendarDate, P) -> Result<CalendarDate>)
    requires ReadsPersisted(iface, fetched) && iface.currentView.value.kind.value == Select
    requires ParseDate(cm, "-").Some? && Persisted(iface, fetched) == Ok(DateCell(p))
    requires !Before(p, ParseDate(cm, "-").value) && p.year >= 1000 && p != Date(9999, 12, 31)
    ensures var r := CalcMostRecentDate(iface, Some(cm), fetched, period, shift);
      && r.Ok? && r.value.Some? && ParseDate(r.value.value, "-").Some?
      && var n := ParseDate(r.value.value, "-").value;
         Before(p, n) && forall e: CalendarDate :: !(Before(p, e) && Before(e, n))
  {
    NextDayIsSuccessor(p, p);
    var n := NextDay(p).value;
    assert CalcMostRecentDate(iface, Some(cm), fetched, period, shift) == Ok(Some(FormatDate(n, "-")));
    ParseFormatRoundTrip(n, "-");
    forall e: CalendarDate
      ensures !(Before(p, e) && Before(e, n))
    {
      NextDayIsSuccessor(p, e);
    }
  }

  /** The shift moves every date forward. */
  ghost predicate ShiftsForward<P(!new)>(shift: (CalendarDate, P) -> Result<CalendarDate>) {
    forall d: CalendarDate, p: P :: shift(d, p).Ok? ==> Before(d, shift(d, p).value)
  }

  /** Resuming never goes backwards: with a maximum given, the answer is that
      maximum, or a date strictly after it (one increment past a persisted
      date that is not earlier). */
  lemma ResumeMovesForward<P(!new)>(iface: Interface, cm: string, fetched: DbResult,
                              period: (int, int, Cell) -> Result<P>,
                              shift: (CalendarDate, P) -> Result<CalendarDate>)
    requires ShiftsForward(shift)
    requires ParseDate(cm, "-").Some? && ParseDate(cm, "-").value.year >= 1000
    ensures var r := CalcMostRecentDate(iface, Some(cm), fetched, period, shift);
      r.Ok? ==> (r.value == Some(cm) ||
                 (ParseDate(r.value.value, "-").Some? &&
                  Before(ParseDate(cm, "-").value, ParseDate(r.value.value, "-").value)))
  {
    var r := CalcMostRecentDate(iface, Some(cm), fetched, period, shift);
    if r.Ok? && r.value != Some(cm) {
      assert ReadsPersisted(iface, fetched);
      var m: CalendarDate := ParseDate(cm, "-").value;
      var c := Persisted(iface, fetched).value;
      assert c.DateCell?;
      var p: CalendarDate := c.date;
      var inc := IncrementOf(iface, iface.currentView.value.kind.value, fetched, c, period).value;
      assert !Before(p, m);
      var next := Step(p, inc, shift).value;
      if inc.OneDay? {
        NextDayIsSuccessor(p, p);
      }
      assert Before(p, next);
      BeforeIsLexicographic(m, p);
      BeforeIsLexicographic(p, next);
      assert r.value == Some(FormatDate(next, "-"));
      ParseFormatRoundTrip(next, "-");
    }
  }
}

=== FILE: rates_update.dfy ===
/** The extended rates interface: a fetched DataFrame is split against the
    most recent persisted date into new rows, which are inserted, and old rows
    inside the loading window, which are merged with the persisted rows and
    used to fill the persisted gaps by UPDATE statements.

    The driver's `update` is an oracle `ok`: the call is committed (code 0) or
    not (code 1). What the current view returns, and the maximum date read
    from it, are inputs. */
module RatesUpdate {
  import opened Wrappers
  import opened Text
  import opened OrderedDict
  import opened Dates
  import opened DbRows
  import opened Frames
  import opened Lists
  import opened SqlQuery
  import opened RatesInterface

  // ---------------------------------------------------------------- partition

  /** The `new_ind` mask, combined as the source combines it: a later year, a
      later month of the same year, or a later day of the same month. */
  predicate IsNew(d: Date, m: Date) {
    ((d.year == m.year && d.month > m.month) || d.year > m.year)
    || (d.year == m.year && d.month == m.month && d.day > m.day)
  }

  /** The `old_ind2` mask: an earlier month of the same year, an earlier
      year, or the same month and a day not after. */
  predicate IsOldOrEqual(d: Date, m: Date) {
    ((d.year == m.year && d.month < m.month) || d.year < m.year)
    || (d.year == m.year && d.month == m.month && d.day <= m.day)
  }

  /** The `old_ind` mask: `old_ind2` restricted to dates after `start_date`. */
  predicate IsOld(d: Date, m: Date, start: Date) {
    Before(start, d) && IsOldOrEqual(d, m)
  }

  /** The masks are the calendar order: new means after the maximum, the
      pre-floor old mask means on or before it; so every date is in exactly
      one of them. */
  lemma MasksAreCalendarOrder(d: CalendarDate, m: CalendarDate)
    ensures IsNew(d, m) <==> Before(m, d)
    ensures IsOldOrEqual(d, m) <==> !Before(m, d)
  {
    BeforeIsLexicographic(m, d);
  }

  function NewRows<V>(rows: seq<Row<CalendarDate, V>>, m: CalendarDate): seq<Row<CalendarDate, V>> {
    Filter(rows, (r: Row<CalendarDate, V>) => IsNew(r.index, m))
  }

  function OldRows<V>(rows: seq<Row<CalendarDate, V>>, m: CalendarDate, start: CalendarDate): seq<Row<CalendarDate, V>> {
    Filter(rows, (r: Row<CalendarDate, V>) => IsOld(r.index, m, start))
  }

  function NotNewRows<V>(rows: seq<Row<CalendarDate, V>>, m: CalendarDate): seq<Row<CalendarDate, V>> {
    Filter(rows, (r: Row<CalendarDate, V>) => IsOldOrEqual(r.index, m))
  }

  /** The split of the fetched rows: new rows are those after the maximum, old
      rows those on or before it and after the start date; no row is both,
      and new rows with the pre-floor old rows account for every row. */
  lemma PartitionOfRows<V>(rows: seq<Row<CalendarDate, V>>, m: CalendarDate, start: CalendarDate)
    ensures forall r :: r in NewRows(rows, m) <==> r in rows && Before(m, r.index)
    ensures forall r :: r in OldRows(rows, m, start) <==>
      r in rows && !Before(m, r.index) && Before(start, r.index)
    ensures forall r :: r in NewRows(rows, m) ==> r !in OldRows(rows, m, start)
    ensures |NewRows(rows, m)| + |NotNewRows(rows, m)| == |rows|
  {
    var isNew := (r: Row<CalendarDate, V>) => IsNew(r.index, m);
    var isOld := (r: Row<CalendarDate, V>) => IsOld(r.index, m, start);
    var notNew := (r: Row<CalendarDate, V>) => IsOldOrEqual(r.index, m);
    FilterMembers(rows, isNew);
    FilterMembers(rows, isOld);
    forall r: Row<CalendarDate, V>
      ensures isNew(r) <==> Before(m, r.index)
      ensures isOld(r) <==> !Before(m, r.index) && Before(start, r.index)
      ensures notNew(r) == !isNew(r)
    {
      MasksAreCalendarOrder(r.index, m);
    }
    FilterSplits(rows, isNew, notNew);
  }

  // ---------------------------------------------------------------- left merge

  /** pandas' suffixing of a column name the other side also has. */
  function Suffixed(columns: seq<string>, other: seq<string>, suffix: string): (r: seq<string>)
    ensures |r| == |columns|
    ensures forall i :: 0 <= i < |columns| ==> r[i] == if columns[i] in other then columns[i] + suffix else columns[i]
  {
    seq(|columns|, i requires 0 <= i < |columns| => if columns[i] in other then columns[i] + suffix else columns[i])
  }

  function Absent<V>(n: nat): (r: seq<Option<V>>)
    ensures |r| == n && forall i :: 0 <= i < n ==> r[i].None?
  {
    seq(n, _ => None)
  }

  /** The merged rows one left row yields: one per right row with the same
      date, in order, or a single row with every right cell missing. */
  function MergeRow<V>(row: Row<CalendarDate, V>, right: seq<Row<CalendarDate, V>>, width: nat): (r: seq<Row<CalendarDate, V>>)
    requires forall i :: 0 <= i < |right| ==> |right[i].values| == width
    ensures |r| > 0
    ensures forall i :: 0 <= i < |r| ==>
      && r[i].index == row.index
      && |r[i].values| == |row.values| + width
      && r[i].values[..|row.values|] == row.values
  {
    var ms := Filter(right, (o: Row<CalendarDate, V>) => o.index == row.index);
    FilterKeeps(right, (o: Row<CalendarDate, V>) => o.index == row.index, (o: Row<CalendarDate, V>) => |o.values| == width);
    assert forall i :: 0 <= i < |ms| ==> (row.values + ms[i].values)[..|row.values|] == row.values;
    assert (row.values + Absent(width))[..|row.values|] == row.values;
    if |ms| == 0 then [Row(row.index, row.values + Absent(width))]
    else seq(|ms|, i requires 0 <= i < |ms| => Row(row.index, row.values + ms[i].values))
  }

  function MergedRows<V>(left: seq<Row<CalendarDate, V>>, right: seq<Row<CalendarDate, V>>, width: nat): seq<Row<CalendarDate, V>>
    requires forall i :: 0 <= i < |right| ==> |right[i].values| == width
    decreases |left|
  {
    if |left| == 0 then []
    else MergedRows(left[..|left| - 1], right, width) + MergeRow(left[|left| - 1], right, width)
  }

  /** `pd.merge(left, right, how='left', left_index=True, right_index=True)`:
      the left rows in order, each joined with the right rows of its date. */
  function MergeLeft<V>(left: Frame<CalendarDate, V>, right: Frame<CalendarDate, V>): Frame<CalendarDate, V>
    requires right.WellShaped()
  {
    Frame(Suffixed(left.columns, right.columns, "_x") + Suffixed(right.columns, left.columns, "_y"),
          MergedRows(left.rows, right.rows, |right.columns|))
  }

  /** The merged rows: at least one per left row, each with the left cells
      followed by the persisted cells, and dated as some left row. */
  lemma {:induction false} MergedRowsShape<V>(left: seq<Row<CalendarDate, V>>, right: seq<Row<CalendarDate, V>>, lw: nat, width: nat)
    requires forall i :: 0 <= i < |left| ==> |left[i].values| == lw
    requires forall i :: 0 <= i < |right| ==> |right[i].values| == width
    ensures var rows := MergedRows(left, right, width);
      && |rows| >= |left|
      && (forall i :: 0 <= i < |rows| ==> |rows[i].values| == lw + width)
      && (forall i :: 0 <= i < |rows| ==> exists j :: 0 <= j < |left| && rows[i].index == left[j].index)
    decreases |left|
  {
    if |left| > 0 {
      var initL := left[..|left| - 1];
      MergedRowsShape(initL, right, lw, width);
      var init := MergedRows(initL, right, width);
      var more := MergeRow(left[|left| - 1], right, width);
      var rows := init + more;
      forall i | 0 <= i < |rows|
        ensures |rows[i].values| == lw + width
        ensures exists j :: 0 <= j < |left| && rows[i].index == left[j].index
      {
        if i < |init| {
          assert rows[i] == init[i];
          var j :| 0 <= j < |initL| && init[i].index == initL[j].index;
          assert initL[j] == left[j];
        } else {
          assert rows[i] == more[i - |init|];
        }
      }
    }
  }

  /** The merged frame is well shaped, has at least one row per left row and
      only dates of the left rows. */
  lemma MergeLeftWellShaped<V>(left: Frame<CalendarDate, V>, right: Frame<CalendarDate, V>)
    requires left.WellShaped() && right.WellShaped()
    ensures MergeLeft(left, right).WellShaped()
    ensures |MergeLeft(left, right).rows| >= |left.rows|
    ensures forall i :: 0 <= i < |MergeLeft(left, right).rows| ==>
      exists j :: 0 <= j < |left.rows| && MergeLeft(left, right).rows[i].index == left.rows[j].index
  {
    MergedRowsShape(left.rows, right.rows, |left.columns|, |right.columns|);
  }

  /** A left row with no persisted row of its date is kept once, with its own
      cells followed by missing cells. */
  lemma UnmatchedRowGetsMissingCells<V>(row: Row<CalendarDate, V>, right: seq<Row<CalendarDate, V>>, width: nat)
    requires forall i :: 0 <= i < |right| ==> |right[i].values| == width
    requires forall i :: 0 <= i < |right| ==> right[i].index != row.index
    ensures MergeRow(row, right, width) == [Row(row.index, row.values + Absent(width))]
  {
    FilterNone(right, (o: Row<CalendarDate, V>) => o.index == row.index);
  }

  // ---------------------------------------------------------------- gap-fill UPDATE

  /** One UPDATE: its text and its `result` and `date` parameters. */
  datatype UpdateCall<V> = UpdateCall(text: string, result: V, date: CalendarDate)

  /** The driver's return code for a call. */
  function Code(committed: bool): int {
    if committed then 0 else 1
  }

  /** The sum of the return codes: the number of calls not committed. */
  function Failures<T>(calls: seq<T>, ok: T -> bool): (n: nat)
    ensures n <= |calls|
    decreases |calls|
  {
    if |calls| == 0 then 0
    else Failures(calls[..|calls| - 1], ok) + Code(ok(calls[|calls| - 1]))
  }

  /** A persisted gap for the mapping `key -> value`: both columns exist, the
      source cell is present and the target cell is missing. */
  predicate Gap<V>(columns: seq<string>, row: Row<CalendarDate, V>, pair: (string, string)) {
    && |row.values| == |columns|
    && pair.0 in columns && pair.1 in columns
    && row.values[FirstIndex(columns, pair.0)].Some?
    && row.values[FirstIndex(columns, pair.1)].None?
  }

  /** The UPDATE filling a gap: the template with `%(field)s` replaced by the
      target column, the source value and the row's date. */
  function CellCall<V>(columns: seq<string>, row: Row<CalendarDate, V>, pair: (string, string), template: string): UpdateCall<V>
    requires Gap(columns, row, pair)
  {
    UpdateCall(ReplaceAll(template, "%(field)s", pair.1), row.values[FirstIndex(columns, pair.0)].value, row.index)
  }

  /** The calls for one row, in mapping order. */
  function RowCalls<V>(columns: seq<string>, row: Row<CalendarDate, V>, pairs: seq<(string, string)>, template: string): seq<UpdateCall<V>>
    decreases |pairs|
  {
    if |pairs| == 0 then []
    else
      var last := pairs[|pairs| - 1];
      RowCalls(columns, row, pairs[..|pairs| - 1], template) +
      (if Gap(columns, row, last) then [CellCall(columns, row, last, template)] else [])
  }

  /** The calls for the rows, in row order. */
  function FrameCalls<V>(columns: seq<string>, rows: seq<Row<CalendarDate, V>>, pairs: seq<(string, string)>, template: string): seq<UpdateCall<V>>
    decreases |rows|
  {
    if |rows| == 0 then []
    else FrameCalls(columns, rows[..|rows| - 1], pairs, template) + RowCalls(columns, rows[|rows| - 1], pairs, template)
  }

  lemma {:induction false} RowCallsAreGaps<V>(columns: seq<string>, row: Row<CalendarDate, V>, pairs: seq<(string, string)>, template: string)
    ensures forall j :: 0 <= j < |pairs| && Gap(columns, row, pairs[j]) ==>
      CellCall(columns, row, pairs[j], template) in RowCalls(columns, row, pairs, template)
    ensures forall c :: c in RowCalls(columns, row, pairs, template) ==>
      exists j :: 0 <= j < |pairs| && Gap(columns, row, pairs[j]) && c == CellCall(columns, row, pairs[j], template)
    decreases |pairs|
  {
    if |pairs| > 0 {
      var init := pairs[..|pairs| - 1];
      RowCallsAreGaps(columns, row, init, template);
      forall j | 0 <= j < |pairs| && Gap(columns, row, pairs[j])
        ensures CellCall(columns, row, pairs[j], template) in RowCalls(columns, row, pairs, template)
      {
        if j < |init| {
          assert init[j] == pairs[j];
        }
      }
      forall c | c in RowCalls(columns, row, pairs, template)
        ensures exists j :: 0 <= j < |pairs| && Gap(columns, row, pairs[j]) && c == CellCall(columns, row, pairs[j], template)
      {
        if c in RowCalls(columns, row, init, template) {
          var j :| 0 <= j < |init| && Gap(columns, row, init[j]) && c == CellCall(columns, row, init[j], template);
          assert init[j] == pairs[j];
        } else {
          assert c == CellCall(columns, row, pairs[|pairs| - 1], template);
        }
      }
    }
  }

  /** Every gap of every row gets its UPDATE. */
  lemma {:induction false} GapsAreFilled<V>(columns: seq<string>, rows: seq<Row<CalendarDate, V>>, pairs: seq<(string, string)>, template: string)
    ensures forall i, j :: 0 <= i < |rows| && 0 <= j < |pairs| && Gap(columns, rows[i], pairs[j]) ==>
      CellCall(columns, rows[i], pairs[j], template) in FrameCalls(columns, rows, pairs, template)
    decreases |rows|
  {
    if |rows| > 0 {
      var init := rows[..|rows| - 1];
      var last := rows[|rows| - 1];
      var before := FrameCalls(columns, init, pairs, template);
      var now := RowCalls(columns, last, pairs, template);
      assert FrameCalls(columns, rows, pairs, template) == before + now;
      GapsAreFilled(columns, init, pairs, template);
      RowCallsAreGaps(columns, last, pairs, template);
      forall i, j | 0 <= i < |rows| && 0 <= j < |pairs| && Gap(columns, rows[i], pairs[j])
        ensures CellCall(columns, rows[i], pairs[j], template) in before + now
      {
        if i < |init| {
          assert init[i] == rows[i];
          assert CellCall(columns, init[i], pairs[j], template) in before;
        } else {
          assert rows[i] == last;
          assert CellCall(columns, last, pairs[j], template) in now;
        }
      }
    }
  }

  /** Every UPDATE fills a gap of some row. */
  lemma {:induction false} CallsFillGaps<V>(columns: seq<string>, rows: seq<Row<CalendarDate, V>>, pairs: seq<(string, string)>, template: string)
    ensures forall c :: c in FrameCalls(columns, rows, pairs, template) ==>
      exists i, j :: 0 <= i < |rows| && 0 <= j < |pairs| && Gap(columns, rows[i], pairs[j]) &&
        c == CellCall(columns, rows[i], pairs[j], template)
    decreases |rows|
  {
    if |rows| > 0 {
      var init := rows[..|rows| - 1];
      var last := rows[|rows| - 1];
      var before := FrameCalls(columns, init, pairs, template);
      var now := RowCalls(columns, last, pairs, template);
      assert FrameCalls(columns, rows, pairs, template) == before + now;
      CallsFillGaps(columns, init, pairs, template);
      RowCallsAreGaps(columns, last, pairs, template);
      forall c | c in before + now
        ensures exists i, j :: (0 <= i < |rows| && 0 <= j < |pairs| && Gap(columns, rows[i], pairs[j]) &&
                                c == CellCall(columns, rows[i], pairs[j], template))
      {
        if c in before {
          var i, j :| 0 <= i < |init| && 0 <= j < |pairs| && Gap(columns, init[i], pairs[j]) &&
            c == CellCall(columns, init[i], pairs[j], template);
          assert init[i] == rows[i];
        } else {
          assert c in now;
          var j :| 0 <= j < |pairs| && Gap(columns, last, pairs[j]) && c == CellCall(columns, last, pairs[j], template);
          assert rows[|rows| - 1] == last;
        }
      }
    }
  }

  /** Exactly the gaps are filled: every gap of every row gets its UPDATE,
      and every UPDATE fills a gap, so a populated target is never written. */
  lemma FrameCallsAreGaps<V>(columns: seq<string>, rows: seq<Row<CalendarDate, V>>, pairs: seq<(string, string)>, template: string)
    ensures forall i, j :: 0 <= i < |rows| && 0 <= j < |pairs| && Gap(columns, rows[i], pairs[j]) ==>
      CellCall(columns, rows[i], pairs[j], template) in FrameCalls(columns, rows, pairs, template)
    ensures forall c :: c in FrameCalls(columns, rows, pairs, template) ==>
      exists i, j :: 0 <= i < |rows| && 0 <= j < |pairs| && Gap(columns, rows[i], pairs[j]) &&
        c == CellCall(columns, rows[i], pairs[j], template)
  {
    GapsAreFilled(columns, rows, pairs, template);
    CallsFillGaps(columns, rows, pairs, template);
  }

  /** The calls `db_dataframe_update` makes on a non-empty frame when the
      mapping is a dict: one per gap, in row and mapping order. */
  function GapCalls<V>(iface: Interface, df: Frame<CalendarDate, V>): seq<UpdateCall<V>> {
    if df.Empty() || iface.items.None? || !iface.items.value.ItemsDict? then []
    else FrameCalls(df.columns, df.rows, iface.items.value.pairs, iface.updateQuery.text.GetOr(""))
  }

  /** `db_dataframe_update`: -1 for an empty frame; otherwise the gap-filling
      calls in row and mapping order and the sum of their return codes. The
      mapping must be a dict (KeyError when missing, AttributeError for any
      other kind); a missing UPDATE template, or a missing connection, is an
      AttributeError at the first gap. */
  function DataFrameUpdateSpec<V>(iface: Interface, df: Frame<CalendarDate, V>, ok: UpdateCall<V> -> bool): (r: Result<(int, seq<UpdateCall<V>>)>)
    ensures df.Empty() ==> r == Ok((-1, []))
    ensures !df.Empty() && iface.items.None? ==> r == Err(KeyError)
    ensures !df.Empty() && iface.items.Some? && !iface.items.value.ItemsDict? ==> r == Err(AttributeError)
    ensures !df.Empty() && iface.items.Some? && iface.items.value.ItemsDict? ==>
      (r.Err? <==> |GapCalls(iface, df)| > 0 && (iface.updateQuery.text.None? || !iface.connected))
    ensures r.Ok? && !df.Empty() ==>
      && r.value.1 == GapCalls(iface, df)
      && r.value.0 == Failures(r.value.1, ok) && 0 <= r.value.0 <= |r.value.1|
    ensures r.Err? ==> r.error == KeyError || r.error == AttributeError
  {
    if df.Empty() then Ok((-1, []))
    else
      match iface.items
      case None => Err(KeyError)
      case Some(items) =>
        if !items.ItemsDict? then Err(AttributeError)
        else
          var calls := FrameCalls(df.columns, df.rows, items.pairs, iface.updateQuery.text.GetOr(""));
          if |calls| > 0 && (iface.updateQuery.text.None? || !iface.connected) then Err(AttributeError)
          else
            var status: int := Failures(calls, ok);
            Ok((status, calls))
  }

  lemma RowCallsStep<V>(columns: seq<string>, row: Row<CalendarDate, V>, pairs: seq<(string, string)>, j: nat, template: string)
    requires j < |pairs|
    ensures RowCalls(columns, row, pairs[..j + 1], template) ==
      RowCalls(columns, row, pairs[..j], template) +
      (if Gap(columns, row, pairs[j]) then [CellCall(columns, row, pairs[j], template)] else [])
  {
    assert pairs[..j + 1][..j] == pairs[..j];
  }

  lemma {:induction false} RowCallsGrow<V>(columns: seq<string>, row: Row<CalendarDate, V>, pairs: seq<(string, string)>, j: nat, template: string)
    requires j <= |pairs|
    ensures |RowCalls(columns, row, pairs[..j], template)| <= |RowCalls(columns, row, pairs, template)|
    decreases |pairs| - j
  {
    if j < |pairs| {
      RowCallsStep(columns, row, pairs, j, template);
      RowCallsGrow(columns, row, pairs, j + 1, template);
    } else {
      assert pairs[..j] == pairs;
    }
  }

  lemma {:induction false} FrameCallsGrow<V>(columns: seq<string>, rows: seq<Row<CalendarDate, V>>, pairs: seq<(string, string)>, i: nat, template: string)
    requires i <= |rows|
    ensures |FrameCalls(columns, rows[..i], pairs, template)| <= |FrameCalls(columns, rows, pairs, template)|
    decreases |rows| - i
  {
    if i < |rows| {
      assert rows[..i + 1][..i] == rows[..i];
      FrameCallsGrow(columns, rows, pairs, i + 1, template);
    } else {
      assert rows[..i] == rows;
    }
  }

  /** The calls of one row for the first `j` mappings. */
  method UpdateRow<V>(columns: seq<string>, row: Row<CalendarDate, V>, pairs: seq<(string, string)>, template: Option<string>,
                      connected: bool, ok: UpdateCall<V> -> bool)
      returns (r: Result<(int, seq<UpdateCall<V>>)>)
    requires |row.values| == |columns|
    ensures var calls := RowCalls(columns, row, pairs, template.GetOr(""));
      && (template.Some? && connected ==> r == Ok((Failures(calls, ok), calls)))
      && (template.None? || !connected ==> r == if |calls| > 0 then Err(AttributeError) else Ok((0, [])))
  {
    var status := 0;
    var calls: seq<UpdateCall<V>> := [];
    ghost var t := template.GetOr("");
    for j := 0 to |pairs|
      invariant calls == RowCalls(columns, row, pairs[..j], t)
      invariant status == Failures(calls, ok)
      invariant template.None? || !connected ==> calls == []
    {
      UpdateStep(columns, row, pairs, j, t);
      var key := pairs[j].0;
      var value := pairs[j].1;
      if key in columns && value in columns {
        var src := row.values[FirstIndex(columns, key)];
        var dst := row.values[FirstIndex(columns, value)];
        if src.Some? && dst.None? {
          if template.None? || !connected {
            return Err(AttributeError);
          }
          var call := UpdateCall(ReplaceAll(template.value, "%(field)s", value), src.value, row.index);
          FailuresSnoc(calls, call, ok);
          status := status + Code(ok(call));
          calls := calls + [call];
        }
      }
    }
    assert pairs[..|pairs|] == pairs;
    return Ok((status, calls));
  }

  /** One mapping of the inner loop: the source's membership and NaN tests
      are the gap test; a gap adds its call, and then the row has calls. */
  lemma UpdateStep<V>(columns: seq<string>, row: Row<CalendarDate, V>, pairs: seq<(string, string)>, j: nat, t: string)
    requires j < |pairs| && |row.values| == |columns|
    ensures Gap(columns, row, pairs[j]) <==>
      (pairs[j].0 in columns && pairs[j].1 in columns &&
       row.values[FirstIndex(columns, pairs[j].0)].Some? && row.values[FirstIndex(columns, pairs[j].1)].None?)
    ensures Gap(columns, row, pairs[j]) ==>
      && RowCalls(columns, row, pairs[..j + 1], t) == RowCalls(columns, row, pairs[..j], t) + [CellCall(columns, row, pairs[j], t)]
      && CellCall(columns, row, pairs[j], t).date == row.index
      && |RowCalls(columns, row, pairs, t)| > 0
    ensures !Gap(columns, row, pairs[j]) ==> RowCalls(columns, row, pairs[..j + 1], t) == RowCalls(columns, row, pairs[..j], t)
  {
    RowCallsStep(columns, row, pairs, j, t);
    RowCallsGrow(columns, row, pairs, j + 1, t);
  }

  lemma FailuresSnoc<T>(calls: seq<T>, call: T, ok: T -> bool)
    ensures Failures(calls + [call], ok) == Failures(calls, ok) + Code(ok(call))
  {
    assert (calls + [call])[..|calls|] == calls;
  }

  lemma {:induction false} FailuresOfConcat<T>(a: seq<T>, b: seq<T>, ok: T -> bool)
    ensures Failures(a + b, ok) == Failures(a, ok) + Failures(b, ok)
    decreases |b|
  {
    if |b| > 0 {
      var bi := b[..|b| - 1];
      FailuresOfConcat(a, bi, ok);
      assert (a + b)[..|a + b| - 1] == a + bi;
    } else {
      assert a + b == a;
    }
  }

  /** The original's row loop: the calls and return codes of every row, in
      order. */
  method DataFrameUpdate<V>(iface: Interface, df: Frame<CalendarDate, V>, ok: UpdateCall<V> -> bool)
      returns (r: Result<(int, seq<UpdateCall<V>>)>)
    requires df.WellShaped()
    ensures r == DataFrameUpdateSpec(iface, df, ok)
  {
    if df.Empty() {
      return Ok((-1, []));
    }
    if iface.items.None? {
      return Err(KeyError);
    }
    if !iface.items.value.ItemsDict? {
      return Err(AttributeError);
    }
    var pairs := iface.items.value.pairs;
    var template := iface.updateQuery.text;
    ghost var t := template.GetOr("");
    var status := 0;
    var calls: seq<UpdateCall<V>> := [];
    for i := 0 to |df.rows|
      invariant calls == FrameCalls(df.columns, df.rows[..i], pairs, t)
      invariant status == Failures(calls, ok)
      invariant template.None? || !iface.connected ==> calls == []
    {
      assert df.rows[..i + 1][..i] == df.rows[..i];
      var rowResult := UpdateRow(df.columns, df.rows[i], pairs, template, iface.connected, ok);
      if rowResult.Err? {
        FrameCallsGrow(df.columns, df.rows, pairs, i + 1, t);
        return Err(rowResult.error);
      }
      FailuresOfConcat(calls, rowResult.value.1, ok);
      status := status + rowResult.value.0;
      calls := calls + rowResult.value.1;
    }
    assert df.rows[..|df.rows|] == df.rows;
    return Ok((status, calls));
  }

  // ---------------------------------------------------------------- update, then insert

  /** What `construct_db_insert_update` is given. */
  datatype UpdateInput<V> = FrameUpdate(frame: Frame<CalendarDate, V>) | DictUpdateInput | OtherUpdateInput

  /** What reaches the database, in order. */
  datatype Event<V> = UpdateEvent(call: UpdateCall<V>) | InsertEvent(text: string)

  /** The new rows as the INSERT writer sees them: timestamps as the index. */
  function Stamped<V>(df: Frame<CalendarDate, V>): (r: Frame<IndexValue, V>)
    ensures r.columns == df.columns && |r.rows| == |df.rows|
    ensures df.WellShaped() ==> r.WellShaped()
  {
    Frame(df.columns, seq(|df.rows|, i requires 0 <= i < |df.rows| => Row(Stamp(df.rows[i].index), df.rows[i].values)))
  }

  function UpdateEvents<V>(calls: seq<UpdateCall<V>>): (r: seq<Event<V>>)
    ensures |r| == |calls| && forall i :: 0 <= i < |calls| ==> r[i] == UpdateEvent(calls[i])
  {
    seq(|calls|, i requires 0 <= i < |calls| => UpdateEvent(calls[i]))
  }

  /** The updates, in order, then the INSERT when one was submitted: no
      update follows the insert, and there is at most one insert. */
  function Events<V>(calls: seq<UpdateCall<V>>, insert: Option<string>): (e: seq<Event<V>>)
    ensures forall i, j :: 0 <= i < j < |e| && e[i].InsertEvent? ==> e[j].InsertEvent?
    ensures forall i, j :: 0 <= i < j < |e| ==> !(e[i].InsertEvent? && e[j].InsertEvent?)
    ensures |e| == |calls| + (if insert.Some? then 1 else 0)
  {
    UpdateEvents(calls) + (if insert.Some? then [InsertEvent(insert.value)] else [])
  }

  lemma WindowsWellShaped<V>(df: Frame<CalendarDate, V>, m: CalendarDate, start: CalendarDate)
    requires df.WellShaped()
    ensures Frame(df.columns, NewRows(df.rows, m)).WellShaped()
    ensures Frame(df.columns, OldRows(df.rows, m, start)).WellShaped()
  {
    var w := (r: Row<CalendarDate, V>) => |r.values| == |df.columns|;
    FilterKeeps(df.rows, (r: Row<CalendarDate, V>) => IsNew(r.index, m), w);
    FilterKeeps(df.rows, (r: Row<CalendarDate, V>) => IsOld(r.index, m, start), w);
  }

  /** The `query` of the `current_view` setting, looked up as
      `options['current_view']['query']`: a KeyError without the setting or
      for a dict without `query`, a TypeError for a string or any other
      value. */
  function ViewQuery(view: Option<View>): (r: Result<string>)
    ensures r.Ok? <==> view.Some? && view.value.ViewSpec? && view.value.query.Some?
    ensures r.Ok? ==> r.value == view.value.query.value
    ensures r.Err? ==> (r.error == TypeError <==> view.Some? && !view.value.ViewSpec?)
    ensures r.Err? ==> r.error in {KeyError, TypeError}
  {
    match view
    case None => Err(KeyError)
    case Some(ViewSpec(query, _, _, _)) => if query.Some? then Ok(query.value) else Err(KeyError)
    case Some(_) => Err(TypeError)
  }

  /** `construct_db_insert_update`: without a connection the current view
      cannot be read (AttributeError), nor without a `query` in its setting.
      A frame with rows is split against `maxDate`; the old rows, merged with
      the persisted rows `current`, are used to fill gaps, then the new rows
      go to the INSERT writer, and the new rows are returned. An empty view
      comes back as a list, which has no first row to take the maximum from
      (AttributeError). Any other input is a ValueError, caught: nothing
      happens and nothing is returned. */
  function ConstructDbInsertUpdate<V>(iface: Interface, input: UpdateInput<V>, maxDate: CalendarDate,
                                      current: Frame<CalendarDate, V>, ok: UpdateCall<V> -> bool,
                                      render: V -> string): (r: Result<(Option<Frame<CalendarDate, V>>, seq<Event<V>>)>)
    requires input.FrameUpdate? ==> input.frame.WellShaped()
    requires current.WellShaped()
    ensures !iface.connected ==> r == Err(AttributeError)
    // the view's query is read before the input is looked at
    ensures iface.connected && iface.viewSetting.None? ==> r == Err(KeyError)
    ensures iface.connected && iface.viewSetting.Some? && !iface.viewSetting.value.ViewSpec? ==> r == Err(TypeError)
    ensures iface.connected && iface.viewSetting.Some? && iface.viewSetting.value.ViewSpec? &&
              iface.viewSetting.value.query.None?
            ==> r == Err(KeyError)
    ensures r.Ok? ==> ViewQuery(iface.viewSetting).Ok?
    ensures iface.connected && ViewQuery(iface.viewSetting).Ok? && !(input.FrameUpdate? && |input.frame.rows| >= 1) ==>
      r == Ok((None, []))
    ensures iface.connected && ViewQuery(iface.viewSetting).Ok? && input.FrameUpdate? && |input.frame.rows| >= 1 &&
              |current.rows| == 0
            ==> r == Err(AttributeError)
    ensures r.Ok? && r.value.0.Some? ==> |current.rows| > 0
    ensures r.Ok? && r.value.0.Some? ==>
      input.FrameUpdate? && r.value.0.value == Frame(input.frame.columns, NewRows(input.frame.rows, maxDate))
    ensures r.Ok? ==> forall i, j :: 0 <= i < j < |r.value.1| && r.value.1[i].InsertEvent? ==> r.value.1[j].InsertEvent?
    ensures r.Ok? ==> forall i, j :: 0 <= i < j < |r.value.1| ==> !(r.value.1[i].InsertEvent? && r.value.1[j].InsertEvent?)
    ensures r.Err? ==> r.error != ValueError
    ensures r.Ok? && r.value.0.Some? ==>
      && input.FrameUpdate? && iface.startDate.Some?
      && Stamped(r.value.0.value).WellShaped()
      && var df := input.frame;
         var merged := MergeLeft(Frame(df.columns, OldRows(df.rows, maxDate, iface.startDate.value)), current);
         var ins := ConstructDbInsert(iface, FrameInput(Stamped(r.value.0.value)), render);
         && ins.Ok?
         && r.value.1 == Events(GapCalls(iface, merged), ins.value)
  {
    if !iface.connected then Err(AttributeError)
    else
      var query :- ViewQuery(iface.viewSetting);
      match input
      case FrameUpdate(df) =>
        if |df.rows| >= 1 then
          if |current.rows| == 0 then Err(AttributeError)
          else if iface.startDate.None? then Err(KeyError)
          else
            var dfNew := Frame(df.columns, NewRows(df.rows, maxDate));
            var oldPart := Frame(df.columns, OldRows(df.rows, maxDate, iface.startDate.value));
            WindowsWellShaped(df, maxDate, iface.startDate.value);
            MergeLeftWellShaped(oldPart, current);
            var dfOld := MergeLeft(oldPart, current);
            var upd :- DataFrameUpdateSpec(iface, dfOld, ok);
            assert upd.1 == GapCalls(iface, dfOld);
            assert Stamped(dfNew).WellShaped();
            var ins :- ConstructDbInsert(iface, FrameInput(Stamped(dfNew)), render);
            Ok((Some(dfNew), Events(upd.1, ins)))
        else Ok((None, []))
      case _ => Ok((None, []))
  }

  /** Every row of the merged old part is dated on or before the maximum and
      after the start date. */
  lemma MergedOldInWindow<V>(df: Frame<CalendarDate, V>, maxDate: CalendarDate, start: CalendarDate,
                             current: Frame<CalendarDate, V>)
    requires df.WellShaped() && current.WellShaped()
    ensures var rows := MergeLeft(Frame(df.columns, OldRows(df.rows, maxDate, start)), current).rows;
      forall i :: 0 <= i < |rows| ==> !Before(maxDate, rows[i].index) && Before(start, rows[i].index)
  {
    var oldPart := Frame(df.columns, OldRows(df.rows, maxDate, start));
    var rows := MergeLeft(oldPart, current).rows;
    WindowsWellShaped(df, maxDate, start);
    MergeLeftWellShaped(oldPart, current);
    PartitionOfRows(df.rows, maxDate, start);
    forall i | 0 <= i < |rows|
      ensures !Before(maxDate, rows[i].index) && Before(start, rows[i].index)
    {
      var l :| 0 <= l < |oldPart.rows| && rows[i].index == oldPart.rows[l].index;
      assert oldPart.rows[l] in OldRows(df.rows, maxDate, start);
    }
  }

  /** A call is dated with its row, so calls on rows inside a window are
      dated inside it. */
  lemma CallDatesInWindow<V>(columns: seq<string>, rows: seq<Row<CalendarDate, V>>, pairs: seq<(string, string)>,
                             template: string, maxDate: CalendarDate, start: CalendarDate)
    requires forall i :: 0 <= i < |rows| ==> !Before(maxDate, rows[i].index) && Before(start, rows[i].index)
    ensures forall c :: c in FrameCalls(columns, rows, pairs, template) ==> !Before(maxDate, c.date) && Before(start, c.date)
  {
    FrameCallsAreGaps(columns, rows, pairs, template);
    forall c | c in FrameCalls(columns, rows, pairs, template)
      ensures !Before(maxDate, c.date) && Before(start, c.date)
    {
      var i, j :| 0 <= i < |rows| && 0 <= j < |pairs| && Gap(columns, rows[i], pairs[j]) &&
        c == CellCall(columns, rows[i], pairs[j], template);
      assert c.date == rows[i].index;
    }
  }

  /** The gap-filling calls made on the merged old rows are dated on or
      before the maximum and after the start date. */
  lemma OldCallsInWindow<V>(iface: Interface, df: Frame<CalendarDate, V>, maxDate: CalendarDate, start: CalendarDate,
                            current: Frame<CalendarDate, V>, ok: UpdateCall<V> -> bool)
    requires df.WellShaped() && current.WellShaped()
    ensures var oldPart := Frame(df.columns, OldRows(df.rows, maxDate, start));
      var u := DataFrameUpdateSpec(iface, MergeLeft(oldPart, current), ok);
      u.Ok? ==> forall c :: c in u.value.1 ==> !Before(maxDate, c.date) && Before(start, c.date)
  {
    var oldPart := Frame(df.columns, OldRows(df.rows, maxDate, start));
    var dfOld := MergeLeft(oldPart, current);
    var u := DataFrameUpdateSpec(iface, dfOld, ok);
    if u.Ok? && |u.value.1| > 0 {
      MergedOldInWindow(df, maxDate, start, current);
      assert !dfOld.Empty();
      var t := iface.updateQuery.text.GetOr("");
      CallDatesInWindow(dfOld.columns, dfOld.rows, iface.items.value.pairs, t, maxDate, start);
      assert u.value.1 == GapCalls(iface, dfOld);
    }
  }

  /** Every UPDATE the operation issues is dated inside the window it is meant
      for: on or before the persisted maximum and after the start date. */
  lemma UpdatesOnlyOldDates<V>(iface: Interface, input: UpdateInput<V>, maxDate: CalendarDate,
                               current: Frame<CalendarDate, V>, ok: UpdateCall<V> -> bool, render: V -> string)
    requires input.FrameUpdate? ==> input.frame.WellShaped()
    requires current.WellShaped()
    ensures var r := ConstructDbInsertUpdate(iface, input, maxDate, current, ok, render);
      r.Ok? ==> forall e :: e in r.value.1 && e.UpdateEvent? ==>
        !Before(maxDate, e.call.date) && Before(iface.startDate.value, e.call.date)
  {
    var r := ConstructDbInsertUpdate(iface, input, maxDate, current, ok, render);
    if r.Ok? && |r.value.1| > 0 {
      var df := input.frame;
      var start := iface.startDate.value;
      var oldPart := Frame(df.columns, OldRows(df.rows, maxDate, start));
      var calls := DataFrameUpdateSpec(iface, MergeLeft(oldPart, current), ok).value.1;
      OldCallsInWindow(iface, df, maxDate, start, current, ok);
      forall e | e in r.value.1 && e.UpdateEvent?
        ensures e.call in calls
      {
        var k :| 0 <= k < |r.value.1| && r.value.1[k] == e;
        assert e.call == calls[k];
      }
    }
  }

  // ---------------------------------------------------------------- dict update

  /** A key of the dict handed to `db_dict_update`: a `datetime`, or anything
      else. */
  datatype DictKey = StampKey(date: CalendarDate) | PlainKey(cell: Cell)

  /** The argument of `db_dict_update`: a dict, a pandas DataFrame or Series
      (whose truth value is ambiguous), or anything else. */
  datatype DictArg = DictArg(entries: seq<(DictKey, seq<(string, Cell)>)>) | FrameArg | OtherArg

  /** One UPDATE of the dict writer: the template and the named parameters. */
  datatype DictCall = DictCall(text: string, params: seq<(string, Cell)>)

  /** The `index` parameter: a datetime key formatted `%Y-%m-%d`, any other
      key as it is. */
  function IndexParam(k: DictKey): Cell {
    match k
    case StampKey(d) => TextCell(FormatDate(d, "-"))
    case PlainKey(c) => c
  }

  /** `db_dict_update`: testing a DataFrame or Series for truth is a
      ValueError, not caught; -1 for an empty dict or anything else; otherwise one
      call per entry, in order, with the entry's fields plus `index`, and the
      sum of the return codes. A missing template, or a missing connection
      (at the first entry), is an AttributeError. */
  function DictUpdate(iface: Interface, arg: DictArg, ok: DictCall -> bool): (r: Result<(int, seq<DictCall>)>)
    ensures arg.FrameArg? ==> r == Err(ValueError)
    ensures arg.OtherArg? || (arg.DictArg? && |arg.entries| == 0) ==> r == Ok((-1, []))
    ensures r.Err? ==> (r.error == ValueError <==> arg.FrameArg?)
    ensures arg.DictArg? && |arg.entries| > 0 && iface.updateQuery.text.None? ==> r == Err(AttributeError)
    ensures arg.DictArg? && |arg.entries| > 0 && !iface.connected ==> r == Err(AttributeError)
    ensures arg.DictArg? && |arg.entries| > 0 ==> (r.Ok? <==> iface.updateQuery.text.Some? && iface.connected)
    ensures r.Ok? && arg.DictArg? && |arg.entries| > 0 ==>
      var calls := r.value.1;
      && |calls| == |arg.entries|
      && r.value.0 == Failures(calls, ok) && 0 <= r.value.0 <= |calls|
      && forall i :: 0 <= i < |calls| ==>
           && calls[i].text == iface.updateQuery.text.value
           && Get(calls[i].params, "index") == Some(IndexParam(arg.entries[i].0))
           && (forall k :: k != "index" ==> Get(calls[i].params, k) == Get(arg.entries[i].1, k))
  {
    if arg.FrameArg? then Err(ValueError)
    else if arg.OtherArg? || |arg.entries| == 0 then Ok((-1, []))
    else if iface.updateQuery.text.None? || !iface.connected then Err(AttributeError)
    else
      var t := iface.updateQuery.text.value;
      var es := arg.entries;
      var calls := seq(|es|, i requires 0 <= i < |es| => DictCall(t, Put(es[i].1, "index", IndexParam(es[i].0))));
      var status: int := Failures(calls, ok);
      Ok((status, calls))
  }
}

=== FILE: sql_query.dfy ===
/** The SQL statement holder of the loaders: the kind of statement, the table it
    touches, its index column(s), the column mapping of an INSERT, and the
    piecewise construction of an INSERT statement's text. Each mutating step
    of the original object is a function from the current state to the new
    statement text. */
module SqlQuery {
  import opened Wrappers
  import opened Text
  import opened OrderedDict
  import opened DbRows

  datatype SqlType = Select | StoredProcedureRes | StoredProcedureNoRes | Insert

  /** The kinds whose execution hands rows back. */
  predicate ReturnsRows(k: SqlType) {
    k == Select || k == StoredProcedureRes
  }

  /** The `index_name` setting: one column, a list of columns, or anything else. */
  datatype IndexName = IndexStr(name: string) | IndexList(names: seq<string>) | IndexOther

  /** The `items` setting: a dict (its items in order), a list of column
      names, or any other sized value. */
  datatype Items = ItemsDict(pairs: seq<(string, string)>) | ItemsList(names: seq<string>) | ItemsOther(length: nat)

  function ItemsLength(items: Items): nat {
    match items
    case ItemsDict(ps) => |ps|
    case ItemsList(ns) => |ns|
    case ItemsOther(n) => n
  }

  /** The settings dictionary a statement is built from. `None` stands for an
      absent key; `table` may be present and hold `None`; `columns` is
      present only when the setting is a dict. */
  datatype Info = Info(
    table: Option<Option<string>>,
    indexName: Option<IndexName>,
    items: Option<Items>,
    columns: Option<seq<(string, string)>>,
    query: Option<string>,
    procedure: Option<string>,
    qTypeInd: Option<SqlType>,
    vars: Option<seq<string>>)

  /** A statement. `kind`, `returnResult` and `text` are `None` while the
      corresponding attribute has never been assigned. */
  datatype Query = Query(
    table: Option<string>,
    indexName: IndexName,
    kind: Option<SqlType>,
    returnResult: Option<bool>,
    text: Option<string>,
    columns: Option<seq<(string, string)>>,
    vars: Option<seq<string>>)

  /** The attributes describing the statement's kind agree with each other. */
  predicate Consistent(q: Query) {
    && (q.kind.Some? <==> q.returnResult.Some?)
    && (q.kind.Some? <==> q.text.Some?)
    && (q.kind.Some? ==> q.returnResult.value == ReturnsRows(q.kind.value))
  }

  // ---------------------------------------------------------------- construction

  /** The column a dict entry maps: its value, or its key when the value is empty. */
  function Target(p: (string, string)): string {
    if p.1 != "" then p.1 else p.0
  }

  function Renamed(ps: seq<(string, string)>): (r: seq<(string, string)>)
    ensures |r| == |ps|
    ensures forall i :: 0 <= i < |ps| ==> r[i] == (Target(ps[i]), ps[i].0)
  {
    seq(|ps|, i requires 0 <= i < |ps| => (Target(ps[i]), ps[i].0))
  }

  function Blank(ns: seq<string>): (r: seq<(string, string)>)
    ensures |r| == |ns|
    ensures forall i :: 0 <= i < |ns| ==> r[i] == (ns[i], "")
  {
    seq(|ns|, i requires 0 <= i < |ns| => (ns[i], ""))
  }

  /** The column mapping of an INSERT: the `columns` dict copied when there is
      a single item; for a dict of several items each target column mapped to
      its item; for a list each name mapped to the empty string. */
  function InsertColumns(info: Info): Option<seq<(string, string)>> {
    match info.items
    case None => None
    case Some(items) =>
      if ItemsLength(items) == 1 && info.columns.Some? then Some(FromPairs(info.columns.value))
      else if items.ItemsDict? && |items.pairs| > 1 then Some(FromPairs(Renamed(items.pairs)))
      else if items.ItemsList? then Some(FromPairs(Blank(items.names)))
      else None
  }

  /** A stored-procedure statement: the given text, the configured kind (by
      default a procedure without result) and whether rows come back. */
  function WithProcedure(q: Query, text: string, kind: Option<SqlType>): (r: Query)
    ensures r.text == Some(text) && r.kind.Some?
    ensures kind.Some? ==> r.kind == kind
    ensures kind.None? ==> r.kind == Some(StoredProcedureNoRes) && r.returnResult == Some(false)
    ensures Consistent(r)
    ensures r.table == q.table && r.indexName == q.indexName && r.columns == q.columns
  {
    var k := kind.GetOr(StoredProcedureNoRes);
    q.(text := Some(text), kind := Some(k), returnResult := Some(ReturnsRows(k)))
  }

  /** The stored-procedure set-up: a `query` that is a CALL, or else a
      `procedure`; a `query` that is not a CALL leaves the statement unset. */
  function ConstructSp(q: Query, info: Info): (r: Query)
    ensures info.query.Some? && !StartsWith(Upper(info.query.value), "CALL") ==> r == q
    ensures info.query.None? && info.procedure.None? ==> r == q
    ensures info.query.Some? && StartsWith(Upper(info.query.value), "CALL") ==>
      r.text == info.query && Consistent(r)
    ensures info.query.None? && info.procedure.Some? ==> r.text == info.procedure && Consistent(r)
    ensures r.text != q.text ==> r.kind == Some(info.qTypeInd.GetOr(StoredProcedureNoRes))
  {
    match info.query
    case Some(qs) => if StartsWith(Upper(qs), "CALL") then WithProcedure(q, qs, info.qTypeInd) else q
    case None =>
      match info.procedure
      case Some(p) => WithProcedure(q, p, info.qTypeInd)
      case None => q
  }

  /** The statement object's constructor: a table (given, or from the
      settings) and an index setting are required; an INSERT gets the
      placeholder text "generate" and its column mapping, a SELECT keeps its
      text, anything else is set up as a stored procedure. */
  function NewQuery(info: Option<Info>, table: Option<string>, qStr: string): (r: Result<Query>)
    ensures r.Err? <==> info.None? || info.value.indexName.None? || (table.None? && info.value.table.None?)
    ensures r.Err? ==> r.error == ValueError
    ensures r.Ok? ==> r.value.table == (if table.Some? then table else info.value.table.value)
    ensures r.Ok? ==> r.value.indexName == info.value.indexName.value && r.value.vars == info.value.vars
    ensures r.Ok? && StartsWith(Upper(qStr), "INSERT") ==>
      r.value.kind == Some(Insert) && r.value.returnResult == Some(false) &&
      r.value.text == Some("generate") && r.value.columns == InsertColumns(info.value)
    ensures r.Ok? && !StartsWith(Upper(qStr), "INSERT") && StartsWith(Upper(qStr), "SELECT") ==>
      r.value.kind == Some(Select) && r.value.returnResult == Some(true) && r.value.text == Some(qStr)
    ensures r.Ok? && !StartsWith(Upper(qStr), "INSERT") ==> r.value.columns.None?
    ensures r.Ok? && (StartsWith(Upper(qStr), "INSERT") || StartsWith(Upper(qStr), "SELECT") || r.value.kind.Some?) ==>
      Consistent(r.value)
  {
    if table.None? && (info.None? || info.value.table.None?) then Err(ValueError)
    else if info.None? || info.value.indexName.None? then Err(ValueError)
    else
      var inf := info.value;
      var base := Query(if table.Some? then table else inf.table.value, inf.indexName.value,
                        None, None, None, None, None);
      var q :=
        if StartsWith(Upper(qStr), "INSERT") then
          base.(kind := Some(Insert), returnResult := Some(false), text := Some("generate"),
                columns := InsertColumns(inf))
        else if StartsWith(Upper(qStr), "SELECT") then
          base.(kind := Some(Select), returnResult := Some(true), text := Some(qStr))
        else ConstructSp(base, inf);
      Ok(q.(vars := inf.vars))
  }

  /** With a single item the `columns` dict is taken over: keys in order of
      first appearance, each with its last value, and unchanged when its keys
      are distinct. */
  lemma InsertColumnsCopied(info: Info)
    requires info.items.Some? && ItemsLength(info.items.value) == 1 && info.columns.Some?
    ensures InsertColumns(info).Some?
    ensures Keys(InsertColumns(info).value) == Dedup(Keys(info.columns.value))
    ensures forall k :: Get(InsertColumns(info).value, k) == LastValue(info.columns.value, k)
    ensures DistinctKeys(info.columns.value) ==> InsertColumns(info) == info.columns
  {
    FromPairsContents(info.columns.value);
    if DistinctKeys(info.columns.value) {
      FromDistinctPairs(info.columns.value);
    }
  }

  /** A dict of several items maps every target column back to an item key:
      the columns are the targets in order of first appearance, and a target
      no later item reuses maps to that item's key. */
  lemma InsertColumnsRenamed(info: Info)
    requires info.items.Some? && info.items.value.ItemsDict? && |info.items.value.pairs| > 1
    ensures InsertColumns(info).Some?
    ensures DistinctKeys(InsertColumns(info).value)
    ensures forall t :: (t in Keys(InsertColumns(info).value) <==>
      exists i :: 0 <= i < |info.items.value.pairs| && Target(info.items.value.pairs[i]) == t)
    ensures forall i :: 0 <= i < |info.items.value.pairs| && Overrides(info.items.value.pairs, i) ==>
      Get(InsertColumns(info).value, Target(info.items.value.pairs[i])) == Some(info.items.value.pairs[i].0)
  {
    var ps := info.items.value.pairs;
    var rs := Renamed(ps);
    FromPairsContents(rs);
    DedupSameElements(Keys(rs));
    forall t
      ensures t in Keys(rs) <==> exists i :: 0 <= i < |ps| && Target(ps[i]) == t
    {
      if t in Keys(rs) {
        var i :| 0 <= i < |rs| && Keys(rs)[i] == t;
        assert Target(ps[i]) == t;
      }
      if exists i :: 0 <= i < |ps| && Target(ps[i]) == t {
        var i :| 0 <= i < |ps| && Target(ps[i]) == t;
        assert Keys(rs)[i] == t;
      }
    }
    forall i | 0 <= i < |ps| && Overrides(ps, i)
      ensures Get(FromPairs(rs), Target(ps[i])) == Some(ps[i].0)
    {
      LastValueAt(rs, i);
    }
  }

  /** No later item of the dict maps to the same column as item `i`. */
  predicate Overrides(ps: seq<(string, string)>, i: int)
    requires 0 <= i < |ps|
  {
    forall j :: i < j < |ps| ==> Target(ps[j]) != Target(ps[i])
  }

  /** Every name of a blank list is last assigned the empty string. */
  lemma {:induction false} LastValueBlank(ns: seq<string>, k: string)
    requires k in ns
    ensures LastValue(Blank(ns), k) == Some("")
    decreases |ns|
  {
    var init := ns[..|ns| - 1];
    if ns[|ns| - 1] != k {
      assert ns == init + [ns[|ns| - 1]];
      assert k in init;
      assert Blank(ns)[..|ns| - 1] == Blank(init);
      LastValueBlank(init, k);
    }
  }

  /** A list of names maps each name, in order of first appearance, to the
      empty string. */
  lemma InsertColumnsListed(info: Info)
    requires info.items.Some? && info.items.value.ItemsList?
    requires !(|info.items.value.names| == 1 && info.columns.Some?)
    ensures InsertColumns(info).Some?
    ensures Keys(InsertColumns(info).value) == Dedup(info.items.value.names)
    ensures forall k :: k in info.items.value.names ==> Get(InsertColumns(info).value, k) == Some("")
  {
    var ns := info.items.value.names;
    var bs := Blank(ns);
    assert InsertColumns(info) == Some(FromPairs(bs));
    FromPairsContents(bs);
    assert Keys(bs) == ns;
    forall k | k in ns
      ensures Get(FromPairs(bs), k) == Some("")
    {
      LastValueBlank(ns, k);
    }
  }

  // ---------------------------------------------------------------- INSERT text

  /** The index column(s) as they appear in a column list. */
  function IndexColumns(idx: IndexName): string
    requires !idx.IndexOther?
  {
    match idx
    case IndexStr(n) => n
    case IndexList(ns) => Join(", ", ns)
  }

  /** The opening of an INSERT: `INSERT INTO <table> (`, followed by the index
      column(s) and a comma when they are included. The text must have been
      set, the index setting must be a name or a list, the table a name. */
  function ConstructInsertStart(q: Query, includeIndex: bool): (r: Result<string>)
    ensures r.Err? <==> q.text.None? || q.indexName.IndexOther? || q.table.None?
    ensures q.text.None? ==> r == Err(AttributeError)
    ensures q.text.Some? && q.indexName.IndexOther? ==> r == Err(ValueError)
    ensures q.text.Some? && !q.indexName.IndexOther? && q.table.None? ==> r == Err(TypeError)
    ensures r.Ok? ==> StartsWith(r.value, "INSERT INTO " + q.table.value + " (")
    ensures r.Ok? && includeIndex ==>
      r.value == "INSERT INTO " + q.table.value + " (" + IndexColumns(q.indexName) + ", "
    ensures r.Ok? && !includeIndex ==> r.value == "INSERT INTO " + q.table.value + " ("
  {
    if q.text.None? then Err(AttributeError)
    else if q.indexName.IndexOther? then Err(ValueError)
    else if q.table.None? then Err(TypeError)
    else
      var final := if includeIndex then " (" + IndexColumns(q.indexName) + ", " else " (";
      Ok("INSERT INTO " + q.table.value + final)
  }

  /** What `append_names` is told to leave out. */
  datatype Excludes = NoExcludes | ExcludeName(name: string) | ExcludeNames(names: seq<string>) | ExcludeOther

  /** The index setting handed over as the names to leave out. */
  function ExcludesOf(idx: IndexName): Excludes {
    match idx
    case IndexStr(n) => ExcludeName(n)
    case IndexList(ns) => ExcludeNames(ns)
    case IndexOther => ExcludeOther
  }

  /** A non-empty name, a non-empty list, or nothing; anything else is refused. */
  predicate ExcludesAccepted(ex: Excludes) {
    match ex
    case NoExcludes => true
    case ExcludeName(n) => |n| > 0
    case ExcludeNames(ns) => |ns| > 0
    case ExcludeOther => false
  }

  predicate Excluded(k: string, ex: Excludes) {
    match ex
    case ExcludeName(n) => k == n
    case ExcludeNames(ns) => k in ns
    case _ => false
  }

  /** The column names that are not excluded, in order. */
  function Kept(keys: seq<string>, ex: Excludes): seq<string>
    decreases |keys|
  {
    if |keys| == 0 then []
    else (if Excluded(keys[0], ex) then [] else [keys[0]]) + Kept(keys[1..], ex)
  }

  /** Exactly the names that are not excluded survive. */
  lemma {:induction false} KeptMembers(keys: seq<string>, ex: Excludes)
    ensures forall k :: k in Kept(keys, ex) <==> k in keys && !Excluded(k, ex)
    decreases |keys|
  {
    if |keys| > 0 {
      KeptMembers(keys[1..], ex);
      assert keys == [keys[0]] + keys[1..];
    }
  }

  /** Filtering distributes over concatenation, so the survivors keep the
      mapping's order; without exclusions nothing is dropped. */
  lemma {:induction false} KeptOfConcat(keys: seq<string>, more: seq<string>, ex: Excludes)
    ensures Kept(keys + more, ex) == Kept(keys, ex) + Kept(more, ex)
    ensures ex == NoExcludes ==> Kept(keys, ex) == keys
    decreases |keys|
  {
    KeptNothingExcluded(keys, ex);
    if |keys| > 0 {
      var h, t := keys[0], keys[1..];
      var km := keys + more;
      var head := if Excluded(h, ex) then [] else [h];
      assert km[0] == h;
      assert km[1..] == t + more;
      KeptOfConcat(t, more, ex);
      calc {
        Kept(km, ex);
        head + Kept(t + more, ex);
        head + (Kept(t, ex) + Kept(more, ex));
        (head + Kept(t, ex)) + Kept(more, ex);
        Kept(keys, ex) + Kept(more, ex);
      }
    } else {
      assert keys + more == more;
    }
  }

  lemma {:induction false} KeptNothingExcluded(keys: seq<string>, ex: Excludes)
    ensures ex == NoExcludes ==> Kept(keys, ex) == keys
    decreases |keys|
  {
    if |keys| > 0 && ex == NoExcludes {
      KeptNothingExcluded(keys[1..], ex);
      assert keys == [keys[0]] + keys[1..];
    }
  }

  /** The column list and the start of the values: the statement so far, the
      separator, the mapped column names that are not excluded, and
      `) VALUES `. The mapping must be non-empty, the statement must already
      be an INSERT and the exclusions must be accepted. */
  function AppendNames(q: Query, ex: Excludes, sep: string): (r: Result<string>)
    ensures r.Err? <==> (q.columns.None? || |q.columns.value| == 0 || q.text.None? ||
                         !StartsWith(q.text.value, "INSERT") || !ExcludesAccepted(ex))
    ensures r.Err? && q.columns.Some? && |q.columns.value| > 0 && q.text.None? ==> r == Err(AttributeError)
    ensures r.Err? && !(q.columns.Some? && |q.columns.value| > 0 && q.text.None?) ==> r == Err(ValueError)
    ensures r.Ok? ==> StartsWith(r.value, q.text.value + sep) && EndsWith(r.value, ") VALUES ")
    ensures r.Ok? ==> r.value == q.text.value + sep + Join(", ", Kept(Keys(q.columns.value), ex)) + ") VALUES "
  {
    if q.columns.None? || |q.columns.value| == 0 then Err(ValueError)
    else if q.text.None? then Err(AttributeError)
    else if !StartsWith(q.text.value, "INSERT") then Err(ValueError)
    else if !ExcludesAccepted(ex) then Err(ValueError)
    else
      var s := q.text.value + sep + Join(", ", Kept(Keys(q.columns.value), ex)) + ") VALUES ";
      assert s == (q.text.value + sep) + (Join(", ", Kept(Keys(q.columns.value), ex)) + ") VALUES ");
      Ok(s)
  }

  /** An opening built by `ConstructInsertStart` is accepted by `AppendNames`,
      whichever exclusions are given, as soon as the mapping is non-empty. */
  lemma InsertStartThenNames(q: Query, includeIndex: bool, ex: Excludes, sep: string)
    requires ConstructInsertStart(q, includeIndex).Ok?
    requires q.columns.Some? && |q.columns.value| > 0 && ExcludesAccepted(ex)
    ensures AppendNames(q.(text := Some(ConstructInsertStart(q, includeIndex).value)), ex, sep).Ok?
  {
    var s := ConstructInsertStart(q, includeIndex).value;
    assert s[..6] == ("INSERT INTO " + q.table.value + " (")[..6];
  }

  /** `sep.join([text, val])`. */
  function AppendQueryElement(text: string, val: string, sep: string): (r: string)
    ensures StartsWith(r, text + sep) && EndsWith(r, val)
    ensures |r| == |text| + |sep| + |val|
  {
    text + sep + val
  }

  /** Appending element after element with one separator builds their join. */
  lemma AppendBuildsJoin(parts: seq<string>, val: string, sep: string)
    requires |parts| > 0
    ensures AppendQueryElement(Join(sep, parts), val, sep) == Join(sep, parts + [val])
  {
    JoinSnoc(sep, parts, val);
  }

  const DefaultSearch: string := "), \n"
  const DefaultReplace: string := ");"

  /** A statement ending in `search` (longer than one character) gets that
      ending replaced; any other statement is left as it is. */
  function CleanQueryElement(text: string, search: string, replace: string): (r: string)
    ensures |search| > 1 && EndsWith(text, search) ==>
      |r| == |text| - |search| + |replace| && StartsWith(r, text[..|text| - |search|]) && EndsWith(r, replace)
    ensures !(|search| > 1 && EndsWith(text, search)) ==> r == text
  {
    if |search| > 1 && EndsWith(text, search) then
      var r := text[..|text| - |search|] + replace;
      assert r[|r| - |replace|..] == replace;
      r
    else text
  }

  /** With the default arguments cleaning twice is cleaning once, and a
      statement that does not end in a line break is left unchanged. */
  lemma CleanDefaultIdempotent(text: string)
    ensures var c := CleanQueryElement(text, DefaultSearch, DefaultReplace);
      CleanQueryElement(c, DefaultSearch, DefaultReplace) == c
    ensures |text| > 0 && text[|text| - 1] != '\n' ==>
      CleanQueryElement(text, DefaultSearch, DefaultReplace) == text
  {
    var c := CleanQueryElement(text, DefaultSearch, DefaultReplace);
    LastOfSuffix(c, DefaultSearch);
    LastOfSuffix(text, DefaultSearch);
    if EndsWith(text, DefaultSearch) {
      assert c[|c| - 1] == ';';
    }
  }

  lemma LastOfSuffix(s: string, p: string)
    ensures EndsWith(s, p) && |p| > 0 ==> s[|s| - 1] == p[|p| - 1]
  {
    if EndsWith(s, p) && |p| > 0 {
      assert s[|s| - |p|..][|p| - 1] == s[|s| - 1];
    }
  }

  // ---------------------------------------------------------------- table name

  /** The word after which the table name is looked for. */
  function Keyword(kind: SqlType): string {
    if kind == Select then "FROM" else "CALL"
  }

  /** A word that can stand for the table: not the keyword itself and, after
      CALL, not `*`. */
  predicate Qualifies(w: string, kw: string, skipStar: bool) {
    Upper(w) != kw && w != "" && !(skipStar && w == "*")
  }

  predicate NoKeyword(ws: seq<string>, kw: string) {
    forall j :: 0 <= j < |ws| ==> Upper(ws[j]) != kw
  }

  /** Position of the first word that is the keyword in any case, or -1. */
  function FirstKeyword(ws: seq<string>, kw: string): (r: int)
    ensures -1 <= r < |ws|
    ensures r >= 0 ==> Upper(ws[r]) == kw && forall j :: 0 <= j < r ==> Upper(ws[j]) != kw
    ensures r == -1 ==> forall j :: 0 <= j < |ws| ==> Upper(ws[j]) != kw
    decreases |ws|
  {
    if |ws| == 0 then -1
    else if Upper(ws[0]) == kw then 0
    else
      var j := FirstKeyword(ws[1..], kw);
      if j < 0 then -1 else j + 1
  }

  /** `ws[j]` qualifies and no later word does. */
  predicate LastQualifyingAt(ws: seq<string>, j: int, kw: string, skipStar: bool) {
    0 <= j < |ws| && Qualifies(ws[j], kw, skipStar) &&
    forall k :: j < k < |ws| ==> !Qualifies(ws[k], kw, skipStar)
  }

  /** The last qualifying word. */
  function LastQualifying(ws: seq<string>, kw: string, skipStar: bool): (r: Option<string>)
    ensures r.Some? ==> r.value in ws && Qualifies(r.value, kw, skipStar)
    ensures r.Some? ==> exists j :: LastQualifyingAt(ws, j, kw, skipStar) && ws[j] == r.value
    ensures r.None? <==> forall j :: 0 <= j < |ws| ==> !Qualifies(ws[j], kw, skipStar)
    decreases |ws|
  {
    if |ws| == 0 then None
    else if Qualifies(ws[|ws| - 1], kw, skipStar) then
      assert LastQualifyingAt(ws, |ws| - 1, kw, skipStar);
      Some(ws[|ws| - 1])
    else
      var init := ws[..|ws| - 1];
      var r := LastQualifying(init, kw, skipStar);
      assert forall j :: 0 <= j < |ws| - 1 ==> init[j] == ws[j];
      assert r.Some? ==> exists j :: LastQualifyingAt(ws, j, kw, skipStar) && ws[j] == r.value by {
        if r.Some? {
          var j :| LastQualifyingAt(init, j, kw, skipStar) && init[j] == r.value;
          assert LastQualifyingAt(ws, j, kw, skipStar);
        }
      }
      r
  }

  lemma LastQualifyingSnoc(ws: seq<string>, w: string, kw: string, skipStar: bool)
    ensures LastQualifying(ws + [w], kw, skipStar) ==
      if Qualifies(w, kw, skipStar) then Some(w) else LastQualifying(ws, kw, skipStar)
  {
    assert (ws + [w])[..|ws|] == ws;
  }

  /** The last qualifying word after the first keyword. */
  function TableAfter(ws: seq<string>, kw: string, skipStar: bool): (r: Option<string>)
    ensures r.Some? ==> r.value in ws && Qualifies(r.value, kw, skipStar)
    ensures r.Some? ==> exists j :: FirstKeyword(ws, kw) < j && LastQualifyingAt(ws, j, kw, skipStar) && ws[j] == r.value
    ensures r.None? <==> (FirstKeyword(ws, kw) < 0 ||
                          forall j :: FirstKeyword(ws, kw) < j < |ws| ==> !Qualifies(ws[j], kw, skipStar))
    ensures NoKeyword(ws, kw) ==> r.None?
  {
    var i := FirstKeyword(ws, kw);
    if i < 0 then None
    else
      var tail := ws[i + 1..];
      var r := LastQualifying(tail, kw, skipStar);
      assert forall j :: 0 <= j < |tail| ==> tail[j] == ws[i + 1 + j];
      assert r.Some? ==> exists j :: i < j && LastQualifyingAt(ws, j, kw, skipStar) && ws[j] == r.value by {
        if r.Some? {
          var j :| LastQualifyingAt(tail, j, kw, skipStar) && tail[j] == r.value;
          forall k | i + 1 + j < k < |ws|
            ensures !Qualifies(ws[k], kw, skipStar)
          {
            assert ws[k] == tail[k - i - 1];
          }
          assert LastQualifyingAt(ws, i + 1 + j, kw, skipStar);
        }
      }
      assert r.None? <==> forall j :: i < j < |ws| ==> !Qualifies(ws[j], kw, skipStar) by {
        if r.None? {
          forall j | i < j < |ws|
            ensures !Qualifies(ws[j], kw, skipStar)
          {
            assert ws[j] == tail[j - i - 1];
          }
        }
      }
      r
  }

  /** The table a SELECT reads (the last word after the first FROM) or the
      procedure a CALL names (the last word after the first CALL other than
      `*`); no table for any other kind or when there is no such word. */
  function CalcTableName(qStr: string, kind: SqlType): (r: Option<string>)
    ensures r.Some? ==> ((kind == Select || kind == StoredProcedureRes) &&
                         r.value in Words(qStr) && |r.value| > 0 && Upper(r.value) != Keyword(kind))
    ensures r.Some? && kind == StoredProcedureRes ==> r.value != "*"
    ensures (kind == Select || kind == StoredProcedureRes) && NoKeyword(Words(qStr), Keyword(kind)) ==> r.None?
    ensures r.Some? ==> var ws := Words(qStr);
      exists j :: FirstKeyword(ws, Keyword(kind)) < j && LastQualifyingAt(ws, j, Keyword(kind), kind == StoredProcedureRes) &&
        ws[j] == r.value
  {
    if kind != Select && kind != StoredProcedureRes then None
    else TableAfter(Words(qStr), Keyword(kind), kind == StoredProcedureRes)
  }

  /** The word-by-word scan of the original: remember that the keyword was
      seen and keep the latest qualifying word after it. It computes
      `CalcTableName`. */
  method ScanTableName(qStr: string, kind: SqlType) returns (table: Option<string>)
    ensures table == CalcTableName(qStr, kind)
  {
    table := None;
    if kind == Select || kind == StoredProcedureRes {
      table := ScanWords(Words(qStr), Keyword(kind), kind == StoredProcedureRes);
    }
  }

  method ScanWords(ws: seq<string>, kw: string, skipStar: bool) returns (table: Option<string>)
    ensures table == TableAfter(ws, kw, skipStar)
  {
    table := None;
    var found := false;
    ghost var start := 0;
    for i := 0 to |ws|
      invariant !found ==> table.None? && NoKeyword(ws[..i], kw)
      invariant found ==> 0 <= start < i && FirstKeyword(ws, kw) == start
      invariant found ==> table == LastQualifying(ws[start + 1..i], kw, skipStar)
    {
      if found {
        FoundStep(ws, start, i, kw, skipStar);
      }
      if Upper(ws[i]) == kw {
        if !found {
          FirstKeywordAt(ws, i, kw);
          start := i;
        }
        found := true;
      } else if found && ws[i] != "" && !(skipStar && ws[i] == "*") {
        table := Some(ws[i]);
      }
      if !found {
        NotFoundStep(ws, i, kw);
      }
    }
    assert ws[..|ws|] == ws;
  }

  lemma FoundStep(ws: seq<string>, start: int, i: int, kw: string, skipStar: bool)
    requires 0 <= start < i < |ws|
    ensures LastQualifying(ws[start + 1..i + 1], kw, skipStar) ==
      if Qualifies(ws[i], kw, skipStar) then Some(ws[i]) else LastQualifying(ws[start + 1..i], kw, skipStar)
  {
    assert ws[start + 1..i + 1] == ws[start + 1..i] + [ws[i]];
    LastQualifyingSnoc(ws[start + 1..i], ws[i], kw, skipStar);
  }

  lemma NotFoundStep(ws: seq<string>, i: int, kw: string)
    requires 0 <= i < |ws| && NoKeyword(ws[..i], kw) && Upper(ws[i]) != kw
    ensures NoKeyword(ws[..i + 1], kw)
  {
    assert ws[..i + 1] == ws[..i] + [ws[i]];
  }

  /** The first keyword is the one no earlier word matches. */
  lemma FirstKeywordAt(ws: seq<string>, i: int, kw: string)
    requires 0 <= i < |ws| && NoKeyword(ws[..i], kw) && Upper(ws[i]) == kw
    ensures FirstKeyword(ws, kw) == i
  {
    forall j | 0 <= j < i
      ensures Upper(ws[j]) != kw
    {
      assert ws[..i][j] == ws[j];
    }
  }

  // ---------------------------------------------------------------- current view

  /** The `current_view` setting: a table name or a SELECT, a dict with a
      `query` or a `procedure` (and optionally `vars` and `location`), or
      anything else. */
  datatype View =
    | ViewName(name: string)
    | ViewSpec(query: Option<string>, procedure: Option<string>, vars: Option<seq<string>>, location: Option<Key>)
    | ViewOther

  /** A dict view whose query is a SELECT. */
  predicate SelectSpec(view: View) {
    view.ViewSpec? && view.query.Some? && StartsWith(Upper(view.query.value), "SELECT")
  }

  function ViewInfo(table: Option<string>, idx: IndexName, vars: Option<seq<string>>): Info {
    Info(Some(table), Some(idx), None, None, None, None, None, vars)
  }

  /** The query of the current view, and whether the statement's reporting
      period has to be read from its result (a stored procedure with a
      `location`). A SELECT (or a bare table name, read in full) becomes a
      SELECT statement; a procedure becomes a stored procedure with result. */
  function CalculateCurrentView(view: View, idx: IndexName): (r: Result<(Query, bool)>)
    ensures r.Err? <==> (view.ViewOther? || (view.ViewSpec? && !SelectSpec(view) && view.procedure.None?))
    ensures r.Err? ==> r.error == ValueError
    ensures r.Ok? ==> r.value.0.indexName == idx && Consistent(r.value.0) && r.value.0.kind.Some?
    ensures r.Ok? && view.ViewName? && StartsWith(Upper(view.name), "SELECT") ==>
      r.value.0.kind == Some(Select) && r.value.0.text == Some(view.name) &&
      r.value.0.table == CalcTableName(view.name, Select) && !r.value.1
    ensures r.Ok? && view.ViewName? && !StartsWith(Upper(view.name), "SELECT") ==>
      r.value.0.kind == Some(Select) && r.value.0.text == Some("SELECT * FROM " + view.name + " ;") &&
      r.value.0.table == Some(view.name) && !r.value.1
    ensures r.Ok? && SelectSpec(view) ==>
      r.value.0.kind == Some(Select) && r.value.0.text == view.query &&
      r.value.0.table == CalcTableName(view.query.value, Select) && r.value.0.vars == view.vars && !r.value.1
    ensures r.Ok? && r.value.0.kind != Some(Select) ==>
      view.ViewSpec? && view.procedure.Some? && r.value.0.kind == Some(StoredProcedureRes) &&
      r.value.0.text == view.procedure && r.value.0.table == view.procedure &&
      r.value.0.returnResult == Some(true) && r.value.0.vars == view.vars &&
      r.value.1 == view.location.Some?
    ensures r.Ok? && r.value.1 ==> r.value.0.kind == Some(StoredProcedureRes)
  {
    match view
    case ViewName(s) =>
      if StartsWith(Upper(s), "SELECT") then
        Ok((NewQuery(Some(ViewInfo(CalcTableName(s, Select), idx, None)), None, s).value, false))
      else
        var qs := "SELECT * FROM " + s + " ;";
        assert qs == "SELECT * FROM " + (s + " ;");
        UpperOfConcat("SELECT * FROM ", s + " ;");
        assert Upper(qs)[..6] == Upper("SELECT * FROM ")[..6] == "SELECT";
        Ok((NewQuery(Some(ViewInfo(Some(s), idx, None)), None, qs).value, false))
    case ViewSpec(query, procedure, vars, location) =>
      if query.Some? && StartsWith(Upper(query.value), "SELECT") then
        Ok((NewQuery(Some(ViewInfo(CalcTableName(query.value, Select), idx, vars)), None, query.value).value, false))
      else if procedure.Some? then
        var info := ViewInfo(procedure, idx, vars).(procedure := procedure, qTypeInd := Some(StoredProcedureRes));
        Ok((NewQuery(Some(info), None, "CALL").value, location.Some?))
      else Err(ValueError)
    case ViewOther => Err(ValueError)
  }
}

=== FILE: text.dfy ===
/** The Python `str` operations the modelled code relies on, over `seq<char>`.
    Case mapping covers the ASCII letters only; `split()` uses the characters
    CPython's `str.isspace` accepts. */
module Text {

  predicate StartsWith(s: string, p: string) {
    |p| <= |s| && s[..|p|] == p
  }

  predicate EndsWith(s: string, p: string) {
    |p| <= |s| && s[|s| - |p|..] == p
  }

  /** `p` occurs in `s` starting at position `i`. */
  predicate OccursAt(s: string, p: string, i: int) {
    0 <= i && i + |p| <= |s| && s[i..i + |p|] == p
  }

  /** Python `p in s` for strings. */
  predicate Contains(s: string, p: string) {
    exists i :: 0 <= i <= |s| && OccursAt(s, p, i)
  }

  /** Python `sep.join(parts)`. */
  function Join(sep: string, parts: seq<string>): string
    decreases |parts|
  {
    if |parts| == 0 then ""
    else if |parts| == 1 then parts[0]
    else parts[0] + sep + Join(sep, parts[1..])
  }

  /** Every part followed by `sep`: what a loop that appends `part + sep`
      builds before the final part is known. */
  function Terminated(parts: seq<string>, sep: string): string
    decreases |parts|
  {
    if |parts| == 0 then ""
    else Terminated(parts[..|parts| - 1], sep) + parts[|parts| - 1] + sep
  }

  lemma {:induction false} JoinSnoc(sep: string, parts: seq<string>, x: string)
    requires |parts| > 0
    ensures Join(sep, parts + [x]) == Join(sep, parts) + sep + x
    decreases |parts|
  {
    if |parts| == 1 {
      assert parts + [x] == [parts[0], x];
      assert (parts + [x])[1..] == [x];
    } else {
      assert (parts + [x])[1..] == parts[1..] + [x];
      JoinSnoc(sep, parts[1..], x);
    }
  }

  /** Closing a `Terminated` prefix with one more part gives the joined text. */
  lemma {:induction false} TerminatedThenLast(parts: seq<string>, sep: string, x: string)
    ensures Terminated(parts, sep) + x == Join(sep, parts + [x])
    decreases |parts|
  {
    if |parts| == 0 {
      assert parts + [x] == [x];
    } else {
      var init := parts[..|parts| - 1];
      var last := parts[|parts| - 1];
      TerminatedThenLast(init, sep, last);
      assert init + [last] == parts;
      JoinSnoc(sep, parts, x);
    }
  }

  // ---------------------------------------------------------------- case

  function UpperChar(c: char): char {
    if 'a' <= c <= 'z' then (c as int - 32) as char else c
  }

  function LowerChar(c: char): char {
    if 'A' <= c <= 'Z' then (c as int + 32) as char else c
  }

  /** Python `s.upper()` restricted to ASCII letters. */
  function Upper(s: string): (r: string)
    ensures |r| == |s|
  {
    seq(|s|, i requires 0 <= i < |s| => UpperChar(s[i]))
  }

  /** Python `s.lower()` restricted to ASCII letters. */
  function Lower(s: string): (r: string)
    ensures |r| == |s|
  {
    seq(|s|, i requires 0 <= i < |s| => LowerChar(s[i]))
  }

  predicate NoLowerCase(s: string) {
    forall i :: 0 <= i < |s| ==> !('a' <= s[i] <= 'z')
  }

  predicate NoUpperCase(s: string) {
    forall i :: 0 <= i < |s| ==> !('A' <= s[i] <= 'Z')
  }

  lemma UpperHasNoLowerCase(s: string)
    ensures NoLowerCase(Upper(s))
    ensures Upper(Upper(s)) == Upper(s)
    ensures Upper(Lower(s)) == Upper(s)
  {
  }

  lemma LowerHasNoUpperCase(s: string)
    ensures NoUpperCase(Lower(s))
    ensures Lower(Lower(s)) == Lower(s)
    ensures Lower(Upper(s)) == Lower(s)
  {
  }

  lemma UpperOfConcat(a: string, b: string)
    ensures Upper(a + b) == Upper(a) + Upper(b)
  {
  }

  // ---------------------------------------------------------------- whitespace split

  /** CPython's `str.isspace`: bidirectional classes WS, B, S and category Zs. */
  predicate IsSpace(c: char) {
    var n := c as int;
    || n == 0x20 || (0x09 <= n <= 0x0D) || (0x1C <= n <= 0x1F)
    || n == 0x85 || n == 0xA0 || n == 0x1680 || (0x2000 <= n <= 0x200A)
    || n == 0x2028 || n == 0x2029 || n == 0x202F || n == 0x205F || n == 0x3000
  }

  /** Length of the run of non-space characters at the start of `s`. */
  function TokenLength(s: string): (n: nat)
    ensures n <= |s|
    ensures forall k :: 0 <= k < n ==> !IsSpace(s[k])
    ensures n < |s| ==> IsSpace(s[n])
  {
    if |s| == 0 || IsSpace(s[0]) then 0 else 1 + TokenLength(s[1..])
  }

  /** Python `s.split()` with no arguments: maximal runs of non-space characters. */
  function Words(s: string): seq<string>
    decreases |s|
  {
    if |s| == 0 then []
    else if IsSpace(s[0]) then Words(s[1..])
    else
      var n := TokenLength(s);
      [s[..n]] + Words(s[n..])
  }

  /** Every word `split()` yields is non-empty and free of whitespace. */
  lemma {:induction false} WordsAreTokens(s: string)
    ensures forall i :: 0 <= i < |Words(s)| ==> |Words(s)[i]| > 0
    ensures forall i, k :: 0 <= i < |Words(s)| && 0 <= k < |Words(s)[i]| ==> !IsSpace(Words(s)[i][k])
    decreases |s|
  {
    if |s| == 0 {
    } else if IsSpace(s[0]) {
      WordsAreTokens(s[1..]);
    } else {
      var n := TokenLength(s);
      WordsAreTokens(s[n..]);
      assert Words(s) == [s[..n]] + Words(s[n..]);
    }
  }

  // ---------------------------------------------------------------- find / replace

  function FindFrom(s: string, p: string, i: nat): (r: int)
    requires i <= |s| + 1
    ensures r == -1 || (i <= r && OccursAt(s, p, r))
    ensures r == -1 ==> forall j :: i <= j ==> !OccursAt(s, p, j)
    ensures r != -1 ==> forall j :: i <= j < r ==> !OccursAt(s, p, j)
    decreases |s| + 1 - i
  {
    if i + |p| > |s| then -1
    else if s[i..i + |p|] == p then i
    else FindFrom(s, p, i + 1)
  }

  /** Python `s.find(p)`: the first position of `p` in `s`, or -1. */
  function Find(s: string, p: string): (r: int)
    ensures r == -1 || OccursAt(s, p, r)
    ensures r == -1 <==> !Contains(s, p)
    ensures r != -1 ==> forall j :: 0 <= j < r ==> !OccursAt(s, p, j)
  {
    FindFrom(s, p, 0)
  }

  /** Python `s.replace(k, v)`: every non-overlapping occurrence of `k`, scanned
      left to right, is replaced by `v`; an empty `k` inserts `v` around every
      character. */
  function ReplaceAll(s: string, k: string, v: string): string
    decreases |s|
  {
    if |k| == 0 then
      if |s| == 0 then v else v + [s[0]] + ReplaceAll(s[1..], k, v)
    else if |s| < |k| then s
    else if s[..|k|] == k then v + ReplaceAll(s[|k|..], k, v)
    else [s[0]] + ReplaceAll(s[1..], k, v)
  }

  /** Replacing a substring by itself changes nothing. */
  lemma {:induction false} ReplaceWithItself(s: string, k: string)
    ensures ReplaceAll(s, k, k) == s
    decreases |s|
  {
    if |k| == 0 {
      if |s| > 0 {
        ReplaceWithItself(s[1..], k);
        assert [s[0]] + s[1..] == s;
      }
    } else if |s| < |k| {
    } else if s[..|k|] == k {
      ReplaceWithItself(s[|k|..], k);
      assert s[..|k|] + s[|k|..] == s;
    } else {
      ReplaceWithItself(s[1..], k);
      assert [s[0]] + s[1..] == s;
    }
  }

  /** A non-empty key that does not occur leaves the text unchanged. */
  lemma {:induction false} ReplaceAbsentKey(s: string, k: string, v: string)
    requires |k| > 0 && !Contains(s, k)
    ensures ReplaceAll(s, k, v) == s
    decreases |s|
  {
    if |s| < |k| {
    } else {
      assert !OccursAt(s, k, 0);
      assert s[0..|k|] == s[..|k|];
      if Contains(s[1..], k) {
        var i :| 0 <= i <= |s[1..]| && OccursAt(s[1..], k, i);
        assert i + |k| <= |s| - 1;
        assert s[i + 1..i + 1 + |k|] == s[1..][i..i + |k|];
        assert OccursAt(s, k, i + 1);
        assert false;
      }
      ReplaceAbsentKey(s[1..], k, v);
      assert [s[0]] + s[1..] == s;
    }
  }

  // ---------------------------------------------------------------- digits

  predicate IsDigit(c: char) {
    '0' <= c <= '9'
  }

  function DigitValue(c: char): int
    requires IsDigit(c)
  {
    c as int - '0' as int
  }

  function DigitChar(d: int): (c: char)
    requires 0 <= d <= 9
    ensures IsDigit(c) && DigitValue(c) == d
  {
    ('0' as int + d) as char
  }

  /** Python `str(n)` for a non-negative integer. */
  function DecimalString(n: nat): (r: string)
    ensures |r| > 0
    ensures forall i :: 0 <= i < |r| ==> IsDigit(r[i])
    decreases n
  {
    if n < 10 then [DigitChar(n)] else DecimalString(n / 10) + [DigitChar(n % 10)]
  }
}

=== FILE: wrappers.dfy ===
/** Failure-compatible datatypes shared by every module of the model.
    Python exceptions are modelled as `Err` values carrying the exception class;
    a caller that catches an exception class turns the `Err` back into a value. */
module Wrappers {

  /** The Python exception classes the modelled code raises or lets escape. */
  datatype Error =
    | ValueError
    | TypeError
    | KeyError
    | IndexError
    | AttributeError
    | OverflowError

  datatype Option<+T> = None | Some(value: T) {

    predicate IsFailure() {
      None?
    }

    function PropagateFailure<U>(): Option<U>
      requires None?
    {
      None
    }

    function Extract(): T
      requires Some?
    {
      value
    }

    function GetOr(default: T): T {
      match this
      case Some(v) => v
      case None => default
    }
  }

  datatype Result<+T> = Ok(value: T) | Err(error: Error) {

    predicate IsFailure() {
      Err?
    }

    function PropagateFailure<U>(): Result<U>
      requires Err?
    {
      Err(error)
    }

    function Extract(): T
      requires Ok?
    {
      value
    }
  }

  /** Python's `seq[i]`: negative positions count from the end, anything
      outside `-|s| <= i < |s|` raises IndexError. */
  function PyIndex<T>(s: seq<T>, i: int): (r: Result<T>)
    ensures r.Ok? <==> -|s| <= i < |s|
    ensures 0 <= i < |s| ==> r == Ok(s[i])
    ensures -|s| <= i < 0 ==> r == Ok(s[|s| + i])
    ensures r.Err? ==> r.error == IndexError
  {
    if 0 <= i < |s| then Ok(s[i])
    else if -|s| <= i < 0 then Ok(s[|s| + i])
    else Err(IndexError)
  }
}
